=== FILE: README.md ===
# SrP CS2 cfg installer — a Dafny model

The repository is a small Windows tool that installs Counter-Strike 2 cfg
packages. It comes in two front ends over the same logic:

- `InstallerService` (used by the WPF window) finds the Steam installation
  in the registry. It reads `steamapps/libraryfolders.vdf` to find the
  library that holds the game's global `cfg` directory. It lists the Steam
  users under `userdata` and finds the selected user's local cfg directory.
  It backs both directories up into ZIP archives beside them. It installs
  either a ZIP package (through a temporary directory removed in a `finally`
  block) or a list of dropped files (`.cfg` to the game, `.txt` video
  presets to the user).
- The console `Program` asks for the cfg directory and a line of dropped
  files, then backs the cfg directory up. A single `.zip` is unpacked,
  cleaned of everything that is not `.cfg`, and mirrored into the cfg
  directory. Any other list has its `.cfg` files copied in.

The model is pure: a filesystem is a value, and every operation maps it to a
new filesystem plus what the operation reports. Modules:

| module | what it holds |
|---|---|
| `Base` | `Option`, `Result`, and the "first that qualifies", "those that qualify", "count" and "those that failed" combinators |
| `Text` | whitespace, ordinal case-insensitive suffixes, `Replace`, `TrimEnd`, `Split` with and without empty entries, and the manifest's `\\` escaping |
| `FileSystem` | paths as segment sequences, `Fs(files, dirs)`, and `File.Copy`, `File.Delete`, `Directory.CreateDirectory`, `Directory.Delete`, `Directory.GetFiles` and `Directory.GetDirectories` |
| `Copying` | the batch copy behind `CopyCfgFiles`, `CopyTxtFiles` and the console's `CopyDirectory`: tolerant (`RunCopies`) or stopping at the first exception (`RunUntilFault`); a directory created for a job stays even when its copy fails |
| `Steam` | the registry probes, the manifest scan, the cfg directory search and the user list |
| `Backup` | `CreateCfgBackup` / `CreateVideoCfgBackup` |
| `Install` | `InstallFromFiles`, `CopyCfgFiles`, `CopyTxtFiles`, ZIP extraction and `InstallFromZip` |
| `Session` | the service's state (detected paths, selected user) and the notifications each call raises |
| `Cli` | the console program |

Operating-system behaviour that the program cannot see becomes parameters:

- `locked: set<Path>` is the set of paths the OS refuses to read or write. Any copy or delete touching one throws.
- `order: seq<Path>` is the order in which `Directory.GetFiles` / `GetDirectories` enumerate. Listings are `order` filtered to what exists. The completeness of `order` (`Covers`, `CoversSubdirs`) is assumed only by the lemmas that need it.
- `registry: map<Probe, string>` holds the registry values that can be read.
- `tempDir` is the GUID-named temporary directory.
- `proceed` is the answer to the "continue?" prompt.

## Model

| member | source | states |
|---|---|---|
| Session.SetCs2CfgPath | Installer/InstallerService.cs:26-38 | the new path is stored; notifications are raised iff the value differs, and then they are exactly Cs2CfgPath followed by CfgBackupPath |
| Session.SetVideoCfgPath | Installer/InstallerService.cs:40-52 | the same for VideoCfgPath and VideoBackupPath |
| Session.SettersSuppressRepeats | Installer/InstallerService.cs:26-52 | assigning the same value a second time changes nothing and raises nothing |
| Session.DerivedBackupPath | Installer/InstallerService.cs:54-55 | null for a null directory; the getter throws exactly for a directory with no parent, a drive root written with or without its separator; otherwise it is the archive path GetParent gives |
| Session.DisplayedBackupIsWritten | Installer/InstallerService.cs:54-55 | the backup path the window shows is the path a successful backup writes, for both kinds |
| Session.DetectSteamPath | Installer/InstallerService.cs:57-95 | returns the first probe's root; on success it stores the path and raises SteamPathDetected then an [OK] log; otherwise it raises only a [!] log and leaves the state alone |
| Session.DetectedSteamRootHasExe | Installer/InstallerService.cs:80-85 | a detected root is an existing directory holding steam.exe, and it is stored |
| Session.DetectCs2CfgPath | Installer/InstallerService.cs:97-123 | it is silent exactly when the root or the manifest is missing; on success it stores through the setter and raises the setter's notifications, then Cs2CfgPathDetected and an [OK] log; on failure a [!] log and no state change |
| Session.DetectCs2CfgTwice | Installer/InstallerService.cs:97-123 | detecting again yields the same state and value and no property-change notification |
| Session.DetectVideoCfgPath | Installer/InstallerService.cs:164-177 | the user's cfg directory iff it exists; silent mode logs nothing, otherwise exactly one [OK] or [!] line |
| Session.SetSteamUserId | Installer/InstallerService.cs:142-162 | the id is stored and announced first; without a Steam path nothing else changes; with one the video path becomes the user's cfg directory, and when it changed the two setter notifications, VideoCfgPathDetected and, for a found directory, the [OK] log follow in that order |
| Session.SelectUserTwice | Installer/InstallerService.cs:142-162 | selecting the same user again changes no state and raises only the user-id event |
| Steam.ProbeValues | Installer/InstallerService.cs:59-77 | one entry per registry probe, in order; present exactly when that value can be read, and then it is the value stored under that probe |
| Steam.NormalizeRoot | Installer/InstallerService.cs:78 | the result is a prefix of the raw value with every '/' turned into '\\' and what was cut off made of separators only; it has no '/' and no trailing '\\'; its path segments are a prefix of the raw value's |
| Steam.TrimmedSplitIsPrefix | Installer/InstallerService.cs:78 | cutting trailing separators off a string cuts whole segments off the end of its path |
| Steam.FindSteamRoot | Installer/InstallerService.cs:67-91 | None iff no probe names a Steam root; otherwise the normalised value of the first probe that does, which is a directory holding steam.exe |
| Steam.MatchPathEntry | Installer/InstallerService.cs:105 | a match at the start of the text is exactly a `"path"` key, blank space and a quoted non-empty value without quotes; `MatchEntryExact` gives the converse |
| Steam.MatchEntryExact | Installer/InstallerService.cs:105 | every `"path"` key followed by blank space and a quoted non-empty, quote-free value is matched, capturing that value and ending right after its closing quote |
| Steam.ScanLibraryPaths | Installer/InstallerService.cs:105-107 | every captured library value is non-empty and quote-free |
| Steam.ScanManifest | Installer/InstallerService.cs:105-109 | a manifest made of well-formed path entries separated by any text that contains no `"path"` key yields exactly the entries' values, in file order |
| Steam.QuotesNotBeforePIsFiller | Installer/InstallerService.cs:105 | text in which no double quote is followed by a `p` can never hide a `"path"` key, so it is skipped by the scan |
| Text.CollapseUndoesDouble | Installer/InstallerService.cs:109 | Replace("\\\\", "\\") undoes the manifest's backslash doubling |
| Steam.GlobalCfgCandidates | Installer/InstallerService.cs:99-111 | there are no candidates when the root directory or the library manifest is missing |
| Steam.CandidatesFromManifest | Installer/InstallerService.cs:99-111 | for a manifest whose entries hold the libraries with their backslashes doubled, the candidates are exactly `<library>\\steamapps\\common\\Counter-Strike Global Offensive\\game\\csgo\\cfg`, one per library, in file order |
| Steam.FindGlobalCfg | Installer/InstallerService.cs:107-118 | found iff some candidate exists, and then it is the first existing candidate; finding one implies the root and the manifest exist |
| Steam.FirstDir | Installer/InstallerService.cs:107-119 | the first existing directory among the candidates, and whether there is one |
| Steam.FindUserCfg | Installer/InstallerService.cs:166-171 | <root>/userdata/<id>/730/local/cfg iff that directory exists |
| Steam.ChildNames | Installer/InstallerService.cs:134-137 | each listed subdirectory is the home directory plus the returned name |
| Steam.ListUsers | Installer/InstallerService.cs:125-140 | empty without userdata; every returned id is a subdirectory of userdata; with a complete enumeration every subdirectory's name is returned; the ids are distinct |
| Backup.BackupPath | Installer/InstallerService.cs:184-185 | exists iff the directory, without a trailing separator, has a parent; it is named by the kind's archive name and sits beside the directory, or inside it when the directory is written with a trailing separator, since GetParent then only drops the empty last segment |
| Backup.BackupPathsDiffer | Installer/InstallerService.cs:202 | the cfg backup and the video backup never land on the same file |
| Backup.Snapshot | Installer/InstallerService.cs:191 | the archive holds exactly the files under the directory, at their relative paths, with their contents |
| Backup.ClearTarget | Installer/InstallerService.cs:187-188 | deleting the old archive fails only when it exists and its directory is missing, or it is locked or a directory; success removes exactly that path |
| Backup.CreateBackup | Installer/InstallerService.cs:179-194 | DirectoryNotFound leaves everything alone; success happens exactly when the backup path is writable and its parent exists, and then it writes the snapshot there and nothing else; a failure creates no file |
| Backup.BackupWrites | Installer/InstallerService.cs:179-194 | with the directory present and the backup path writable, the backup succeeds and replaces that path by the snapshot |
| Backup.BackupOverCurrent | Installer/InstallerService.cs:187-191 | a backup over an up-to-date archive leaves the filesystem unchanged |
| Backup.BackupTwice | Installer/Program.cs:168-182 | backing up twice in a row succeeds the second time and leaves the same filesystem |
| Backup.BackupKeepsValid | Installer/InstallerService.cs:179-194 | a backup keeps the filesystem well-formed |
| Install.CfgIsNotTxt | Installer/InstallerService.cs:280-297 | no name ends in both .cfg and .txt |
| Install.RouteOf | Installer/InstallerService.cs:279-316 | .cfg (when cfg is on) goes to the cfg directory, .txt (when video is on) to the video directory, and everything else is skipped, each case as an iff |
| Install.HandleFile | Installer/InstallerService.cs:273-316 | a missing file is passed over; a routed file with a null target is ignored; a copy lands in the target directory under the file's name; any other outcome leaves the filesystem alone |
| Install.ReplayOutcomes | Installer/InstallerService.cs:272-317 | in a whole run, each copy follows its file's route to the category directory under its own name, and each skip is a file no route takes |
| Install.ReplayFrame | Installer/InstallerService.cs:272-317 | a path no file was copied onto keeps its contents |
| Install.ReplayKeepsValid | Installer/InstallerService.cs:272-317 | the foreach keeps the filesystem well-formed |
| Install.OutcomesPartition | Installer/InstallerService.cs:272-317 | every dropped file has exactly one of the six outcomes |
| Install.TallySnoc | Installer/InstallerService.cs:288-315 | one more file updates at most one counter, which keeps each counter equal to the number of outcomes of its kind |
| Install.InstallFromFiles | Installer/InstallerService.cs:263-337 | the loop reaches the run's filesystem; the cfg, txt and skipped counters count the outcomes of their kind; the failure list is exactly the failed files, in drop order; the counted files never exceed the dropped ones; no directory is created |
| Install.CfgListing | Installer/InstallerService.cs:344-347 | the .cfg files under the source; all of them when the enumeration is complete; no repeats |
| Install.CfgFailures | Installer/InstallerService.cs:358-361 | together with the successes, the failures account for every listed file; each one names a .cfg file under the source |
| Install.CopyCfgFiles | Installer/InstallerService.cs:339-374 | throws iff the source is missing; copied plus failed equals the listed .cfg files; new files are .cfg files below the destination; no directory disappears |
| Install.CopyCfgReport | Installer/InstallerService.cs:344-362 | the copied count is the number of jobs that succeeded, and a file is in the failure list exactly when its job failed |
| Install.CopyCfgInstalls | Installer/InstallerService.cs:344-361 | every .cfg file under the source is reported failed or sits at its relative path under the destination with its contents |
| Install.CopyCfgFrame | Installer/InstallerService.cs:339-374 | any path that is not a .cfg path below the destination is left alone |
| Install.TxtListing | Installer/InstallerService.cs:381 | the .txt files under the source; all of them when the enumeration is complete |
| Install.FlatJobs | Installer/InstallerService.cs:383-384 | each .txt file goes directly into the destination under its own name |
| Install.TxtFailures | Installer/InstallerService.cs:391-394 | together with the successes, the failures account for every listed file; each one is a bare .txt name |
| Install.CopyTxtFiles | Installer/InstallerService.cs:376-407 | throws iff the source is missing; copied plus failed equals the listed .txt files; new files are .txt files directly in the destination; no directory is created |
| Install.CopyTxtReport | Installer/InstallerService.cs:381-395 | the copied count is the number of jobs that succeeded; every failed job's file name is in the failure list and every listed name belongs to a failed job |
| Install.FailedNamesExact | Installer/InstallerService.cs:391-394 | the failure list holds the name of every file whose copy failed, and every name in it belongs to such a file |
| Install.CopyTxtLastWins | Installer/InstallerService.cs:381-389 | among same-named .txt files from different subdirectories, the last one copied successfully wins |
| Install.CopyTxtFrame | Installer/InstallerService.cs:376-407 | any path that is not a .txt file directly in the destination is left alone |
| Install.Placed | Installer/InstallerService.cs:223 | every archive entry lands at the destination plus its entry path, and nothing else is placed |
| Install.Extract | Installer/InstallerService.cs:223 | success means the ZIP exists and is well-formed; each entry is written at its path under the destination; nothing outside the destination changes; new files all come from the archive |
| Install.ExtractKeepsValid | Installer/InstallerService.cs:223 | extraction keeps the filesystem well-formed |
| Install.ZipBody | Installer/InstallerService.cs:220-253 | the try block fails exactly when extraction fails, and then changes nothing; a category is reported iff it is switched on and its directory is known |
| Install.RemoveTemp | Installer/InstallerService.cs:254-258 | nothing at or under the temporary directory remains; everything else is kept |
| Install.InstallFromZip | Installer/InstallerService.cs:213-261 | a failing CreateDirectory changes nothing; otherwise no file or directory under the temporary directory survives, whatever the try block did |
| Install.TempRoundTrip | Installer/InstallerService.cs:217-258 | creating a fresh temporary directory and removing it restores the filesystem exactly |
| Install.ZipFailureLeavesNoTrace | Installer/InstallerService.cs:213-261 | with a fresh temporary directory, a failed installation leaves the filesystem exactly as it was, and the error came from extraction |
| Install.ExtractCovers | Installer/InstallerService.cs:223-229 | after extraction, an enumeration listing every entry is complete for the temporary directory |
| Install.ZipBodyInstallsCfg | Installer/InstallerService.cs:223-238 | the try block delivers every .cfg entry to its path under the cfg directory, or reports it failed |
| Install.ZipInstallsCfg | Installer/InstallerService.cs:213-261 | after a successful installation every .cfg entry of the package is reported failed or sits at its archive path under the cfg directory with its contents |
| Install.CopyTxtEntry | Installer/InstallerService.cs:381-395 | a .txt file under the source that no other .txt file there shares a name with is reported failed or sits directly in the destination with its contents |
| Install.CfgStageKeepsTemp | Installer/InstallerService.cs:227-229 | copying the .cfg files to a cfg directory apart from the temporary directory leaves every file under the temporary directory as it was |
| Install.ZipBodyInstallsTxt | Installer/InstallerService.cs:220-253 | in the try block, a .txt entry whose name no other .txt entry has is delivered to the video directory with its contents or reported failed, whether or not the .cfg stage ran first |
| Install.ZipInstallsTxt | Installer/InstallerService.cs:213-261 | after a successful installation such a .txt entry of the package is reported failed or sits directly in the video directory with its contents |
| Copying.Transfer | Installer/InstallerService.cs:354-355 | one job succeeds only when the source is readable and the target writable; it then copies the source's contents to the target; a failed job changes no file; the target's directory, once created, stays whether or not the copy succeeds |
| Copying.RunCopies | Installer/InstallerService.cs:344-362 | one flag per job; directories only grow; every new file is the target of a successful job |
| Copying.RunCopiesMakesDirs | Installer/InstallerService.cs:354-355 | when directories are created, every job's target directory exists after the batch, whatever the copies did, as long as no file blocks the way |
| Copying.RunCopiesFrame | Installer/InstallerService.cs:344-362 | a path no successful job targets keeps its contents |
| Copying.RunCopiesLastWins | Installer/InstallerService.cs:344-362 | a successful job's target holds its source's original contents unless a later job to it succeeded |
| Copying.RunUntilFault | Installer/Program.cs:210-220 | the uncaught loop completes every job exactly when it reports no fault |
| Copying.UntilFaultMakesDirs | Installer/Program.cs:217-218 | every job the uncaught loop reached leaves its target directory behind, even the one whose copy threw |
| Copying.UntilFaultAgrees | Installer/Program.cs:210-220 | the uncaught loop finishes iff every tolerant job succeeds, then reaches the same filesystem; its completed jobs all succeed in the tolerant run |
| Copying.MirrorJobs | Installer/InstallerService.cs:349-350 | each file goes to the destination plus its path relative to the source |
| Copying.MirrorTargetsAvoidSources | Installer/InstallerService.cs:349-355 | with neither directory inside the other, no target overwrites a source |
| Copying.MirrorTargetsDistinct | Installer/InstallerService.cs:349-350 | distinct files get distinct targets |
| Copying.MirrorContents | Installer/InstallerService.cs:344-362 | each successfully mirrored file's target holds that file's contents |
| Copying.MirrorFrame | Installer/InstallerService.cs:344-362 | only paths below the destination carrying a listed file's kind of name can change |
| FileSystem.Combine | Installer/InstallerService.cs:286 | the result starts with the base, without its trailing separator, and ends with the relative part, with nothing in between; a base ending in a separator gains no empty segment |
| FileSystem.Rel | Installer/InstallerService.cs:349 | for a file inside the directory, the relative path is non-empty and rebuilt under the directory gives back the file |
| FileSystem.MakeDirs | Installer/InstallerService.cs:354 | fails iff the directory or an ancestor is a file; success creates it and its ancestors and touches no file |
| FileSystem.CopyFile | Installer/InstallerService.cs:287 | succeeds exactly when the source exists and is readable, differs from the target, and the target is writable in an existing directory; it overwrites the target with the source's contents |
| FileSystem.DeleteFile | Installer/Program.cs:198 | fails exactly for a missing directory, a locked path or a directory; a missing directory gives DirectoryNotFound; success removes that file only, and a missing file in an existing directory is no error |
| FileSystem.DeleteTree | Installer/InstallerService.cs:257 | everything at or under the directory disappears; everything else is kept |
| FileSystem.FilesUnder | Installer/Program.cs:190 | only files under the directory, each once, and all of them when the enumeration is complete |
| FileSystem.SubdirsOf | Installer/InstallerService.cs:131 | only immediate subdirectories, each once, and every one the enumeration lists |
| FileSystem.MakeDirsKeepsValid | Installer/InstallerService.cs:354 | CreateDirectory keeps the filesystem well-formed |
| FileSystem.AncestorsExist | Installer/InstallerService.cs:218 | in a well-formed filesystem every ancestor of a directory is a directory |
| Text.SplitOn | Installer/Program.cs:131 | at least one part; no part holds a separator; the parts together are the input without its separators |
| Text.SplitJoin | Installer/Program.cs:131 | splitting separator-free parts joined by a separator gives back the parts |
| Text.JoinSplit | Installer/Program.cs:131 | joining the parts of a split with its separator gives back the string |
| Text.SplitAtSeparator | Installer/Program.cs:131 | a separator splits a string into the parts of either side |
| Text.SplitIgnoresSeparatorChoice | Installer/InstallerService.cs:78 | replacing '/' by '\\' does not move the segment boundaries |
| Text.NonEmpty | Installer/Program.cs:131 | RemoveEmptyEntries keeps exactly the non-empty parts and loses no character; a single part is kept unless it is empty |
| Text.NonEmptyAppend | Installer/Program.cs:131 | dropping empty parts of two lists joined is dropping them from each list and joining the results |
| Text.NonEmptyConcat | Installer/Program.cs:41 | parts without empty entries are empty as a list iff they hold no character |
| Text.TrimEnd | Installer/InstallerService.cs:78 | a prefix of the input not ending in the character, having dropped only that character |
| Text.ReplaceChar | Installer/InstallerService.cs:78 | the same length, the replaced character gone, every other character kept |
| Base.FirstWhere | Installer/InstallerService.cs:67-86 | the index of the first qualifying element, or None iff there is none |
| Base.Unmarked | Installer/InstallerService.cs:358-361 | exactly the failed entries: each one is recorded, every recorded one failed, and failures plus successes count every entry |
| Base.UnmarkedSnoc | Installer/InstallerService.cs:358-361 | the list grows as failedFiles.Add does in the loop: one more entry is appended at the end exactly when it failed, so failures keep the listing's order |
| Base.UnmarkedExact | Installer/InstallerService.cs:358-361 | for jobs without repeats, a job is in the failure list exactly when its flag is false |
| Base.CountSnoc | Installer/InstallerService.cs:288 | a counter incremented in a loop counts the matching elements |
| Base.SelectCount | Installer/InstallerService.cs:288 | the items kept by a filter are as many as the filter counts |
| Cli.SplitInputFiles | Installer/Program.cs:128-132 | nothing for a blank line; otherwise non-empty separator-free parts that together hold every non-separator character |
| Cli.NothingToInstall | Installer/Program.cs:39-45 | the program stops with "empty input" iff the line is blank or holds only separators |
| Cli.SplitInputFilesJoin | Installer/Program.cs:128-132 | paths joined by ';' or ' ' are read back as the same list |
| Cli.FindFirstDir | Installer/Program.cs:157-165 | the loop with an early return computes the first existing candidate |
| Cli.FindCs2CfgPath | Installer/Program.cs:147-166 | the console search finds exactly what the service's detection finds, and that is an existing directory |
| Cli.Removed | Installer/Program.cs:192-206 | exactly the listed files not named .cfg that File.Delete can remove (directory present, not locked, not a directory) |
| Cli.Cleaned | Installer/Program.cs:184-208 | no directory changes; files outside the temp directory and .cfg or locked files under it stay; with a complete enumeration nothing else remains under it |
| Cli.DeleteOne | Installer/Program.cs:194-205 | one pass of the loop: the file is deleted and counted exactly when it is not a .cfg file and the deletion succeeds, so the state after it is that of the listing one file longer |
| Cli.DeleteNonCfg | Installer/Program.cs:192-207 | the loop deletes exactly the removable listed files and counts them |
| Cli.CleanTempDir | Installer/Program.cs:184-208 | a missing directory gives 0; otherwise the cleaned filesystem and the number of files deleted |
| Cli.CopyDirectory | Installer/Program.cs:210-220 | a missing source throws DirectoryNotFound and changes nothing; directories only grow; no more files are copied than listed |
| Cli.CopyDirectoryMirrors | Installer/Program.cs:210-220 | a copy that ran to the end placed every source file at its relative path under the destination with its contents |
| Cli.ZipMode | Installer/Program.cs:67-92 | a missing ZIP ends the program untouched; a finished run leaves nothing at or under the temporary directory |
| Cli.ZipModeCrashLeavesTemp | Installer/Program.cs:76-80 | an extraction failure crashes the program and leaves the temporary directory behind |
| Cli.ZipModeInstallsCfg | Installer/Program.cs:67-92 | a finished ZIP run puts every .cfg entry at its archive path under the cfg directory with its contents |
| Cli.CopyDroppedFiles | Installer/Program.cs:97-119 | the console loop does what the service's InstallFromFiles does with only cfg installation on, and creates no directory |
| Cli.DroppedFilesFrame | Installer/Program.cs:97-119 | dropped files are written only to the cfg directory, under the names of .cfg files |
| Cli.RunMain | Installer/Program.cs:28-122 | a blank or missing cfg directory exits first, changing nothing; "empty input" happens iff the cfg is valid and the line holds no file, and it changes nothing; cancellation happens iff the backup failed and the user declined |
| Cli.ZipModeRun | Installer/Program.cs:47-92 | with a valid cfg directory, a single input ending in .zip in any letter case and a backup that succeeded or was overridden, Main runs the zip mode on the filesystem the backup left |
| Cli.FileListRun | Installer/Program.cs:47-119 | with a valid cfg directory, input that is not a zip and a backup that succeeded or was overridden, Main copies the dropped files on the filesystem the backup left |
| Cli.ArchiveNotCfg | Installer/Program.cs:174 | the backup archive names do not end in .cfg |
| Cli.BackupSurvivesFileInstall | Installer/Program.cs:49-122 | after a successful backup, a file-list installation finishes and leaves the archive of the original cfg directory intact |

## Left out

- GetSteamPath of the console program (one registry read) and the first prompts of Main: `RunMain` starts from the cfg directory text, whether found by `FindCs2CfgPath` or typed in. The `Trim('"')` applied to typed input is not modelled.
- Registry internals: value types, `ToString()` and the exceptions swallowed by `catch { }` are reduced to "value readable or not".
- Log texts, console messages and `Console.ReadKey`: each log line is modelled by its level and topic only. The prompt answer is the `proceed` parameter.
- ZIP internals: compression, directory entries and partial extraction. `Extract` is all-or-nothing, and an archive is its map of entry paths to contents.
- `Directory.Delete(tempDir, true)` is modelled as always succeeding (`DeleteTree`). A locked file inside the temporary directory is not modelled.
- Path comparison is ordinal and case-sensitive on segments. Windows' case-insensitive file names, drive-letter handling, `Path.GetFullPath`, UNC paths and the `FullName` of `Directory.GetParent` are not modelled.
- The GUID temporary directory name and `Path.GetTempPath()` are the `tempDir` parameter. Its freshness is a precondition of the lemmas that need it.
- The WPF window (MainWindow.xaml.cs) is not part of this model.
- The property setters compare parsed paths, not the strings the service stores. Two spellings of one path count as equal here.
- Install.TxtListing: the `"*.txt"` search pattern is modelled as an ordinal case-insensitive `.txt` suffix. Windows' 8.3 short-name matching of patterns is not modelled.
- Install.CfgListing, Install.TxtListing, FileSystem.FilesUnder, Steam.ListUsers: completeness holds only for an `order` that covers the directory. Nothing constrains the enumeration order itself.
- Steam.FindUserCfg: the user id is assumed non-empty and free of path separators, as the directory names GetAvailableSteamUsers returns are. `Path.Combine` skips an empty id and splits one holding a separator into several segments, which the model, keeping the id as one segment, does not.
- Steam.ListUsers: distinctness is stated for an enumeration without repeats, which is what Directory.GetDirectories returns.
- Backup.CreateBackup: `ZipFile.CreateFromDirectory` is modelled as succeeding whenever the archive path is writable. The exception it throws for an unreadable file inside the directory is not modelled.
- Text.IsWhiteSpace: the Unicode categories Zs, Zl and Zp are listed as the explicit code points of .NET's table.
- Session.SetSteamUserId: selecting the same profile again still raises OnSteamUserIdDetected, which the setter fires unconditionally (Installer/InstallerService.cs:145); only the video-path notifications are suppressed when the derived path does not change (Installer/InstallerService.cs:150-151). The model does the same and promises no suppression of the user-id event.
- Steam.GlobalCfgCandidates: the `File.ReadAllText` of `libraryfolders.vdf` (Installer/InstallerService.cs:104, Installer/Program.cs:154) is modelled as always succeeding once the file exists. A locked or unreadable manifest, whose exception no caller catches, is not modelled.
- Backup.CreateBackup: a directory written with a trailing separator is a different path value from the same directory written without one, so the existence test fails for that spelling in the model where `Directory.Exists` accepts it. The archive that .NET would then write inside the directory is never reached. The same holds for Cli.RunMain, which reports a typed `...\cfg\` as an invalid cfg directory.
- Text.EndsWithIgnoreCase: folds ASCII letters only. .NET's `OrdinalIgnoreCase` also maps some non-ASCII characters, such as U+0131 to 'I', so a name like "pack.zıp" counts as a zip for the program but not for the model.

=== FILE: backup.dfy ===
/** Backing up a cfg directory into a ZIP archive beside it: CreateCfgBackup
    and CreateVideoCfgBackup of the service, and CreateCfgBackup of the
    console program, which differ only in the archive's file name. */
module Backup {
  import opened Base
  import opened FileSystem

  /** Which cfg directory is backed up: the game's global one or a user's. */
  datatype Kind = GlobalCfg | UserCfg

  /** The fixed archive name of each kind. */
  function ArchiveName(k: Kind): string {
    match k
    case GlobalCfg => "cfg_backup.zip"
    case UserCfg => "user_cfg_backup.zip"
  }

  /** Path.Combine(Directory.GetParent(dir)!.FullName, ArchiveName(k)): None for a
      drive root, whose parent is null, whether or not it is written with its
      separator. GetParent drops the last segment, so for a directory written
      with a trailing separator it is the directory itself, and the archive
      lands inside it. */
  function BackupPath(dir: Path, k: Kind): (r: Option<Path>)
    ensures r.Some? <==> |Stem(dir)| >= 2
    ensures r.Some? ==> Parent(r.value) == Parent(dir) && Name(r.value) == ArchiveName(k)
    ensures r.Some? ==> !IsUnder(r.value, dir)
    ensures r.Some? && Stem(dir) == dir ==> !IsUnder(r.value, Stem(dir))
    ensures r.Some? && Stem(dir) != dir ==> IsUnder(r.value, Stem(dir))
  {
    if |Stem(dir)| >= 2 then Some(Parent(dir) + [ArchiveName(k)]) else None
  }

  /** The two kinds of backup never land on the same file, even for two cfg
      directories that share a parent. */
  lemma BackupPathsDiffer(a: Path, b: Path)
    requires BackupPath(a, GlobalCfg).Some? && BackupPath(b, UserCfg).Some?
    ensures BackupPath(a, GlobalCfg).value != BackupPath(b, UserCfg).value
  {
    assert Name(BackupPath(a, GlobalCfg).value) != Name(BackupPath(b, UserCfg).value);
  }

  /** The entries ZipFile.CreateFromDirectory(dir, _, _, includeBaseDirectory: false)
      writes: every file under `dir`, at its path relative to `dir`. */
  function Snapshot(fs: Fs, dir: Path): (r: map<Path, Content>)
    ensures forall k :: k in r <==> |k| >= 1 && dir + k in fs.files
    ensures forall k :: k in r ==> r[k] == fs.files[dir + k]
  {
    var r := map p | p in fs.files && IsUnder(p, dir) :: Rel(dir, p) := fs.files[p];
    assert forall k :: |k| >= 1 && dir + k in fs.files ==> k in r by {
      forall k | |k| >= 1 && dir + k in fs.files
        ensures k in r
      {
        assert IsUnder(dir + k, dir) && Rel(dir, dir + k) == k;
      }
    }
    r
  }

  /** A snapshot only depends on the files under the directory. */
  lemma SnapshotLocal(fs: Fs, fs': Fs, dir: Path)
    requires forall p :: IsUnder(p, dir) ==> (p in fs.files <==> p in fs'.files)
    requires forall p :: IsUnder(p, dir) && p in fs.files ==> fs.files[p] == fs'.files[p]
    ensures Snapshot(fs, dir) == Snapshot(fs', dir)
  {
    var a, b := Snapshot(fs, dir), Snapshot(fs', dir);
    forall k
      ensures k in a <==> k in b
    {
      if |k| >= 1 {
        assert IsUnder(dir + k, dir);
      }
    }
    forall k | k in a
      ensures a[k] == b[k]
    {
      assert IsUnder(dir + k, dir);
    }
  }

  /** The filesystem after a backup attempt, and the archive path or the exception. */
  datatype BackupRun = BackupRun(fs: Fs, result: Result<Path, Fault>)

  /** The first step of a backup: an existing file at the backup path is
      deleted; a missing one is no error. */
  function ClearTarget(fs: Fs, bp: Path, locked: set<Path>): (r: Result<Fs, Fault>)
    ensures r.Ok? <==> bp !in fs.files || (Parent(bp) in fs.dirs && bp !in locked && bp !in fs.dirs)
    ensures r.Ok? ==> r.value == fs.(files := fs.files - {bp})
  {
    if bp in fs.files then DeleteFile(fs, bp, locked)
    else
      assert fs.files - {bp} == fs.files;
      Ok(fs)
  }

  /** Writing a key just deleted is writing it over the old value. */
  lemma OverwriteAfterDelete(m: map<Path, Content>, key: Path, v: Content)
    ensures (m - {key})[key := v] == m[key := v]
  {
  }

  /** The backup: DirectoryNotFound for a missing directory; otherwise any
      existing file at the backup path is deleted, then the archive is written. */
  function CreateBackup(fs: Fs, dir: Path, k: Kind, locked: set<Path>): (r: BackupRun)
    ensures dir !in fs.dirs ==> r == BackupRun(fs, Err(DirectoryNotFound(dir)))
    ensures r.result.Ok? <==>
      && dir in fs.dirs && BackupPath(dir, k).Some?
      && var bp := BackupPath(dir, k).value;
      bp !in locked && bp !in fs.dirs && Parent(bp) in fs.dirs
    ensures r.result.Ok? ==> BackupPath(dir, k) == Some(r.result.value)
    ensures r.result.Ok? ==> r.fs == fs.(files := fs.files[r.result.value := Archive(Snapshot(fs, dir))])
    ensures r.result.Err? ==> r.fs.dirs == fs.dirs && r.fs.files.Keys <= fs.files.Keys
    ensures forall p :: p in fs.files && Some(p) != BackupPath(dir, k) ==> p in r.fs.files && r.fs.files[p] == fs.files[p]
  {
    if dir !in fs.dirs then BackupRun(fs, Err(DirectoryNotFound(dir)))
    else match BackupPath(dir, k)
      case None => BackupRun(fs, Err(NullParent(dir)))
      case Some(bp) =>
        match ClearTarget(fs, bp, locked)
          case Err(e) => BackupRun(fs, Err(e))
          case Ok(fs1) =>
            if bp in locked then BackupRun(fs1, Err(IoError(bp)))
            else if bp in fs1.dirs then BackupRun(fs1, Err(AccessDenied(bp)))
            else if Parent(bp) !in fs1.dirs then BackupRun(fs1, Err(DirectoryNotFound(Parent(bp))))
            else
              SnapshotLocal(fs, fs1, dir);
              var archive := Archive(Snapshot(fs1, dir));
              OverwriteAfterDelete(fs.files, bp, archive);
              BackupRun(fs1.(files := fs1.files[bp := archive]), Ok(bp))
  }

  /** When the directory exists and the backup path can be written, the backup
      succeeds and replaces whatever was at the backup path by the archive. */
  lemma BackupWrites(fs: Fs, dir: Path, k: Kind, locked: set<Path>, bp: Path)
    requires dir in fs.dirs && BackupPath(dir, k) == Some(bp)
    requires bp !in locked && bp !in fs.dirs && Parent(bp) in fs.dirs
    ensures CreateBackup(fs, dir, k, locked) == BackupRun(fs.(files := fs.files[bp := Archive(Snapshot(fs, dir))]), Ok(bp))
  {
  }

  /** A backup over an up-to-date archive rewrites it unchanged. */
  lemma BackupOverCurrent(fs: Fs, dir: Path, k: Kind, locked: set<Path>, bp: Path)
    requires dir in fs.dirs && BackupPath(dir, k) == Some(bp)
    requires bp !in locked && bp !in fs.dirs && Parent(bp) in fs.dirs
    requires bp in fs.files && fs.files[bp] == Archive(Snapshot(fs, dir))
    ensures CreateBackup(fs, dir, k, locked) == BackupRun(fs, Ok(bp))
  {
    BackupWrites(fs, dir, k, locked, bp);
    assert fs.files[bp := Archive(Snapshot(fs, dir))] == fs.files;
  }

  /** Backing up twice in a row: the second run finds the first run's archive,
      deletes it and writes the same archive again, so it does not fail and
      leaves the same filesystem. */
  lemma BackupTwice(fs: Fs, dir: Path, k: Kind, locked: set<Path>)
    requires CreateBackup(fs, dir, k, locked).result.Ok?
    ensures var first := CreateBackup(fs, dir, k, locked);
      CreateBackup(first.fs, dir, k, locked) == first
  {
    var first := CreateBackup(fs, dir, k, locked);
    var bp := first.result.value;
    var fs2 := first.fs;
    assert Snapshot(fs2, dir) == Snapshot(fs, dir) by {
      assert !IsUnder(bp, dir);
      SnapshotLocal(fs, fs2, dir);
    }
    BackupOverCurrent(fs2, dir, k, locked, bp);
  }

  lemma BackupKeepsValid(fs: Fs, dir: Path, k: Kind, locked: set<Path>)
    requires Valid(fs)
    ensures Valid(CreateBackup(fs, dir, k, locked).fs)
  {
  }
}

=== FILE: base.dfy ===
/** Optional values, results that may fail, and the two sequence combinators the
    installer's loops reduce to: "first candidate that qualifies" and "the
    candidates that qualify, in order". */
module Base {

  /** A value that may be absent: the model of a C# nullable reference. */
  datatype Option<+T> = None | Some(value: T)

  /** The outcome of an operation that may throw: `Err` carries the exception. */
  datatype Result<+T, +E> = Ok(value: T) | Err(error: E) {

    predicate IsFailure() {
      Err?
    }

    function PropagateFailure<U>(): Result<U, E>
      requires Err?
    {
      Err(error)
    }

    function Extract(): T
      requires Ok?
    {
      value
    }
  }

  /** No element occurs twice. */
  predicate Distinct<T(==)>(xs: seq<T>) {
    forall i, j :: 0 <= i < j < |xs| ==> xs[i] != xs[j]
  }

  /** The index of the first element satisfying `ok`, trying the elements in order. */
  function FirstWhere<T>(xs: seq<T>, ok: T -> bool): (r: Option<nat>)
    ensures r.Some? ==> r.value < |xs| && ok(xs[r.value])
    ensures r.Some? ==> forall j :: 0 <= j < r.value ==> !ok(xs[j])
    ensures r.None? <==> forall j :: 0 <= j < |xs| ==> !ok(xs[j])
    decreases |xs|
  {
    if |xs| == 0 then None
    else if ok(xs[0]) then Some(0)
    else match FirstWhere(xs[1..], ok)
      case None => None
      case Some(k) => Some(k + 1)
  }

  /** The elements of `xs` satisfying `keep`, in their original order. */
  function Select<T(==)>(xs: seq<T>, keep: T -> bool): (r: seq<T>)
    ensures forall i :: 0 <= i < |r| ==> r[i] in xs && keep(r[i])
    ensures forall i :: 0 <= i < |xs| && keep(xs[i]) ==> xs[i] in r
    ensures Distinct(xs) ==> Distinct(r)
    ensures |r| <= |xs|
    decreases |xs|
  {
    if |xs| == 0 then []
    else if keep(xs[0]) then [xs[0]] + Select(xs[1..], keep)
    else Select(xs[1..], keep)
  }

  /** Selecting over a sequence grown at its end. */
  lemma {:induction false} SelectSnoc<T>(xs: seq<T>, x: T, keep: T -> bool)
    ensures Select(xs + [x], keep) == Select(xs, keep) + (if keep(x) then [x] else [])
    decreases |xs|
  {
    if |xs| > 0 {
      assert (xs + [x])[0] == xs[0] && (xs + [x])[1..] == xs[1..] + [x];
      SelectSnoc(xs[1..], x, keep);
    } else {
      assert xs + [x] == [x] && [x][1..] == [];
    }
  }

  /** Selecting keeps as many elements as satisfy the predicate. */
  lemma {:induction false} SelectCount<T>(xs: seq<T>, keep: T -> bool)
    ensures |Select(xs, keep)| == Count(xs, keep)
    decreases |xs|
  {
    if |xs| > 0 {
      SelectCount(xs[1..], keep);
    }
  }

  /** The number of `true` entries. */
  function CountTrue(bs: seq<bool>): (n: nat)
    ensures n <= |bs|
    ensures n == |bs| <==> forall i :: 0 <= i < |bs| ==> bs[i]
    decreases |bs|
  {
    if |bs| == 0 then 0 else (if bs[0] then 1 else 0) + CountTrue(bs[1..])
  }

  /** The number of elements satisfying `p`. */
  function Count<T>(xs: seq<T>, p: T -> bool): (n: nat)
    ensures n <= |xs|
    decreases |xs|
  {
    if |xs| == 0 then 0 else (if p(xs[0]) then 1 else 0) + Count(xs[1..], p)
  }

  /** Counting over a sequence grown at its end: what a counter incremented in
      a loop holds. */
  lemma {:induction false} CountSnoc<T>(xs: seq<T>, x: T, p: T -> bool)
    ensures Count(xs + [x], p) == Count(xs, p) + (if p(x) then 1 else 0)
    decreases |xs|
  {
    if |xs| > 0 {
      assert (xs + [x])[1..] == xs[1..] + [x];
      CountSnoc(xs[1..], x, p);
    }
  }

  /** Among distinct entries, exactly those whose flag is false are kept. */
  lemma UnmarkedExact<T>(xs: seq<T>, ok: seq<bool>, i: nat)
    requires |xs| == |ok| && Distinct(xs) && i < |xs|
    ensures xs[i] in Unmarked(xs, ok) <==> !ok[i]
  {
    if xs[i] in Unmarked(xs, ok) {
      var k :| 0 <= k < |Unmarked(xs, ok)| && Unmarked(xs, ok)[k] == xs[i];
      var j :| 0 <= j < |xs| && !ok[j] && Unmarked(xs, ok)[k] == xs[j];
      assert j == i;
    }
  }

  /** Recording failures in a loop: one more entry adds itself at the end
      exactly when its flag is false, so the failures keep the batch's order. */
  lemma {:induction false} UnmarkedSnoc<T>(xs: seq<T>, ok: seq<bool>, x: T, b: bool)
    requires |xs| == |ok|
    ensures Unmarked(xs + [x], ok + [b]) == Unmarked(xs, ok) + (if b then [] else [x])
    decreases |xs|
  {
    if |xs| > 0 {
      assert (xs + [x])[1..] == xs[1..] + [x] && (ok + [b])[1..] == ok[1..] + [b];
      UnmarkedSnoc(xs[1..], ok[1..], x, b);
    } else {
      assert xs + [x] == [x] && ok + [b] == [b];
    }
  }

  /** The entries of `xs` whose flag in `ok` is false, in order: the failures
      of a batch whose outcomes are `ok`. */
  function Unmarked<T>(xs: seq<T>, ok: seq<bool>): (r: seq<T>)
    requires |xs| == |ok|
    ensures |r| + CountTrue(ok) == |xs|
    ensures forall i :: 0 <= i < |xs| && !ok[i] ==> xs[i] in r
    ensures forall i :: 0 <= i < |r| ==> exists j :: 0 <= j < |xs| && !ok[j] && r[i] == xs[j]
    decreases |xs|
  {
    if |xs| == 0 then []
    else
      var rest := Unmarked(xs[1..], ok[1..]);
      assert forall i :: 0 <= i < |rest| ==> exists j :: 0 <= j < |xs| && !ok[j] && rest[i] == xs[j] by {
        forall i | 0 <= i < |rest|
          ensures exists j :: 0 <= j < |xs| && !ok[j] && rest[i] == xs[j]
        {
          var j :| 0 <= j < |xs| - 1 && !ok[1..][j] && rest[i] == xs[1..][j];
          assert !ok[j + 1] && rest[i] == xs[j + 1];
        }
      }
      if ok[0] then rest else [xs[0]] + rest
  }
}

=== FILE: cli.dfy ===
/** The console installer: it reads the cfg directory and a line of dropped
    files, backs the cfg directory up, and then either unpacks a single ZIP
    package through a temporary directory or copies the dropped .cfg files. */
module Cli {
  import opened Base
  import opened Text
  import opened FileSystem
  import opened Copying
  import opened Steam
  import opened Backup
  import opened Install

  // ---------------------------------------------------------------------
  // The input line

  /** The characters the dropped-files line is split on. */
  const InputSeparators: set<char> := {';', ' '}

  /** SplitInputFiles: nothing for a blank line, otherwise the non-empty runs
      between separators (string.Split with RemoveEmptyEntries). */
  function SplitInputFiles(line: string): (r: seq<string>)
    ensures forall i :: 0 <= i < |r| ==> r[i] != "" && NoneOf(r[i], InputSeparators)
    ensures !IsBlank(line) ==> Concat(r) == Strip(line, InputSeparators)
    ensures IsBlank(line) ==> r == []
  {
    if IsBlank(line) then [] else NonEmpty(SplitOn(line, InputSeparators))
  }

  /** The program stops with "input is empty" exactly when the line is blank or
      holds nothing but separators. */
  lemma NothingToInstall(line: string)
    ensures SplitInputFiles(line) == [] <==> IsBlank(line) || Strip(line, InputSeparators) == ""
  {
    NonEmptyConcat(SplitInputFiles(line));
  }

  /** Paths joined by either separator are read back as the same list. */
  lemma SplitInputFilesJoin(paths: seq<string>, sep: char)
    requires sep in InputSeparators && |paths| >= 1
    requires forall i :: 0 <= i < |paths| ==> paths[i] != "" && NoneOf(paths[i], InputSeparators)
    requires !IsBlank(Join(paths, sep))
    ensures SplitInputFiles(Join(paths, sep)) == paths
  {
    SplitJoin(paths, sep, InputSeparators);
    NonEmptyKeeps(paths);
  }

  /** ZIP mode: exactly one dropped file, named *.zip in any letter case. */
  predicate IsZipMode(files: seq<string>) {
    |files| == 1 && EndsWithIgnoreCase(files[0], ".zip")
  }

  function Paths(files: seq<string>): (r: seq<Path>)
    ensures |r| == |files| && forall i :: 0 <= i < |files| ==> r[i] == ParsePath(files[i])
  {
    seq(|files|, i requires 0 <= i < |files| => ParsePath(files[i]))
  }

  // ---------------------------------------------------------------------
  // Locating the cfg directory

  /** The foreach with an early return: the first candidate that exists. */
  method FindFirstDir(dirs: set<Path>, candidates: seq<Path>) returns (r: Option<Path>)
    ensures r == FirstDir(dirs, candidates)
  {
    var i := 0;
    while i < |candidates|
      invariant 0 <= i <= |candidates|
      invariant FirstDirFrom(dirs, candidates, i) == FirstDirFrom(dirs, candidates, 0)
    {
      if candidates[i] in dirs {
        return Some(candidates[i]);
      }
      i := i + 1;
    }
    return None;
  }

  /** FindCS2CfgPath: the manifest's libraries searched for the cfg directory;
      it finds what the service's detection finds, without logging. */
  method FindCs2CfgPath(fs: Fs, steamRoot: Path) returns (r: Option<Path>)
    ensures r == FindGlobalCfg(fs, steamRoot)
    ensures r.Some? ==> r.value in fs.dirs
  {
    r := FindFirstDir(fs.dirs, GlobalCfgCandidates(fs, steamRoot));
  }

  // ---------------------------------------------------------------------
  // Cleaning the temporary directory

  /** A file CleanTempDir deletes: its name does not end in .cfg and File.Delete
      succeeds on it. */
  predicate Removable(fs: Fs, locked: set<Path>, p: Path) {
    !HasCfgName(p) && Parent(p) in fs.dirs && p !in locked && p !in fs.dirs
  }

  /** The listed files CleanTempDir deletes, in listing order. */
  function Removed(fs: Fs, locked: set<Path>, listing: seq<Path>): (r: seq<Path>)
    ensures forall p :: p in r <==> p in listing && Removable(fs, locked, p)
    ensures |r| <= |listing|
    decreases |listing|
  {
    if |listing| == 0 then []
    else
      var init := listing[..|listing| - 1];
      var last := listing[|listing| - 1];
      assert listing == init + [last];
      Removed(fs, locked, init) + (if Removable(fs, locked, last) then [last] else [])
  }

  /** Removed over a listing grown at its end. */
  lemma RemovedSnoc(fs: Fs, locked: set<Path>, listing: seq<Path>, p: Path)
    ensures Removed(fs, locked, listing + [p]) == Removed(fs, locked, listing) + (if Removable(fs, locked, p) then [p] else [])
  {
    assert (listing + [p])[..|listing|] == listing;
  }

  /** The filesystem with the given files deleted. */
  function Without(fs: Fs, gone: seq<Path>): (r: Fs)
    ensures r.dirs == fs.dirs
    ensures forall p :: p in r.files <==> p in fs.files && p !in gone
  {
    Fs(map p | p in fs.files && p !in gone :: fs.files[p], fs.dirs)
  }

  /** One more successful deletion. */
  lemma WithoutSnoc(fs: Fs, gone: seq<Path>, p: Path, locked: set<Path>)
    requires DeleteFile(Without(fs, gone), p, locked).Ok?
    ensures DeleteFile(Without(fs, gone), p, locked).value == Without(fs, gone + [p])
  {
    var a := DeleteFile(Without(fs, gone), p, locked).value;
    var b := Without(fs, gone + [p]);
    assert a.files == b.files;
  }

  /** The filesystem CleanTempDir leaves: the removable files under the
      temporary directory are gone, and nothing else changes. */
  function Cleaned(fs: Fs, temp: Path, order: seq<Path>, locked: set<Path>): (r: Fs)
    ensures r.dirs == fs.dirs
    ensures forall p :: p in r.files ==> p in fs.files && r.files[p] == fs.files[p]
    ensures forall p :: p in fs.files && !IsUnder(p, temp) ==> p in r.files
    ensures forall p :: p in fs.files && IsUnder(p, temp) && (HasCfgName(p) || p in locked) ==> p in r.files
    ensures Valid(fs) && temp in fs.dirs && Covers(order, fs, temp) ==>
      forall p :: p in r.files && IsUnder(p, temp) ==> HasCfgName(p) || p in locked
  {
    if temp !in fs.dirs then fs
    else Without(fs, Removed(fs, locked, FilesUnder(fs, temp, order)))
  }

  /** The loop of CleanTempDir over a listing: each file not named *.cfg is
      deleted if File.Delete succeeds, and the successes are counted. */
  method DeleteNonCfg(fs: Fs, listing: seq<Path>, locked: set<Path>) returns (fs': Fs, deleted: nat)
    ensures fs' == Without(fs, Removed(fs, locked, listing))
    ensures deleted == |Removed(fs, locked, listing)|
  {
    fs', deleted := Without(fs, []), 0;
    ghost var gone: seq<Path> := [];
    var i := 0;
    while i < |listing|
      invariant 0 <= i <= |listing|
      invariant gone == Removed(fs, locked, listing[..i])
      invariant fs' == Without(fs, gone)
      invariant deleted == |gone|
    {
      fs', deleted, gone := DeleteOne(fs, locked, listing, i, fs', deleted, gone);
      i := i + 1;
    }
    assert listing[..i] == listing;
  }

  /** The body of the loop of CleanTempDir for the i-th listed file: a file
      not named *.cfg is deleted if File.Delete succeeds, and then counted. */
  method DeleteOne(fs: Fs, locked: set<Path>, listing: seq<Path>, i: nat,
                   cur: Fs, deleted: nat, ghost gone: seq<Path>)
    returns (next: Fs, deleted': nat, ghost gone': seq<Path>)
    requires i < |listing| && gone == Removed(fs, locked, listing[..i])
    requires cur == Without(fs, gone) && deleted == |gone|
    ensures next == Without(fs, Removed(fs, locked, listing[..i + 1]))
    ensures deleted' == |Removed(fs, locked, listing[..i + 1])|
    ensures gone' == Removed(fs, locked, listing[..i + 1])
  {
    var file := listing[i];
    next, deleted', gone' := cur, deleted, gone;
    DeleteStep(fs, locked, listing, i, gone);
    if !IsCfgName(Name(file)) {
      var attempt := DeleteFile(cur, file, locked);
      if attempt.Ok? {
        next, deleted', gone' := attempt.value, deleted + 1, gone + [file];
      }
    }
  }

  /** One iteration of the loop of DeleteNonCfg: the file is deleted exactly
      when it is removable, and the result is the next prefix's filesystem. */
  lemma DeleteStep(fs: Fs, locked: set<Path>, listing: seq<Path>, i: nat, gone: seq<Path>)
    requires i < |listing| && gone == Removed(fs, locked, listing[..i])
    ensures var file := listing[i];
      var attempt := DeleteFile(Without(fs, gone), file, locked);
      var del := !IsCfgName(Name(file)) && attempt.Ok?;
      && (del <==> Removable(fs, locked, file))
      && Removed(fs, locked, listing[..i + 1]) == (if del then gone + [file] else gone)
      && (del ==> attempt.value == Without(fs, gone + [file]))
  {
    var file := listing[i];
    RemovedPrefix(fs, locked, listing, i);
    if DeleteFile(Without(fs, gone), file, locked).Ok? {
      WithoutSnoc(fs, gone, file, locked);
    }
  }

  /** Removed over one more file of a listing. */
  lemma RemovedPrefix(fs: Fs, locked: set<Path>, listing: seq<Path>, i: nat)
    requires i < |listing|
    ensures Removed(fs, locked, listing[..i + 1])
      == Removed(fs, locked, listing[..i]) + (if Removable(fs, locked, listing[i]) then [listing[i]] else [])
  {
    assert listing[..i + 1] == listing[..i] + [listing[i]];
    RemovedSnoc(fs, locked, listing[..i], listing[i]);
  }

  /** CleanTempDir: nothing for a missing directory; otherwise the loop over
      every file below it. */
  method CleanTempDir(fs: Fs, temp: Path, order: seq<Path>, locked: set<Path>) returns (fs': Fs, deleted: nat)
    ensures fs' == Cleaned(fs, temp, order, locked)
    ensures temp !in fs.dirs ==> deleted == 0
    ensures temp in fs.dirs ==> deleted == |Removed(fs, locked, FilesUnder(fs, temp, order))|
  {
    if temp !in fs.dirs {
      return fs, 0;
    }
    fs', deleted := DeleteNonCfg(fs, FilesUnder(fs, temp, order), locked);
  }

  // ---------------------------------------------------------------------
  // Copying a directory

  /** CopyDirectory: every file under `src` copied to the same relative place
      under `dst`, creating directories on the way, with no catch: the first
      failure ends the copy. Directory.GetFiles throws for a missing `src`. */
  function CopyDirectory(fs: Fs, src: Path, dst: Path, order: seq<Path>, locked: set<Path>): (r: Halted)
    ensures src !in fs.dirs ==> r == Halted(fs, 0, Some(DirectoryNotFound(src)))
    ensures fs.dirs <= r.fs.dirs
    ensures src in fs.dirs ==> r.done <= |FilesUnder(fs, src, order)|
  {
    if src !in fs.dirs then Halted(fs, 0, Some(DirectoryNotFound(src)))
    else RunUntilFault(fs, MirrorJobs(src, dst, FilesUnder(fs, src, order)), locked, true)
  }

  /** A copy that ran to the end mirrored every file under `src` below `dst`,
      provided neither directory contains the other. */
  lemma CopyDirectoryMirrors(fs: Fs, src: Path, dst: Path, order: seq<Path>, locked: set<Path>, p: Path)
    requires CopyDirectory(fs, src, dst, order, locked).fault.None?
    requires Covers(order, fs, src) && Apart(src, Stem(dst))
    requires p in fs.files && IsUnder(p, src)
    ensures var r := CopyDirectory(fs, src, dst, order, locked);
      Combine(dst, Rel(src, p)) in r.fs.files && r.fs.files[Combine(dst, Rel(src, p))] == fs.files[p]
  {
    var listing := FilesUnder(fs, src, order);
    var jobs := MirrorJobs(src, dst, listing);
    UntilFaultAgrees(fs, jobs, locked, true);
    MirrorContents(fs, src, dst, listing, locked);
    var i :| 0 <= i < |listing| && listing[i] == p;
    assert RunCopies(fs, jobs, locked, true).ok[i];
  }

  // ---------------------------------------------------------------------
  // The program

  /** How the program ended. */
  datatype Exit =
    | InvalidCfg           // the cfg directory is blank or missing
    | EmptyInput           // no file was dropped
    | Cancelled            // the backup failed and the user did not press Y
    | MissingZip           // the dropped ZIP does not exist
    | Crashed(fault: Fault)  // an exception escaped Main
    | Finished

  datatype MainRun = MainRun(fs: Fs, exit: Exit)

  /** The ZIP branch of Main: there is no try/finally around it, so an
      exception after the temporary directory was created leaves it behind. */
  function ZipMode(fs: Fs, zip: Path, cfg: Path, tempDir: Path, order: seq<Path>, locked: set<Path>): (r: MainRun)
    ensures zip !in fs.files ==> r == MainRun(fs, MissingZip)
    ensures r.exit == Finished ==> forall p :: p in r.fs.files ==> !(tempDir <= p)
    ensures r.exit == Finished ==> forall p :: p in r.fs.dirs ==> !(tempDir <= p)
    ensures r.exit == MissingZip || r.exit == Finished || r.exit.Crashed?
  {
    if zip !in fs.files then MainRun(fs, MissingZip)
    else match MakeDirs(fs, tempDir)
      case Err(e) => MainRun(fs, Crashed(e))
      case Ok(fs1) =>
        match Extract(fs1, zip, tempDir, locked)
        case Err(e) => MainRun(fs1, Crashed(e))
        case Ok(fs2) =>
          var fs3 := Cleaned(fs2, tempDir, order, locked);
          var copy := CopyDirectory(fs3, tempDir, cfg, order, locked);
          if copy.fault.Some? then MainRun(copy.fs, Crashed(copy.fault.value))
          else MainRun(DeleteTree(copy.fs, tempDir), Finished)
  }

  /** Unlike the service's ZIP installation, a package that fails to extract
      leaves the freshly created temporary directory behind. */
  lemma ZipModeCrashLeavesTemp(fs: Fs, zip: Path, cfg: Path, tempDir: Path, order: seq<Path>, locked: set<Path>)
    requires Valid(fs) && Fresh(fs, tempDir) && zip in fs.files
    requires MakeDirs(fs, tempDir).Ok? && Extract(MakeDirs(fs, tempDir).value, zip, tempDir, locked).Err?
    ensures var r := ZipMode(fs, zip, cfg, tempDir, order, locked);
      r.exit.Crashed? && tempDir in r.fs.dirs
  {
    TempRoundTrip(fs, tempDir);
  }

  /** A ZIP installation that finishes puts every .cfg entry of the package into
      the cfg directory at its path in the archive, with its contents. */
  lemma ZipModeInstallsCfg(fs: Fs, zip: Path, cfg: Path, tempDir: Path, order: seq<Path>, locked: set<Path>, k: Path)
    requires Valid(fs) && Fresh(fs, tempDir) && Apart(tempDir, Stem(cfg))
    requires zip in fs.files && fs.files[zip].Archive? && k in fs.files[zip].entries && IsCfgName(Name(k))
    requires Distinct(order) && forall e :: e in fs.files[zip].entries ==> tempDir + e in order
    requires ZipMode(fs, zip, cfg, tempDir, order, locked).exit == Finished
    ensures var r := ZipMode(fs, zip, cfg, tempDir, order, locked);
      Combine(cfg, k) in r.fs.files && r.fs.files[Combine(cfg, k)] == fs.files[zip].entries[k]
  {
    TempRoundTrip(fs, tempDir);
    var fs1 := MakeDirs(fs, tempDir).value;
    assert fs1.files == fs.files;
    var fs2 := Extract(fs1, zip, tempDir, locked).value;
    ExtractCovers(fs1, zip, tempDir, locked, order);
    var fs3 := Cleaned(fs2, tempDir, order, locked);
    var p := tempDir + k;
    NameBelow(tempDir, k);
    assert p in fs3.files && fs3.files[p] == fs.files[zip].entries[k];
    assert Covers(order, fs3, tempDir);
    CopyDirectoryMirrors(fs3, tempDir, cfg, order, locked, p);
    ApartKeepsOut(tempDir, Stem(cfg), k);
  }

  /** The file-list branch of Main: each dropped file that exists and is named
      *.cfg is copied into the cfg directory under its own name; a failed copy
      is reported and skipped. */
  method CopyDroppedFiles(fs: Fs, files: seq<string>, cfg: Path, locked: set<Path>) returns (fs': Fs)
    ensures fs' == Replay(fs, Paths(files), true, false, Some(cfg), None, locked).fs
    ensures fs'.dirs == fs.dirs
  {
    var paths := Paths(files);
    fs' := fs;
    var i := 0;
    while i < |paths|
      invariant 0 <= i <= |paths|
      invariant fs' == Replay(fs, paths[..i], true, false, Some(cfg), None, locked).fs
    {
      ReplayPrefix(fs, paths, i, true, false, Some(cfg), None, locked);
      var file := paths[i];
      if file in fs'.files && IsCfgName(Name(file)) {
        var dest := Combine(cfg, [Name(file)]);
        var attempt := CopyFile(fs', file, dest, locked);
        if attempt.Ok? {
          fs' := attempt.value;
        }
      }
      i := i + 1;
    }
    assert paths[..i] == paths;
  }

  /** The program's file list installs what the service's InstallFromFiles
      installs with only cfg installation on: dropped files are written only
      to the cfg directory, under their own names. */
  lemma DroppedFilesFrame(fs: Fs, files: seq<string>, cfg: Path, locked: set<Path>, p: Path)
    requires !HasCfgName(p) || forall i :: 0 <= i < |files| ==> p != Combine(cfg, [Name(ParsePath(files[i]))])
    ensures var t := Replay(fs, Paths(files), true, false, Some(cfg), None, locked);
      && (p in t.fs.files <==> p in fs.files)
      && (p in fs.files ==> t.fs.files[p] == fs.files[p])
  {
    var paths := Paths(files);
    var t := Replay(fs, paths, true, false, Some(cfg), None, locked);
    ReplayOutcomes(fs, paths, true, false, Some(cfg), None, locked);
    forall i | 0 <= i < |paths| && t.outcomes[i].Copied?
      ensures t.outcomes[i].target != p
    {
      var name := Name(paths[i]);
      assert t.outcomes[i].target == Combine(cfg, [name]);
      assert Name(Combine(cfg, [name])) == name && IsCfgName(name);
    }
    ReplayFrame(fs, paths, true, false, Some(cfg), None, locked, p);
  }

  /** Main after the Steam and cfg lookups: `cfgInput` is the cfg directory
      found or typed in, `line` the dropped files, `proceed` the answer to the
      prompt shown when the backup fails. */
  function RunMain(fs: Fs, cfgInput: Option<string>, line: string, proceed: bool,
                   tempDir: Path, order: seq<Path>, locked: set<Path>): (r: MainRun)
    ensures cfgInput.None? || IsBlank(cfgInput.value) || ParsePath(cfgInput.value) !in fs.dirs ==> r == MainRun(fs, InvalidCfg)
    ensures r.exit == EmptyInput <==>
      cfgInput.Some? && !IsBlank(cfgInput.value) && ParsePath(cfgInput.value) in fs.dirs && SplitInputFiles(line) == []
    ensures r.exit == EmptyInput ==> r.fs == fs
    ensures r.exit == Cancelled <==>
      && cfgInput.Some? && !IsBlank(cfgInput.value) && ParsePath(cfgInput.value) in fs.dirs
      && SplitInputFiles(line) != []
      && CreateBackup(fs, ParsePath(cfgInput.value), GlobalCfg, locked).result.Err? && !proceed
  {
    if cfgInput.None? || IsBlank(cfgInput.value) || ParsePath(cfgInput.value) !in fs.dirs then MainRun(fs, InvalidCfg)
    else
      var cfg := ParsePath(cfgInput.value);
      var files := SplitInputFiles(line);
      if |files| == 0 then MainRun(fs, EmptyInput)
      else
        var backup := CreateBackup(fs, cfg, GlobalCfg, locked);
        if backup.result.Err? && !proceed then MainRun(backup.fs, Cancelled)
        else if IsZipMode(files) then ZipMode(backup.fs, ParsePath(files[0]), cfg, tempDir, order, locked)
        else MainRun(Replay(backup.fs, Paths(files), true, false, Some(cfg), None, locked).fs, Finished)
  }

  /** A backup archive is not named *.cfg. */
  lemma ArchiveNotCfg(k: Kind)
    ensures !IsCfgName(ArchiveName(k))
  {
    assert ".cfg"[1] == 'c';
    if k == GlobalCfg {
      assert ArchiveName(k)[11] == 'z';
    } else {
      assert ArchiveName(k)[16] == 'z';
    }
  }

  /** When the backup succeeds, the archive of the cfg directory as it was
      before installation sits beside it, and a file-list installation never
      overwrites it, since the archive name does not end in .cfg. */
  lemma BackupSurvivesFileInstall(fs: Fs, cfgInput: string, line: string, proceed: bool,
                                  tempDir: Path, order: seq<Path>, locked: set<Path>)
    requires !IsBlank(cfgInput) && ParsePath(cfgInput) in fs.dirs
    requires SplitInputFiles(line) != [] && !IsZipMode(SplitInputFiles(line))
    requires CreateBackup(fs, ParsePath(cfgInput), GlobalCfg, locked).result.Ok?
    ensures var bp := CreateBackup(fs, ParsePath(cfgInput), GlobalCfg, locked).result.value;
      var r := RunMain(fs, Some(cfgInput), line, proceed, tempDir, order, locked);
      && r.exit == Finished
      && bp in r.fs.files && r.fs.files[bp] == Archive(Snapshot(fs, ParsePath(cfgInput)))
  {
    var cfg := ParsePath(cfgInput);
    var files := SplitInputFiles(line);
    var backup := CreateBackup(fs, cfg, GlobalCfg, locked);
    var bp := backup.result.value;
    BackupArchiveFacts(fs, cfg, locked);
    DroppedFilesFrame(backup.fs, files, cfg, locked, bp);
    FileListRun(fs, cfgInput, line, proceed, tempDir, order, locked);
  }

  /** A successful backup of the global cfg directory leaves its archive,
      which is not named *.cfg, at the backup path. */
  lemma BackupArchiveFacts(fs: Fs, cfg: Path, locked: set<Path>)
    requires CreateBackup(fs, cfg, GlobalCfg, locked).result.Ok?
    ensures var backup := CreateBackup(fs, cfg, GlobalCfg, locked);
      var bp := backup.result.value;
      && !HasCfgName(bp)
      && bp in backup.fs.files && backup.fs.files[bp] == Archive(Snapshot(fs, cfg))
  {
    ArchiveNotCfg(GlobalCfg);
  }

  /** With a valid cfg directory, a non-empty list that is not a single ZIP,
      and a backup that succeeded or a user who chose to go on, the console
      program installs the list over the backed-up filesystem and finishes. */
  lemma FileListRun(fs: Fs, cfgInput: string, line: string, proceed: bool,
                    tempDir: Path, order: seq<Path>, locked: set<Path>)
    requires !IsBlank(cfgInput) && ParsePath(cfgInput) in fs.dirs
    requires SplitInputFiles(line) != [] && !IsZipMode(SplitInputFiles(line))
    requires CreateBackup(fs, ParsePath(cfgInput), GlobalCfg, locked).result.Ok? || proceed
    ensures var cfg := ParsePath(cfgInput);
      RunMain(fs, Some(cfgInput), line, proceed, tempDir, order, locked)
      == MainRun(Replay(CreateBackup(fs, cfg, GlobalCfg, locked).fs, Paths(SplitInputFiles(line)),
                        true, false, Some(cfg), None, locked).fs, Finished)
  {
  }

  /** With a valid cfg directory, a line that names a single ZIP, and a backup
      that succeeded or a user who chose to go on, the console program runs the
      ZIP branch on that archive over the backed-up filesystem. */
  lemma ZipModeRun(fs: Fs, cfgInput: string, line: string, proceed: bool,
                   tempDir: Path, order: seq<Path>, locked: set<Path>)
    requires !IsBlank(cfgInput) && ParsePath(cfgInput) in fs.dirs
    requires SplitInputFiles(line) != [] && IsZipMode(SplitInputFiles(line))
    requires CreateBackup(fs, ParsePath(cfgInput), GlobalCfg, locked).result.Ok? || proceed
    ensures var cfg := ParsePath(cfgInput);
      RunMain(fs, Some(cfgInput), line, proceed, tempDir, order, locked)
      == ZipMode(CreateBackup(fs, cfg, GlobalCfg, locked).fs, ParsePath(SplitInputFiles(line)[0]),
                 cfg, tempDir, order, locked)
  {
  }
}

=== FILE: copying.dfy ===
/** The batch copy behind CopyCfgFiles, CopyTxtFiles and the console
    program's CopyDirectory: a list of (source, target) jobs tried in order.
    `RunCopies` is the tolerant form (each job sits in its own try/catch, so a
    failed job writes no file and the batch goes on); `RunUntilFault` is the
    form without a catch, which stops at the first exception. A directory that
    Directory.CreateDirectory made before a failed File.Copy stays in both. */
module Copying {
  import opened Base
  import opened FileSystem

  datatype Job = Job(src: Path, dst: Path)

  /** The filesystem after a tolerant batch, and which jobs succeeded. */
  datatype Batch = Batch(fs: Fs, ok: seq<bool>)

  /** The filesystem after a batch that stops at its first failure, how many
      jobs completed, and the exception that stopped it, if any. */
  datatype Halted = Halted(fs: Fs, done: nat, fault: Option<Fault>)

  /** No job writes to a path that some job reads from. */
  predicate TargetsAvoidSources(jobs: seq<Job>) {
    forall a, b :: 0 <= a < |jobs| && 0 <= b < |jobs| ==> jobs[a].dst != jobs[b].src
  }

  /** The filesystem after one job, and the exception the job threw, if any. */
  datatype Attempt = Attempt(fs: Fs, fault: Option<Fault>)

  /** One job: when `makeDirs`, Directory.CreateDirectory(Path.GetDirectoryName(dst))
      first; then File.Copy(src, dst, overwrite: true). A directory created
      before the copy throws is kept. */
  function Transfer(fs: Fs, job: Job, locked: set<Path>, makeDirs: bool): (r: Attempt)
    ensures r.fault.None? ==> job.src in fs.files && job.dst !in locked && job.src !in locked
    ensures r.fault.None? ==> r.fs.files == fs.files[job.dst := fs.files[job.src]]
    ensures r.fault.Some? ==> r.fs.files == fs.files
    ensures fs.dirs <= r.fs.dirs && (!makeDirs ==> r.fs.dirs == fs.dirs)
    ensures makeDirs && |Parent(job.dst)| >= 1 && MakeDirs(fs, Parent(job.dst)).Ok? ==> Parent(job.dst) in r.fs.dirs
  {
    match (if makeDirs then MakeDirs(fs, Parent(job.dst)) else Ok(fs))
    case Err(e) => Attempt(fs, Some(e))
    case Ok(fs1) =>
      match CopyFile(fs1, job.src, job.dst, locked)
      case Ok(fs2) => Attempt(fs2, None)
      case Err(e) => Attempt(fs1, Some(e))
  }

  /** Every job tried in order; a failed job writes no file and does not stop
      the ones after it. */
  function RunCopies(fs: Fs, jobs: seq<Job>, locked: set<Path>, makeDirs: bool): (r: Batch)
    ensures |r.ok| == |jobs|
    ensures fs.dirs <= r.fs.dirs && (!makeDirs ==> r.fs.dirs == fs.dirs)
    ensures forall p :: p in r.fs.files ==> p in fs.files || exists j :: 0 <= j < |jobs| && r.ok[j] && jobs[j].dst == p
    decreases |jobs|
  {
    if |jobs| == 0 then Batch(fs, [])
    else
      var step := Transfer(fs, jobs[0], locked, makeDirs);
      var rest := RunCopies(step.fs, jobs[1..], locked, makeDirs);
      Batch(rest.fs, [step.fault.None?] + rest.ok)
  }

  /** The jobs tried in order until one throws. */
  function RunUntilFault(fs: Fs, jobs: seq<Job>, locked: set<Path>, makeDirs: bool): (r: Halted)
    ensures r.done <= |jobs|
    ensures r.fault.None? <==> r.done == |jobs|
    ensures fs.dirs <= r.fs.dirs
    decreases |jobs|
  {
    if |jobs| == 0 then Halted(fs, 0, None)
    else
      var step := Transfer(fs, jobs[0], locked, makeDirs);
      if step.fault.Some? then Halted(step.fs, 0, step.fault)
      else
        var rest := RunUntilFault(step.fs, jobs[1..], locked, makeDirs);
        Halted(rest.fs, rest.done + 1, rest.fault)
  }

  /** A path that no successful job targeted is left as it was. */
  lemma {:induction false} RunCopiesFrame(fs: Fs, jobs: seq<Job>, locked: set<Path>, makeDirs: bool, p: Path)
    requires forall j :: 0 <= j < |jobs| && RunCopies(fs, jobs, locked, makeDirs).ok[j] ==> jobs[j].dst != p
    ensures var r := RunCopies(fs, jobs, locked, makeDirs);
      && (p in r.fs.files <==> p in fs.files)
      && (p in fs.files ==> r.fs.files[p] == fs.files[p])
    decreases |jobs|
  {
    if |jobs| > 0 {
      var step := Transfer(fs, jobs[0], locked, makeDirs);
      var fs1 := step.fs;
      var r := RunCopies(fs, jobs, locked, makeDirs);
      assert r.ok[1..] == RunCopies(fs1, jobs[1..], locked, makeDirs).ok;
      forall j | 0 <= j < |jobs| - 1 && RunCopies(fs1, jobs[1..], locked, makeDirs).ok[j]
        ensures jobs[1..][j].dst != p
      {
        assert r.ok[j + 1];
      }
      RunCopiesFrame(fs1, jobs[1..], locked, makeDirs, p);
      if step.fault.None? {
        assert r.ok[0];
      }
    }
  }

  /** Last writer wins: a successful job's target ends up holding its source's
      original contents unless a later job to the same target succeeded. */
  lemma {:induction false} RunCopiesLastWins(fs: Fs, jobs: seq<Job>, locked: set<Path>, makeDirs: bool, i: nat)
    requires i < |jobs| && TargetsAvoidSources(jobs)
    requires RunCopies(fs, jobs, locked, makeDirs).ok[i]
    requires forall j :: i < j < |jobs| && jobs[j].dst == jobs[i].dst ==> !RunCopies(fs, jobs, locked, makeDirs).ok[j]
    ensures jobs[i].src in fs.files
    ensures var r := RunCopies(fs, jobs, locked, makeDirs);
      jobs[i].dst in r.fs.files && r.fs.files[jobs[i].dst] == fs.files[jobs[i].src]
    decreases |jobs|
  {
    if i == 0 {
      LastWinsHead(fs, jobs, locked, makeDirs);
    } else {
      var r := RunCopies(fs, jobs, locked, makeDirs);
      var step := Transfer(fs, jobs[0], locked, makeDirs);
      var fs1 := step.fs;
      var tail := jobs[1..];
      var rest := RunCopies(fs1, tail, locked, makeDirs);
      assert r.ok == [step.fault.None?] + rest.ok && r.fs == rest.fs;
      TailAvoidsSources(jobs);
      forall j | i - 1 < j < |tail| && tail[j].dst == tail[i - 1].dst
        ensures !rest.ok[j]
      {
        assert !r.ok[j + 1];
      }
      RunCopiesLastWins(fs1, tail, locked, makeDirs, i - 1);
      assert tail[i - 1] == jobs[i];
      assert jobs[0].dst != jobs[i].src;
    }
  }

  /** The first job of the batch, when no later job to its target succeeds. */
  lemma LastWinsHead(fs: Fs, jobs: seq<Job>, locked: set<Path>, makeDirs: bool)
    requires |jobs| > 0 && RunCopies(fs, jobs, locked, makeDirs).ok[0]
    requires forall j :: 0 < j < |jobs| && jobs[j].dst == jobs[0].dst ==> !RunCopies(fs, jobs, locked, makeDirs).ok[j]
    ensures jobs[0].src in fs.files
    ensures var r := RunCopies(fs, jobs, locked, makeDirs);
      jobs[0].dst in r.fs.files && r.fs.files[jobs[0].dst] == fs.files[jobs[0].src]
  {
    var r := RunCopies(fs, jobs, locked, makeDirs);
    var step := Transfer(fs, jobs[0], locked, makeDirs);
    var tail := jobs[1..];
    var rest := RunCopies(step.fs, tail, locked, makeDirs);
    assert r.ok == [true] + rest.ok && r.fs == rest.fs;
    forall j | 0 <= j < |tail| && rest.ok[j]
      ensures tail[j].dst != jobs[0].dst
    {
      assert r.ok[j + 1];
    }
    RunCopiesFrame(step.fs, tail, locked, makeDirs, jobs[0].dst);
  }

  /** Dropping the first job keeps targets away from sources. */
  lemma TailAvoidsSources(jobs: seq<Job>)
    requires |jobs| > 0 && TargetsAvoidSources(jobs)
    ensures TargetsAvoidSources(jobs[1..])
  {
    forall a, b | 0 <= a < |jobs| - 1 && 0 <= b < |jobs| - 1
      ensures jobs[1..][a].dst != jobs[1..][b].src
    {
      assert jobs[a + 1].dst != jobs[b + 1].src;
    }
  }

  /** No ancestor of `d`, `d` included, is a file now or the target of a job,
      so Directory.CreateDirectory(d) cannot fail at any point of the batch. */
  predicate Creatable(fs: Fs, jobs: seq<Job>, d: Path) {
    forall k :: 1 <= k <= |d| ==> d[..k] !in fs.files && forall j :: 0 <= j < |jobs| ==> jobs[j].dst != d[..k]
  }

  /** Creatable survives the first job of the batch. */
  lemma CreatableTail(fs: Fs, jobs: seq<Job>, locked: set<Path>, d: Path)
    requires |jobs| > 0 && Creatable(fs, jobs, d)
    ensures Creatable(Transfer(fs, jobs[0], locked, true).fs, jobs[1..], d)
  {
    var fs1 := Transfer(fs, jobs[0], locked, true).fs;
    forall k | 1 <= k <= |d|
      ensures d[..k] !in fs1.files
      ensures forall j :: 0 <= j < |jobs| - 1 ==> jobs[1..][j].dst != d[..k]
    {
      assert jobs[0].dst != d[..k];
      forall j | 0 <= j < |jobs| - 1
        ensures jobs[1..][j].dst != d[..k]
      {
        assert jobs[j + 1].dst != d[..k];
      }
    }
  }

  /** With directory creation on, every job whose target directory could be
      created has that directory at the end of the tolerant batch, whether or
      not its copy succeeded. */
  lemma {:induction false} RunCopiesMakesDirs(fs: Fs, jobs: seq<Job>, locked: set<Path>, i: nat)
    requires i < |jobs| && |Parent(jobs[i].dst)| >= 1 && Creatable(fs, jobs, Parent(jobs[i].dst))
    ensures Parent(jobs[i].dst) in RunCopies(fs, jobs, locked, true).fs.dirs
    decreases |jobs|
  {
    var d := Parent(jobs[i].dst);
    var step := Transfer(fs, jobs[0], locked, true);
    if i == 0 {
      assert MakeDirs(fs, d).Ok?;
    } else {
      CreatableTail(fs, jobs, locked, d);
      assert jobs[1..][i - 1] == jobs[i];
      RunCopiesMakesDirs(step.fs, jobs[1..], locked, i - 1);
    }
  }

  /** The same for the batch without a catch, for every job it reached,
      including the one that threw. */
  lemma {:induction false} UntilFaultMakesDirs(fs: Fs, jobs: seq<Job>, locked: set<Path>, i: nat)
    requires i < |jobs| && |Parent(jobs[i].dst)| >= 1 && Creatable(fs, jobs, Parent(jobs[i].dst))
    requires i <= RunUntilFault(fs, jobs, locked, true).done
    ensures Parent(jobs[i].dst) in RunUntilFault(fs, jobs, locked, true).fs.dirs
    decreases |jobs|
  {
    var d := Parent(jobs[i].dst);
    var step := Transfer(fs, jobs[0], locked, true);
    if i == 0 {
      assert MakeDirs(fs, d).Ok?;
    } else {
      CreatableTail(fs, jobs, locked, d);
      assert jobs[1..][i - 1] == jobs[i];
      UntilFaultMakesDirs(step.fs, jobs[1..], locked, i - 1);
    }
  }

  /** Every job of the batch succeeded. */
  predicate AllSucceeded(b: Batch) {
    forall i :: 0 <= i < |b.ok| ==> b.ok[i]
  }

  /** Every flag of a list with one more flag in front is set exactly when that
      flag and every other one are. */
  lemma AllTrueCons(x: bool, rest: seq<bool>)
    ensures (forall i :: 0 <= i < |[x] + rest| ==> ([x] + rest)[i])
      <==> x && forall i :: 0 <= i < |rest| ==> rest[i]
  {
    var s := [x] + rest;
    assert s[0] == x;
    assert forall i :: 0 <= i < |rest| ==> s[i + 1] == rest[i];
    assert forall i :: 1 <= i < |s| ==> s[i] == rest[i - 1];
  }

  /** A batch without a catch reaches the same filesystem as the tolerant batch
      exactly when no job fails, and the jobs it completed are ones the tolerant
      batch completed too. */
  lemma {:induction false} UntilFaultAgrees(fs: Fs, jobs: seq<Job>, locked: set<Path>, makeDirs: bool)
    ensures var h := RunUntilFault(fs, jobs, locked, makeDirs);
      var b := RunCopies(fs, jobs, locked, makeDirs);
      && (h.fault.None? <==> AllSucceeded(b))
      && (h.fault.None? ==> h.fs == b.fs)
      && (forall i :: 0 <= i < h.done ==> b.ok[i])
    decreases |jobs|
  {
    if |jobs| > 0 {
      var step := Transfer(fs, jobs[0], locked, makeDirs);
      var fs1 := step.fs;
      UntilFaultAgrees(fs1, jobs[1..], locked, makeDirs);
      var b := RunCopies(fs, jobs, locked, makeDirs);
      var rest := RunCopies(fs1, jobs[1..], locked, makeDirs);
      assert b.ok == [step.fault.None?] + rest.ok;
      AllTrueCons(step.fault.None?, rest.ok);
      var h := RunUntilFault(fs, jobs, locked, makeDirs);
      if step.fault.None? {
        var hr := RunUntilFault(fs1, jobs[1..], locked, makeDirs);
        assert h == Halted(hr.fs, hr.done + 1, hr.fault);
        forall i | 0 <= i < h.done
          ensures b.ok[i]
        {
          if i > 0 {
            assert b.ok[i] == rest.ok[i - 1];
          }
        }
      } else {
        assert h.done == 0 && h.fault.Some?;
      }
    }
  }

  lemma {:induction false} RunCopiesKeepsValid(fs: Fs, jobs: seq<Job>, locked: set<Path>, makeDirs: bool)
    requires Valid(fs)
    ensures Valid(RunCopies(fs, jobs, locked, makeDirs).fs)
    decreases |jobs|
  {
    if |jobs| > 0 {
      TransferKeepsValid(fs, jobs[0], locked, makeDirs);
      RunCopiesKeepsValid(Transfer(fs, jobs[0], locked, makeDirs).fs, jobs[1..], locked, makeDirs);
    }
  }

  lemma TransferKeepsValid(fs: Fs, job: Job, locked: set<Path>, makeDirs: bool)
    requires Valid(fs)
    ensures Valid(Transfer(fs, job, locked, makeDirs).fs)
  {
    var d := Parent(job.dst);
    if makeDirs && MakeDirs(fs, d).Ok? {
      if |d| >= 1 {
        MakeDirsKeepsValid(fs, d);
      }
      if CopyFile(MakeDirs(fs, d).value, job.src, job.dst, locked).Ok? {
        CopyFileKeepsValid(MakeDirs(fs, d).value, job.src, job.dst, locked);
      }
    } else if !makeDirs && CopyFile(fs, job.src, job.dst, locked).Ok? {
      CopyFileKeepsValid(fs, job.src, job.dst, locked);
    }
  }

  /** The jobs that copy every listed file under `src` to the same relative
      place under `dst`: the loop body GetRelativePath, Combine, File.Copy. */
  function MirrorJobs(src: Path, dst: Path, listing: seq<Path>): (jobs: seq<Job>)
    requires forall i :: 0 <= i < |listing| ==> IsUnder(listing[i], src)
    ensures |jobs| == |listing|
    ensures forall i :: 0 <= i < |jobs| ==>
      && jobs[i].src == listing[i]
      && jobs[i].dst == Stem(dst) + Rel(src, listing[i])
  {
    seq(|listing|, i requires 0 <= i < |listing| => Job(listing[i], Combine(dst, Rel(src, listing[i]))))
  }

  /** When neither directory contains the other, no mirrored target is a source. */
  lemma MirrorTargetsAvoidSources(src: Path, dst: Path, listing: seq<Path>)
    requires forall i :: 0 <= i < |listing| ==> IsUnder(listing[i], src)
    requires Apart(src, Stem(dst))
    ensures TargetsAvoidSources(MirrorJobs(src, dst, listing))
  {
    var jobs := MirrorJobs(src, dst, listing);
    forall a, b | 0 <= a < |jobs| && 0 <= b < |jobs|
      ensures jobs[a].dst != jobs[b].src
    {
      if jobs[a].dst == jobs[b].src {
        PrefixClash(Stem(dst), Rel(src, listing[a]), src, Rel(src, listing[b]));
      }
    }
  }

  /** Distinct files land on distinct targets. */
  lemma MirrorTargetsDistinct(src: Path, dst: Path, listing: seq<Path>, i: nat, j: nat)
    requires forall k :: 0 <= k < |listing| ==> IsUnder(listing[k], src)
    requires i < |listing| && j < |listing| && listing[i] != listing[j]
    ensures MirrorJobs(src, dst, listing)[i].dst != MirrorJobs(src, dst, listing)[j].dst
  {
    var x, y := Rel(src, listing[i]), Rel(src, listing[j]);
    assert x != y;
    assert (Stem(dst) + x)[|Stem(dst)|..] == x && (Stem(dst) + y)[|Stem(dst)|..] == y;
  }

  /** A mirrored batch leaves every copied file's target holding that file's
      original contents. */
  lemma MirrorContents(fs: Fs, src: Path, dst: Path, listing: seq<Path>, locked: set<Path>)
    requires forall i :: 0 <= i < |listing| ==> IsUnder(listing[i], src)
    requires Distinct(listing) && Apart(src, Stem(dst))
    ensures var b := RunCopies(fs, MirrorJobs(src, dst, listing), locked, true);
      forall i :: 0 <= i < |listing| && b.ok[i] ==>
        && listing[i] in fs.files
        && Combine(dst, Rel(src, listing[i])) in b.fs.files
        && b.fs.files[Combine(dst, Rel(src, listing[i]))] == fs.files[listing[i]]
  {
    var jobs := MirrorJobs(src, dst, listing);
    var b := RunCopies(fs, jobs, locked, true);
    MirrorTargetsAvoidSources(src, dst, listing);
    forall i | 0 <= i < |listing| && b.ok[i]
      ensures listing[i] in fs.files
      ensures Combine(dst, Rel(src, listing[i])) in b.fs.files
      ensures b.fs.files[Combine(dst, Rel(src, listing[i]))] == fs.files[listing[i]]
    {
      forall j | i < j < |jobs|
        ensures jobs[j].dst != jobs[i].dst
      {
        MirrorTargetsDistinct(src, dst, listing, i, j);
      }
      RunCopiesLastWins(fs, jobs, locked, true, i);
    }
  }

  /** A mirrored batch of files whose names satisfy `named` changes nothing
      but paths below `dst` with such a name. */
  lemma MirrorFrame(fs: Fs, src: Path, dst: Path, listing: seq<Path>, locked: set<Path>, named: string -> bool, p: Path)
    requires forall i :: 0 <= i < |listing| ==> IsUnder(listing[i], src) && named(Name(listing[i]))
    requires !(named(Name(p)) && Stem(dst) < p)
    ensures var b := RunCopies(fs, MirrorJobs(src, dst, listing), locked, true);
      && (p in b.fs.files <==> p in fs.files)
      && (p in fs.files ==> b.fs.files[p] == fs.files[p])
  {
    var jobs := MirrorJobs(src, dst, listing);
    forall j | 0 <= j < |jobs|
      ensures jobs[j].dst != p
    {
      MirrorTargetBelow(src, dst, listing, j);
    }
    RunCopiesFrame(fs, jobs, locked, true, p);
  }

  /** A mirrored target lies below `dst` and keeps its source's name. */
  lemma MirrorTargetBelow(src: Path, dst: Path, listing: seq<Path>, j: nat)
    requires forall i :: 0 <= i < |listing| ==> IsUnder(listing[i], src)
    requires j < |listing|
    ensures var t := MirrorJobs(src, dst, listing)[j].dst;
      Name(t) == Name(listing[j]) && Stem(dst) < t
  {
    var rel := Rel(src, listing[j]);
    NameBelow(Stem(dst), rel);
    NameBelow(src, rel);
  }
}

=== FILE: filesystem.dfy ===
/** An abstract Windows filesystem: paths are sequences of segments, files map
    to contents, directories form a set. The primitives below have the meaning
    of the System.IO calls the installer makes (File.Copy, File.Delete,
    Directory.CreateDirectory, Directory.Delete, Directory.GetFiles); a path in
    `locked` is one that the operating system refuses to read or write. */
module FileSystem {
  import opened Base
  import opened Text

  type Path = seq<string>

  /** What a file holds: text, or a ZIP archive mapping relative paths to contents. */
  datatype Content = Plain(text: string) | Archive(entries: map<Path, Content>)

  datatype Fs = Fs(files: map<Path, Content>, dirs: set<Path>)

  /** The exceptions System.IO raises, with the path they concern. */
  datatype Fault =
    | DirectoryNotFound(path: Path)
    | FileNotFound(path: Path)
    | AccessDenied(path: Path)
    | IoError(path: Path)
    | NullParent(path: Path)
    | InvalidArchive(path: Path)

  /** A path string as Windows reads it: both `\` and `/` separate segments. */
  function ParsePath(s: string): Path {
    SplitOn(s, {'\\', '/'})
  }

  /** Path.GetFileName: the last segment. */
  function Name(p: Path): string {
    if |p| == 0 then "" else p[|p| - 1]
  }

  /** Path.GetDirectoryName: all but the last segment. */
  function Parent(p: Path): Path {
    if |p| == 0 then [] else p[..|p| - 1]
  }

  /** A directory path without the one trailing separator it may carry, which
      Windows reads as an empty last segment. */
  function Stem(base: Path): (r: Path)
    ensures r <= base && |base| - 1 <= |r|
  {
    if |base| > 0 && base[|base| - 1] == "" then base[..|base| - 1] else base
  }

  /** Path.Combine(base, s1, ..., sn): no separator is added after one that
      `base` already ends with. */
  function Combine(base: Path, rel: Path): (r: Path)
    ensures |r| >= |rel|
    ensures r[|r| - |rel|..] == rel
    ensures Stem(base) <= r && |r| == |Stem(base)| + |rel|
    ensures |base| > 0 && base[|base| - 1] == "" ==> |r| == |base| - 1 + |rel|
  {
    Stem(base) + rel
  }

  /** `p` lies strictly inside directory `dir`. */
  predicate IsUnder(p: Path, dir: Path) {
    dir < p
  }

  /** Path.GetRelativePath(dir, p) for a path inside `dir`; the empty path for
      any other, where the program never asks for it. */
  function Rel(dir: Path, p: Path): (r: Path)
    ensures IsUnder(p, dir) ==> dir + r == p && |r| >= 1
  {
    if IsUnder(p, dir) then p[|dir|..] else []
  }

  /** Neither directory contains the other. */
  predicate Apart(a: Path, b: Path) {
    !(a <= b) && !(b <= a)
  }

  /** Two paths built on different bases can only meet when one base
      contains the other. */
  lemma PrefixClash(a: Path, x: Path, b: Path, y: Path)
    requires a + x == b + y
    ensures a <= b || b <= a
  {
    if |a| <= |b| {
      assert a == (a + x)[..|a|] && b[..|a|] == (b + y)[..|a|];
    } else {
      assert b == (b + y)[..|b|] && a[..|b|] == (a + x)[..|b|];
    }
  }

  /** A path built below a directory ends in the relative path's name. */
  lemma NameBelow(dir: Path, rel: Path)
    requires |rel| >= 1
    ensures Name(dir + rel) == Name(rel) && IsUnder(dir + rel, dir) && Rel(dir, dir + rel) == rel
  {
  }

  /** A directory apart from `b` contains nothing below `b`. */
  lemma ApartKeepsOut(a: Path, b: Path, x: Path)
    requires Apart(a, b)
    ensures !(a <= b + x)
  {
    if |a| <= |b| {
      assert (b + x)[..|a|] == b[..|a|];
    } else {
      assert (b + x)[..|b|] == b;
    }
  }

  /** A filesystem Windows could present: files and directories are disjoint,
      every file sits in a directory, and every directory other than a drive
      root sits in a directory. */
  predicate Valid(fs: Fs) {
    && fs.files.Keys !! fs.dirs
    && (forall p :: p in fs.files ==> |p| >= 2 && Parent(p) in fs.dirs)
    && (forall d :: d in fs.dirs ==> |d| >= 1 && (|d| >= 2 ==> Parent(d) in fs.dirs))
  }

  /** In a valid filesystem every ancestor of a directory is a directory. */
  lemma {:induction false} AncestorsExist(fs: Fs, d: Path, i: nat)
    requires Valid(fs) && d in fs.dirs && 1 <= i <= |d|
    ensures d[..i] in fs.dirs
    decreases |d| - i
  {
    if i < |d| {
      AncestorsExist(fs, d, i + 1);
      var e := d[..i + 1];
      assert e in fs.dirs && |e| >= 2;
      assert Parent(e) == d[..i];
    } else {
      assert d[..i] == d;
    }
  }

  /** The directories that Directory.CreateDirectory(d) makes exist: `d` and its ancestors. */
  function Ancestry(d: Path): (r: set<Path>)
    ensures forall i :: 1 <= i <= |d| ==> d[..i] in r
    ensures forall q :: q in r ==> 1 <= |q| && q <= d
  {
    set i | 1 <= i <= |d| :: d[..i]
  }

  /** Directory.CreateDirectory: fails when `d` or one of its ancestors is a file. */
  function MakeDirs(fs: Fs, d: Path): (r: Result<Fs, Fault>)
    ensures r.Ok? <==> forall i :: 1 <= i <= |d| ==> d[..i] !in fs.files
    ensures r.Ok? ==> r.value.files == fs.files && (|d| >= 1 ==> d in r.value.dirs)
    ensures r.Ok? ==> fs.dirs <= r.value.dirs
  {
    if exists i :: 1 <= i <= |d| && d[..i] in fs.files then Err(IoError(d))
    else assert |d| >= 1 ==> d[..|d|] == d; Ok(fs.(dirs := fs.dirs + Ancestry(d)))
  }

  /** File.Copy(src, dst, overwrite: true). */
  function CopyFile(fs: Fs, src: Path, dst: Path, locked: set<Path>): (r: Result<Fs, Fault>)
    ensures r.Ok? <==>
      && src in fs.files && src != dst && src !in locked && dst !in locked
      && Parent(dst) in fs.dirs && dst !in fs.dirs
    ensures r.Ok? ==> r.value == fs.(files := fs.files[dst := fs.files[src]])
  {
    if src in locked then Err(IoError(src))
    else if dst in locked then Err(IoError(dst))
    else if src !in fs.files then Err(FileNotFound(src))
    else if src == dst then Err(IoError(dst))
    else if Parent(dst) !in fs.dirs then Err(DirectoryNotFound(Parent(dst)))
    else if dst in fs.dirs then Err(AccessDenied(dst))
    else Ok(fs.(files := fs.files[dst := fs.files[src]]))
  }

  /** File.Delete: deleting a file that is not there is not an error, but a
      missing directory on the way to it throws DirectoryNotFoundException. */
  function DeleteFile(fs: Fs, p: Path, locked: set<Path>): (r: Result<Fs, Fault>)
    ensures r.Ok? <==> Parent(p) in fs.dirs && p !in locked && p !in fs.dirs
    ensures Parent(p) !in fs.dirs ==> r == Err(DirectoryNotFound(Parent(p)))
    ensures r.Ok? ==> p !in r.value.files && r.value.dirs == fs.dirs
    ensures r.Ok? ==> forall q :: q in fs.files && q != p ==> q in r.value.files && r.value.files[q] == fs.files[q]
    ensures r.Ok? ==> r.value.files.Keys <= fs.files.Keys
  {
    if Parent(p) !in fs.dirs then Err(DirectoryNotFound(Parent(p)))
    else if p in locked then Err(IoError(p))
    else if p in fs.dirs then Err(AccessDenied(p))
    else Ok(fs.(files := fs.files - {p}))
  }

  /** Directory.Delete(d, recursive: true), best effort: `d` and everything under it disappear. */
  function DeleteTree(fs: Fs, d: Path): (r: Fs)
    ensures forall p :: p in r.files <==> p in fs.files && !(d <= p)
    ensures forall p :: p in r.dirs <==> p in fs.dirs && !(d <= p)
    ensures forall p :: p in r.files ==> r.files[p] == fs.files[p]
  {
    Fs(map p | p in fs.files && !(d <= p) :: fs.files[p], set p | p in fs.dirs && !(d <= p))
  }

  /** Nothing exists at or under `d`, while its parent directory does: a fresh
      temporary directory name. */
  predicate Fresh(fs: Fs, d: Path) {
    && |d| >= 2 && Parent(d) in fs.dirs
    && (forall p :: p in fs.files ==> !(d <= p))
    && (forall p :: p in fs.dirs ==> !(d <= p))
  }

  /** `order` lists every file under `dir`, each once: what Directory.GetFiles(dir, "*",
      SearchOption.AllDirectories) may return, in an order the model leaves open. */
  predicate Covers(order: seq<Path>, fs: Fs, dir: Path) {
    && Distinct(order)
    && forall p :: p in fs.files && IsUnder(p, dir) ==> p in order
  }

  /** Directory.GetFiles(dir, "*", SearchOption.AllDirectories): the files under
      `dir` in the order `order` lists them; complete when `order` covers `dir`. */
  function FilesUnder(fs: Fs, dir: Path, order: seq<Path>): (r: seq<Path>)
    ensures Distinct(order) ==> Distinct(r)
    ensures forall i :: 0 <= i < |r| ==> r[i] in fs.files && IsUnder(r[i], dir)
    ensures Covers(order, fs, dir) ==> forall p :: p in fs.files && IsUnder(p, dir) ==> p in r
  {
    Select(order, p => p in fs.files && IsUnder(p, dir))
  }

  /** Directory.GetDirectories(dir): the immediate subdirectories, in enumeration order. */
  function SubdirsOf(fs: Fs, dir: Path, order: seq<Path>): (r: seq<Path>)
    ensures Distinct(order) ==> Distinct(r)
    ensures forall i :: 0 <= i < |r| ==> r[i] in fs.dirs && |r[i]| == |dir| + 1 && IsUnder(r[i], dir)
    ensures forall d :: d in fs.dirs && |d| == |dir| + 1 && IsUnder(d, dir) && d in order ==> d in r
  {
    Select(order, d => d in fs.dirs && |d| == |dir| + 1 && IsUnder(d, dir))
  }

  lemma MakeDirsKeepsValid(fs: Fs, d: Path)
    requires Valid(fs) && |d| >= 1 && MakeDirs(fs, d).Ok?
    ensures Valid(MakeDirs(fs, d).value)
  {
    var r := MakeDirs(fs, d).value;
    forall q | q in r.dirs
      ensures |q| >= 1 && (|q| >= 2 ==> Parent(q) in r.dirs)
    {
      if q !in fs.dirs {
        assert q in Ancestry(d);
        if |q| >= 2 {
          assert Parent(q) == d[..|q| - 1];
        }
      }
    }
  }

  lemma CopyFileKeepsValid(fs: Fs, src: Path, dst: Path, locked: set<Path>)
    requires Valid(fs) && CopyFile(fs, src, dst, locked).Ok?
    ensures Valid(CopyFile(fs, src, dst, locked).value)
  {
  }

  lemma DeleteTreeKeepsValid(fs: Fs, d: Path)
    requires Valid(fs)
    ensures Valid(DeleteTree(fs, d))
  {
  }
}

=== FILE: install.dfy ===
/** The install operations of the installer service: copying dropped files
    into the game's and the user's cfg directories by extension, and
    installing a ZIP package through a temporary directory that is removed
    whatever happens. */
module Install {
  import opened Base
  import opened Text
  import opened FileSystem
  import opened Copying

  /** name.EndsWith(".cfg", StringComparison.OrdinalIgnoreCase). */
  predicate IsCfgName(name: string) {
    EndsWithIgnoreCase(name, ".cfg")
  }

  /** name.EndsWith(".txt", StringComparison.OrdinalIgnoreCase); also what the
      pattern "*.txt" of Directory.GetFiles selects. */
  predicate IsTxtName(name: string) {
    EndsWithIgnoreCase(name, ".txt")
  }

  predicate HasCfgName(p: Path) {
    IsCfgName(Name(p))
  }

  predicate HasTxtName(p: Path) {
    IsTxtName(Name(p))
  }

  /** The two extensions exclude each other. */
  lemma CfgIsNotTxt(name: string)
    ensures !(IsCfgName(name) && IsTxtName(name))
  {
    if IsCfgName(name) {
      assert Upper(name[|name| - 3]) == 'C' by {
        assert ".cfg"[1] == 'c';
      }
      assert ".txt"[1] == 't';
    }
  }

  /** The two kinds of file the service installs. */
  datatype Category = CfgFile | VideoFile

  /** Where a dropped file goes: to one category's directory, or nowhere. */
  datatype Route = Deliver(category: Category) | Skip

  /** The if / else-if of InstallFromFiles: a .cfg name goes to the cfg
      directory when cfg installation is on; otherwise a .txt name goes to the
      video directory when video installation is on; anything else is skipped. */
  function RouteOf(name: string, installCfg: bool, installVideo: bool): (r: Route)
    ensures r == Deliver(CfgFile) <==> installCfg && IsCfgName(name)
    ensures r == Deliver(VideoFile) <==> installVideo && IsTxtName(name)
    ensures r == Skip <==> !(installCfg && IsCfgName(name)) && !(installVideo && IsTxtName(name))
  {
    CfgIsNotTxt(name);
    if installCfg && IsCfgName(name) then Deliver(CfgFile)
    else if installVideo && IsTxtName(name) then Deliver(VideoFile)
    else Skip
  }

  /** The directory a category is installed into: Cs2CfgPath or VideoCfgPath,
      either of which may be null. */
  function TargetDir(c: Category, cs2: Option<Path>, video: Option<Path>): Option<Path> {
    match c
    case CfgFile => cs2
    case VideoFile => video
  }

  /** What became of one dropped file. */
  datatype Outcome =
    | Absent                                    // File.Exists was false: passed over, not counted
    | Skipped                                   // counted as skipped
    | NoTarget(category: Category)              // routed, but the target directory is null
    | Copied(category: Category, target: Path)  // File.Copy succeeded
    | Failed(category: Category, name: string, fault: Fault)  // File.Copy threw

  predicate IsAbsent(o: Outcome) { o.Absent? }
  predicate IsSkipped(o: Outcome) { o.Skipped? }
  predicate IsNoTarget(o: Outcome) { o.NoTarget? }
  predicate IsCopiedCfg(o: Outcome) { o.Copied? && o.category == CfgFile }
  predicate IsCopiedVideo(o: Outcome) { o.Copied? && o.category == VideoFile }
  predicate IsFailed(o: Outcome) { o.Failed? }

  datatype Step = Step(fs: Fs, outcome: Outcome)

  /** One iteration of the foreach of InstallFromFiles. */
  function HandleFile(fs: Fs, file: Path, installCfg: bool, installVideo: bool,
                      cs2: Option<Path>, video: Option<Path>, locked: set<Path>): (r: Step)
    ensures r.outcome == Absent <==> file !in fs.files
    ensures r.outcome == Skipped <==> file in fs.files && RouteOf(Name(file), installCfg, installVideo) == Skip
    ensures r.outcome.NoTarget? <==>
      file in fs.files && exists c :: RouteOf(Name(file), installCfg, installVideo) == Deliver(c) && TargetDir(c, cs2, video) == None
    ensures r.outcome.NoTarget? || r.outcome.Copied? || r.outcome.Failed? ==>
      RouteOf(Name(file), installCfg, installVideo) == Deliver(r.outcome.category)
    ensures r.outcome.Copied? ==>
      && TargetDir(r.outcome.category, cs2, video).Some?
      && r.outcome.target == Combine(TargetDir(r.outcome.category, cs2, video).value, [Name(file)])
      && r.fs == fs.(files := fs.files[r.outcome.target := fs.files[file]])
    ensures r.outcome.Failed? ==> r.outcome.name == Name(file)
    ensures !r.outcome.Copied? ==> r.fs == fs
  {
    if file !in fs.files then Step(fs, Absent)
    else match RouteOf(Name(file), installCfg, installVideo)
      case Skip => Step(fs, Skipped)
      case Deliver(c) =>
        match TargetDir(c, cs2, video)
        case None => Step(fs, NoTarget(c))
        case Some(d) =>
          var target := Combine(d, [Name(file)]);
          match CopyFile(fs, file, target, locked)
          case Ok(fs1) => Step(fs1, Copied(c, target))
          case Err(e) => Step(fs, Failed(c, Name(file), e))
  }

  /** The filesystem after a run over a list of dropped files, and each file's outcome. */
  datatype Trace = Trace(fs: Fs, outcomes: seq<Outcome>)

  /** The files handled one after another, each seeing the previous ones' copies. */
  function Replay(fs: Fs, files: seq<Path>, installCfg: bool, installVideo: bool,
                  cs2: Option<Path>, video: Option<Path>, locked: set<Path>): (r: Trace)
    ensures |r.outcomes| == |files|
    ensures r.fs.dirs == fs.dirs
    decreases |files|
  {
    if |files| == 0 then Trace(fs, [])
    else
      var s := HandleFile(fs, files[0], installCfg, installVideo, cs2, video, locked);
      var rest := Replay(s.fs, files[1..], installCfg, installVideo, cs2, video, locked);
      Trace(rest.fs, [s.outcome] + rest.outcomes)
  }

  /** What an outcome says about the file it belongs to: a copy lands in the
      category's directory under the file's own name, and a skip is a file no
      route takes. */
  predicate Fits(o: Outcome, file: Path, installCfg: bool, installVideo: bool,
                 cs2: Option<Path>, video: Option<Path>)
  {
    && (o.Copied? ==>
          && RouteOf(Name(file), installCfg, installVideo) == Deliver(o.category)
          && TargetDir(o.category, cs2, video).Some?
          && o.target == Combine(TargetDir(o.category, cs2, video).value, [Name(file)]))
    && (o.Skipped? ==> RouteOf(Name(file), installCfg, installVideo) == Skip)
  }

  /** Every outcome of a replay fits its file. */
  lemma {:induction false} ReplayFits(fs: Fs, files: seq<Path>, installCfg: bool, installVideo: bool,
                                      cs2: Option<Path>, video: Option<Path>, locked: set<Path>)
    ensures var t := Replay(fs, files, installCfg, installVideo, cs2, video, locked);
      forall i :: 0 <= i < |files| ==> Fits(t.outcomes[i], files[i], installCfg, installVideo, cs2, video)
    decreases |files|
  {
    if |files| > 0 {
      var t := Replay(fs, files, installCfg, installVideo, cs2, video, locked);
      var s := HandleFile(fs, files[0], installCfg, installVideo, cs2, video, locked);
      var rest := Replay(s.fs, files[1..], installCfg, installVideo, cs2, video, locked);
      ReplayFits(s.fs, files[1..], installCfg, installVideo, cs2, video, locked);
      assert t.outcomes == [s.outcome] + rest.outcomes;
      assert Fits(t.outcomes[0], files[0], installCfg, installVideo, cs2, video);
      forall i | 1 <= i < |files|
        ensures Fits(t.outcomes[i], files[i], installCfg, installVideo, cs2, video)
      {
        assert t.outcomes[i] == rest.outcomes[i - 1] && files[i] == files[1..][i - 1];
      }
    }
  }

  /** Each outcome of a replay is the outcome of handling that file in the
      filesystem its predecessors left: a copy lands in the category's
      directory under the file's own name, and a skip is a file no route takes. */
  lemma ReplayOutcomes(fs: Fs, files: seq<Path>, installCfg: bool, installVideo: bool,
                       cs2: Option<Path>, video: Option<Path>, locked: set<Path>)
    ensures var t := Replay(fs, files, installCfg, installVideo, cs2, video, locked);
      forall i :: 0 <= i < |files| && t.outcomes[i].Copied? ==>
        && RouteOf(Name(files[i]), installCfg, installVideo) == Deliver(t.outcomes[i].category)
        && TargetDir(t.outcomes[i].category, cs2, video).Some?
        && t.outcomes[i].target == Combine(TargetDir(t.outcomes[i].category, cs2, video).value, [Name(files[i])])
    ensures var t := Replay(fs, files, installCfg, installVideo, cs2, video, locked);
      forall i :: 0 <= i < |files| && t.outcomes[i].Skipped? ==>
        RouteOf(Name(files[i]), installCfg, installVideo) == Skip
  {
    var t := Replay(fs, files, installCfg, installVideo, cs2, video, locked);
    ReplayFits(fs, files, installCfg, installVideo, cs2, video, locked);
    forall i | 0 <= i < |files|
      ensures Fits(t.outcomes[i], files[i], installCfg, installVideo, cs2, video)
    {
    }
  }

  /** Replaying a list grown at its end is one more step after the shorter replay. */
  lemma {:induction false} ReplaySnoc(fs: Fs, files: seq<Path>, file: Path, installCfg: bool, installVideo: bool,
                                      cs2: Option<Path>, video: Option<Path>, locked: set<Path>)
    ensures var t := Replay(fs, files, installCfg, installVideo, cs2, video, locked);
      var s := HandleFile(t.fs, file, installCfg, installVideo, cs2, video, locked);
      Replay(fs, files + [file], installCfg, installVideo, cs2, video, locked) == Trace(s.fs, t.outcomes + [s.outcome])
    decreases |files|
  {
    if |files| > 0 {
      var s0 := HandleFile(fs, files[0], installCfg, installVideo, cs2, video, locked);
      assert (files + [file])[1..] == files[1..] + [file];
      ReplaySnoc(s0.fs, files[1..], file, installCfg, installVideo, cs2, video, locked);
    }
  }

  /** The replay of one more file of a list. */
  lemma ReplayPrefix(fs: Fs, files: seq<Path>, i: nat, installCfg: bool, installVideo: bool,
                     cs2: Option<Path>, video: Option<Path>, locked: set<Path>)
    requires i < |files|
    ensures var t := Replay(fs, files[..i], installCfg, installVideo, cs2, video, locked);
      var s := HandleFile(t.fs, files[i], installCfg, installVideo, cs2, video, locked);
      Replay(fs, files[..i + 1], installCfg, installVideo, cs2, video, locked) == Trace(s.fs, t.outcomes + [s.outcome])
  {
    ReplaySnoc(fs, files[..i], files[i], installCfg, installVideo, cs2, video, locked);
    assert files[..i + 1] == files[..i] + [files[i]];
  }

  /** No outcome is a copy onto `p`. */
  predicate NeverCopiedTo(os: seq<Outcome>, p: Path) {
    forall i :: 0 <= i < |os| && os[i].Copied? ==> os[i].target != p
  }

  /** A path that no file was copied onto is left as it was. */
  lemma {:induction false} ReplayFrame(fs: Fs, files: seq<Path>, installCfg: bool, installVideo: bool,
                                       cs2: Option<Path>, video: Option<Path>, locked: set<Path>, p: Path)
    requires NeverCopiedTo(Replay(fs, files, installCfg, installVideo, cs2, video, locked).outcomes, p)
    ensures var t := Replay(fs, files, installCfg, installVideo, cs2, video, locked);
      && (p in t.fs.files <==> p in fs.files)
      && (p in fs.files ==> t.fs.files[p] == fs.files[p])
    decreases |files|
  {
    if |files| > 0 {
      var t := Replay(fs, files, installCfg, installVideo, cs2, video, locked);
      var s := HandleFile(fs, files[0], installCfg, installVideo, cs2, video, locked);
      var rest := Replay(s.fs, files[1..], installCfg, installVideo, cs2, video, locked);
      assert t.outcomes == [s.outcome] + rest.outcomes;
      assert NeverCopiedTo(rest.outcomes, p) by {
        forall i | 0 <= i < |rest.outcomes| && rest.outcomes[i].Copied?
          ensures rest.outcomes[i].target != p
        {
          assert rest.outcomes[i] == t.outcomes[i + 1];
        }
      }
      ReplayFrame(s.fs, files[1..], installCfg, installVideo, cs2, video, locked, p);
      assert s.outcome == t.outcomes[0];
    }
  }

  lemma {:induction false} ReplayKeepsValid(fs: Fs, files: seq<Path>, installCfg: bool, installVideo: bool,
                                            cs2: Option<Path>, video: Option<Path>, locked: set<Path>)
    requires Valid(fs)
    ensures Valid(Replay(fs, files, installCfg, installVideo, cs2, video, locked).fs)
    decreases |files|
  {
    if |files| > 0 {
      var s := HandleFile(fs, files[0], installCfg, installVideo, cs2, video, locked);
      if s.outcome.Copied? {
        CopyFileKeepsValid(fs, files[0], s.outcome.target, locked);
      }
      ReplayKeepsValid(s.fs, files[1..], installCfg, installVideo, cs2, video, locked);
    }
  }

  /** Every dropped file has exactly one of the six outcomes. */
  lemma {:induction false} OutcomesPartition(os: seq<Outcome>)
    ensures Count(os, IsAbsent) + Count(os, IsSkipped) + Count(os, IsNoTarget)
      + Count(os, IsCopiedCfg) + Count(os, IsCopiedVideo) + Count(os, IsFailed) == |os|
    decreases |os|
  {
    if |os| > 0 {
      OutcomesPartition(os[1..]);
    }
  }

  /** The counters and the failure list InstallFromFiles reports. */
  datatype FilesReport = FilesReport(cfgCount: nat, txtCount: nat, skipped: nat, failed: seq<Outcome>)

  /** `report` holds the counters and the failures of the outcomes `os`. */
  predicate Tallies(report: FilesReport, os: seq<Outcome>) {
    && report.cfgCount == Count(os, IsCopiedCfg)
    && report.txtCount == Count(os, IsCopiedVideo)
    && report.skipped == Count(os, IsSkipped)
    && report.failed == Select(os, IsFailed)
  }

  /** The counter update after one file. */
  function Tally(report: FilesReport, o: Outcome): FilesReport {
    if IsCopiedCfg(o) then report.(cfgCount := report.cfgCount + 1)
    else if IsCopiedVideo(o) then report.(txtCount := report.txtCount + 1)
    else if IsFailed(o) then report.(failed := report.failed + [o])
    else if IsSkipped(o) then report.(skipped := report.skipped + 1)
    else report
  }

  lemma TallySnoc(report: FilesReport, os: seq<Outcome>, o: Outcome)
    requires Tallies(report, os)
    ensures Tallies(Tally(report, o), os + [o])
  {
    CountSnoc(os, o, IsCopiedCfg);
    CountSnoc(os, o, IsCopiedVideo);
    CountSnoc(os, o, IsSkipped);
    SelectSnoc(os, o, IsFailed);
  }

  /** InstallFromFiles: the foreach over the dropped files, keeping the counters
      the service logs. */
  method InstallFromFiles(fs: Fs, files: seq<Path>, installCfg: bool, installVideo: bool,
                          cs2: Option<Path>, video: Option<Path>, locked: set<Path>)
    returns (fs': Fs, report: FilesReport)
    ensures var t := Replay(fs, files, installCfg, installVideo, cs2, video, locked);
      && fs' == t.fs
      && report.cfgCount == Count(t.outcomes, IsCopiedCfg)
      && report.txtCount == Count(t.outcomes, IsCopiedVideo)
      && report.skipped == Count(t.outcomes, IsSkipped)
      && report.failed == Select(t.outcomes, IsFailed)
      && |report.failed| == Count(t.outcomes, IsFailed)
    ensures fs'.dirs == fs.dirs
    ensures report.cfgCount + report.txtCount + report.skipped + |report.failed| <= |files|
  {
    fs' := fs;
    report := FilesReport(0, 0, 0, []);
    ghost var outs: seq<Outcome> := [];
    var i := 0;
    while i < |files|
      invariant 0 <= i <= |files|
      invariant Replay(fs, files[..i], installCfg, installVideo, cs2, video, locked) == Trace(fs', outs)
      invariant Tallies(report, outs)
    {
      var s := HandleFile(fs', files[i], installCfg, installVideo, cs2, video, locked);
      ReplayPrefix(fs, files, i, installCfg, installVideo, cs2, video, locked);
      TallySnoc(report, outs, s.outcome);
      report := Tally(report, s.outcome);
      outs := outs + [s.outcome];
      fs' := s.fs;
      i := i + 1;
    }
    assert files[..i] == files;
    SelectCount(outs, IsFailed);
    OutcomesPartition(outs);
  }

  /** What CopyCfgFiles and CopyTxtFiles report: how many files were copied, and
      the relative path of each file that failed. */
  datatype CopyReport = CopyReport(copied: nat, failed: seq<Path>)

  datatype CopyRun = CopyRun(fs: Fs, report: CopyReport)

  /** The .cfg files under `src`, in enumeration order. */
  function CfgListing(fs: Fs, src: Path, order: seq<Path>): (r: seq<Path>)
    ensures forall i :: 0 <= i < |r| ==> r[i] in fs.files && IsUnder(r[i], src) && HasCfgName(r[i])
    ensures Covers(order, fs, src) ==> forall p :: p in fs.files && IsUnder(p, src) && HasCfgName(p) ==> p in r
    ensures Distinct(order) ==> Distinct(r)
  {
    Select(FilesUnder(fs, src, order), HasCfgName)
  }

  /** The batch of CopyCfgFiles: each .cfg file to its relative place under `dst`. */
  function CfgBatch(fs: Fs, src: Path, dst: Path, order: seq<Path>, locked: set<Path>): Batch {
    RunCopies(fs, MirrorJobs(src, dst, CfgListing(fs, src, order)), locked, true)
  }

  /** The relative path of each listed file. */
  function RelPaths(src: Path, listing: seq<Path>): (r: seq<Path>)
    requires forall i :: 0 <= i < |listing| ==> IsUnder(listing[i], src)
    ensures |r| == |listing|
    ensures forall i :: 0 <= i < |r| ==> src + r[i] == listing[i]
  {
    seq(|listing|, i requires 0 <= i < |listing| => Rel(src, listing[i]))
  }

  /** Files the cfg batch creates are .cfg files below `dst`. */
  lemma CfgBatchNewFiles(fs: Fs, src: Path, dst: Path, order: seq<Path>, locked: set<Path>)
    ensures var b := CfgBatch(fs, src, dst, order, locked);
      forall p :: p in b.fs.files && p !in fs.files ==> HasCfgName(p) && Stem(dst) < p
  {
    var listing := CfgListing(fs, src, order);
    assert forall i :: 0 <= i < |listing| ==> IsUnder(listing[i], src) && IsCfgName(Name(listing[i]));
    var b := RunCopies(fs, MirrorJobs(src, dst, listing), locked, true);
    forall p | p in b.fs.files && p !in fs.files
      ensures HasCfgName(p) && Stem(dst) < p
    {
      if !(IsCfgName(Name(p)) && Stem(dst) < p) {
        MirrorFrame(fs, src, dst, listing, locked, IsCfgName, p);
      }
    }
  }

  /** The relative paths of the listed files whose flag is false. */
  function FailedRels(src: Path, listing: seq<Path>, ok: seq<bool>): (r: seq<Path>)
    requires forall i :: 0 <= i < |listing| ==> IsUnder(listing[i], src)
    requires |ok| == |listing|
    ensures |r| + CountTrue(ok) == |listing|
    ensures forall i :: 0 <= i < |r| ==> src + r[i] in listing
  {
    var rels := RelPaths(src, listing);
    var r := Unmarked(rels, ok);
    assert forall i :: 0 <= i < |r| ==> src + r[i] in listing by {
      forall i | 0 <= i < |r|
        ensures src + r[i] in listing
      {
        var j :| 0 <= j < |rels| && !ok[j] && r[i] == rels[j];
        assert src + rels[j] == listing[j];
      }
    }
    r
  }

  /** The relative paths of the .cfg files whose copy failed. */
  function CfgFailures(fs: Fs, src: Path, dst: Path, order: seq<Path>, locked: set<Path>): (r: seq<Path>)
    ensures |r| + CountTrue(CfgBatch(fs, src, dst, order, locked).ok) == |CfgListing(fs, src, order)|
    ensures forall i :: 0 <= i < |r| ==> src + r[i] in fs.files && HasCfgName(src + r[i])
  {
    FailedRels(src, CfgListing(fs, src, order), CfgBatch(fs, src, dst, order, locked).ok)
  }

  /** CopyCfgFiles(src, dst): every .cfg file anywhere under `src` is copied to
      the same relative path under `dst`, creating directories as needed; a
      failed copy is recorded and the loop goes on. Directory.GetFiles throws
      DirectoryNotFound when `src` is missing. */
  function CopyCfgFiles(fs: Fs, src: Path, dst: Path, order: seq<Path>, locked: set<Path>): (r: Result<CopyRun, Fault>)
    ensures r.Err? <==> src !in fs.dirs
    ensures r.Err? ==> r.error == DirectoryNotFound(src)
    ensures r.Ok? ==> r.value.report.copied + |r.value.report.failed| == |CfgListing(fs, src, order)|
    ensures r.Ok? ==> forall i :: 0 <= i < |r.value.report.failed| ==>
      src + r.value.report.failed[i] in fs.files && HasCfgName(src + r.value.report.failed[i])
    ensures r.Ok? ==> fs.dirs <= r.value.fs.dirs
    ensures r.Ok? ==> forall p :: p in r.value.fs.files && p !in fs.files ==> HasCfgName(p) && Stem(dst) < p
  {
    if src !in fs.dirs then Err(DirectoryNotFound(src))
    else
      var b := CfgBatch(fs, src, dst, order, locked);
      CfgBatchNewFiles(fs, src, dst, order, locked);
      Ok(CopyRun(b.fs, CopyReport(CountTrue(b.ok), CfgFailures(fs, src, dst, order, locked))))
  }

  /** Every .cfg file under `src` is either reported as failed or present under
      `dst` at its relative path with its contents, when the enumeration is
      complete and neither directory contains the other. */
  lemma CopyCfgInstalls(fs: Fs, src: Path, dst: Path, order: seq<Path>, locked: set<Path>)
    requires src in fs.dirs && Covers(order, fs, src) && Apart(src, Stem(dst))
    ensures var r := CopyCfgFiles(fs, src, dst, order, locked).value;
      forall f :: f in fs.files && IsUnder(f, src) && HasCfgName(f) ==>
        || Rel(src, f) in r.report.failed
        || (Combine(dst, Rel(src, f)) in r.fs.files && r.fs.files[Combine(dst, Rel(src, f))] == fs.files[f])
  {
    var listing := CfgListing(fs, src, order);
    var b := RunCopies(fs, MirrorJobs(src, dst, listing), locked, true);
    var rels := RelPaths(src, listing);
    MirrorContents(fs, src, dst, listing, locked);
    forall f | f in fs.files && IsUnder(f, src) && HasCfgName(f)
      ensures || Rel(src, f) in Unmarked(rels, b.ok)
              || (Combine(dst, Rel(src, f)) in b.fs.files && b.fs.files[Combine(dst, Rel(src, f))] == fs.files[f])
    {
      var i :| 0 <= i < |listing| && listing[i] == f;
      assert rels[i] == Rel(src, f);
    }
  }

  /** The report of CopyCfgFiles is the batch's: `copied` counts the jobs that
      succeeded, and a listed file's relative path is reported failed exactly
      when its job threw, for an enumeration without repeats. */
  lemma CopyCfgReport(fs: Fs, src: Path, dst: Path, order: seq<Path>, locked: set<Path>)
    requires src in fs.dirs && Distinct(order)
    ensures var listing := CfgListing(fs, src, order);
      var b := CfgBatch(fs, src, dst, order, locked);
      var r := CopyCfgFiles(fs, src, dst, order, locked).value;
      && r.fs == b.fs
      && r.report.copied == CountTrue(b.ok)
      && forall i :: 0 <= i < |listing| ==> (Rel(src, listing[i]) in r.report.failed <==> !b.ok[i])
  {
    var listing := CfgListing(fs, src, order);
    var b := CfgBatch(fs, src, dst, order, locked);
    var rels := RelPaths(src, listing);
    assert Distinct(rels) by {
      forall i, j | 0 <= i < j < |rels|
        ensures rels[i] != rels[j]
      {
        assert listing[i] != listing[j];
      }
    }
    forall i | 0 <= i < |listing|
      ensures Rel(src, listing[i]) in Unmarked(rels, b.ok) <==> !b.ok[i]
    {
      assert rels[i] == Rel(src, listing[i]);
      UnmarkedExact(rels, b.ok, i);
    }
  }

  /** A path that is not a .cfg path under `dst` is left as it was. */
  lemma CopyCfgFrame(fs: Fs, src: Path, dst: Path, order: seq<Path>, locked: set<Path>, p: Path)
    requires src in fs.dirs && !(HasCfgName(p) && Stem(dst) < p)
    ensures var r := CopyCfgFiles(fs, src, dst, order, locked).value;
      && (p in r.fs.files <==> p in fs.files)
      && (p in fs.files ==> r.fs.files[p] == fs.files[p])
  {
    MirrorFrame(fs, src, dst, CfgListing(fs, src, order), locked, IsCfgName, p);
  }

  /** The .txt files under `src`, in enumeration order. */
  function TxtListing(fs: Fs, src: Path, order: seq<Path>): (r: seq<Path>)
    ensures forall i :: 0 <= i < |r| ==> r[i] in fs.files && IsUnder(r[i], src) && HasTxtName(r[i])
    ensures Covers(order, fs, src) ==> forall p :: p in fs.files && IsUnder(p, src) && HasTxtName(p) ==> p in r
    ensures Distinct(order) ==> Distinct(r)
  {
    Select(FilesUnder(fs, src, order), HasTxtName)
  }

  /** The jobs that copy every listed file directly into `dst` under its own name. */
  function FlatJobs(dst: Path, listing: seq<Path>): (jobs: seq<Job>)
    ensures |jobs| == |listing|
    ensures forall i :: 0 <= i < |jobs| ==>
      jobs[i].src == listing[i] && jobs[i].dst == Stem(dst) + [Name(listing[i])]
  {
    seq(|listing|, i requires 0 <= i < |listing| => Job(listing[i], Combine(dst, [Name(listing[i])])))
  }

  /** The batch of CopyTxtFiles. */
  function TxtBatch(fs: Fs, src: Path, dst: Path, order: seq<Path>, locked: set<Path>): Batch {
    RunCopies(fs, FlatJobs(dst, TxtListing(fs, src, order)), locked, false)
  }

  /** The one-segment path of each listed file's name. */
  function NamePaths(listing: seq<Path>): (r: seq<Path>)
    ensures |r| == |listing|
    ensures forall i :: 0 <= i < |r| ==> r[i] == [Name(listing[i])]
  {
    seq(|listing|, i requires 0 <= i < |listing| => [Name(listing[i])])
  }

  /** Files the txt batch creates are .txt files directly inside `dst`. */
  lemma TxtBatchNewFiles(fs: Fs, src: Path, dst: Path, order: seq<Path>, locked: set<Path>)
    ensures var b := TxtBatch(fs, src, dst, order, locked);
      forall p :: p in b.fs.files && p !in fs.files ==> HasTxtName(p) && Parent(p) == Stem(dst)
  {
    var listing := TxtListing(fs, src, order);
    var jobs := FlatJobs(dst, listing);
    var b := RunCopies(fs, jobs, locked, false);
    forall p | p in b.fs.files && p !in fs.files
      ensures HasTxtName(p) && Parent(p) == Stem(dst)
    {
      var j :| 0 <= j < |jobs| && b.ok[j] && jobs[j].dst == p;
      assert p == Stem(dst) + [Name(listing[j])];
    }
  }

  /** The names, as one-segment paths, of the listed files whose flag is false. */
  function FailedNames(listing: seq<Path>, ok: seq<bool>, named: string -> bool): (r: seq<Path>)
    requires forall i :: 0 <= i < |listing| ==> named(Name(listing[i]))
    requires |ok| == |listing|
    ensures |r| + CountTrue(ok) == |listing|
    ensures forall i :: 0 <= i < |r| ==> |r[i]| == 1 && named(r[i][0])
  {
    var names := NamePaths(listing);
    var r := Unmarked(names, ok);
    assert forall i :: 0 <= i < |r| ==> |r[i]| == 1 && named(r[i][0]) by {
      forall i | 0 <= i < |r|
        ensures |r[i]| == 1 && named(r[i][0])
      {
        var j :| 0 <= j < |names| && !ok[j] && r[i] == names[j];
        assert names[j] == [Name(listing[j])];
      }
    }
    r
  }

  /** The names of the .txt files whose copy failed. */
  function TxtFailures(fs: Fs, src: Path, dst: Path, order: seq<Path>, locked: set<Path>): (r: seq<Path>)
    ensures |r| + CountTrue(TxtBatch(fs, src, dst, order, locked).ok) == |TxtListing(fs, src, order)|
    ensures forall i :: 0 <= i < |r| ==> |r[i]| == 1 && IsTxtName(r[i][0])
  {
    FailedNames(TxtListing(fs, src, order), TxtBatch(fs, src, dst, order, locked).ok, IsTxtName)
  }

  /** CopyTxtFiles(src, dst): every .txt file anywhere under `src` is copied
      directly into `dst` under its own name, without creating directories; a
      failed copy is recorded and the loop goes on. */
  function CopyTxtFiles(fs: Fs, src: Path, dst: Path, order: seq<Path>, locked: set<Path>): (r: Result<CopyRun, Fault>)
    ensures r.Err? <==> src !in fs.dirs
    ensures r.Err? ==> r.error == DirectoryNotFound(src)
    ensures r.Ok? ==> r.value.report.copied + |r.value.report.failed| == |TxtListing(fs, src, order)|
    ensures r.Ok? ==> forall i :: 0 <= i < |r.value.report.failed| ==>
      |r.value.report.failed[i]| == 1 && IsTxtName(r.value.report.failed[i][0])
    ensures r.Ok? ==> r.value.fs.dirs == fs.dirs
    ensures r.Ok? ==> forall p :: p in r.value.fs.files && p !in fs.files ==> HasTxtName(p) && Parent(p) == Stem(dst)
  {
    if src !in fs.dirs then Err(DirectoryNotFound(src))
    else
      var b := TxtBatch(fs, src, dst, order, locked);
      TxtBatchNewFiles(fs, src, dst, order, locked);
      Ok(CopyRun(b.fs, CopyReport(CountTrue(b.ok), TxtFailures(fs, src, dst, order, locked))))
  }

  /** The report of CopyTxtFiles is the batch's: `copied` counts the jobs that
      succeeded, every file whose job threw has its name reported, and every
      reported name is that of a file whose job threw. */
  lemma CopyTxtReport(fs: Fs, src: Path, dst: Path, order: seq<Path>, locked: set<Path>)
    requires src in fs.dirs
    ensures var listing := TxtListing(fs, src, order);
      var b := TxtBatch(fs, src, dst, order, locked);
      var r := CopyTxtFiles(fs, src, dst, order, locked).value;
      && r.fs == b.fs
      && r.report.copied == CountTrue(b.ok)
      && (forall i :: 0 <= i < |listing| && !b.ok[i] ==> [Name(listing[i])] in r.report.failed)
      && (forall k :: 0 <= k < |r.report.failed| ==>
            exists j :: 0 <= j < |listing| && !b.ok[j] && r.report.failed[k] == [Name(listing[j])])
  {
    var b := TxtBatch(fs, src, dst, order, locked);
    assert CopyTxtFiles(fs, src, dst, order, locked).value
      == CopyRun(b.fs, CopyReport(CountTrue(b.ok), TxtFailures(fs, src, dst, order, locked)));
    FailedNamesExact(TxtListing(fs, src, order), b.ok, IsTxtName);
  }

  /** The failure list holds the name of every file whose copy failed and
      nothing else. */
  lemma FailedNamesExact(listing: seq<Path>, ok: seq<bool>, named: string -> bool)
    requires forall i :: 0 <= i < |listing| ==> named(Name(listing[i]))
    requires |ok| == |listing|
    ensures var failed := FailedNames(listing, ok, named);
      && (forall i :: 0 <= i < |listing| && !ok[i] ==> [Name(listing[i])] in failed)
      && (forall k :: 0 <= k < |failed| ==>
            exists j :: 0 <= j < |listing| && !ok[j] && failed[k] == [Name(listing[j])])
  {
    var names := NamePaths(listing);
    var failed := Unmarked(names, ok);
    forall i | 0 <= i < |listing| && !ok[i]
      ensures [Name(listing[i])] in failed
    {
      assert names[i] == [Name(listing[i])];
    }
    forall k | 0 <= k < |failed|
      ensures exists j :: 0 <= j < |listing| && !ok[j] && failed[k] == [Name(listing[j])]
    {
      var j :| 0 <= j < |names| && !ok[j] && failed[k] == names[j];
      assert names[j] == [Name(listing[j])];
    }
  }

  /** Files with the same name from different subdirectories all land on one
      target, and the last one copied wins: a copied file's contents survive
      unless a later file of the same name was copied too. */
  lemma CopyTxtLastWins(fs: Fs, src: Path, dst: Path, order: seq<Path>, locked: set<Path>, i: nat)
    requires src in fs.dirs && !(src <= Stem(dst))
    requires i < |TxtListing(fs, src, order)| && TxtBatch(fs, src, dst, order, locked).ok[i]
    requires var listing := TxtListing(fs, src, order);
      forall j :: i < j < |listing| && Name(listing[j]) == Name(listing[i]) ==> !TxtBatch(fs, src, dst, order, locked).ok[j]
    ensures var listing := TxtListing(fs, src, order);
      var r := CopyTxtFiles(fs, src, dst, order, locked).value;
      && Combine(dst, [Name(listing[i])]) in r.fs.files
      && r.fs.files[Combine(dst, [Name(listing[i])])] == fs.files[listing[i]]
  {
    var listing := TxtListing(fs, src, order);
    var jobs := FlatJobs(dst, listing);
    assert TargetsAvoidSources(jobs);
    RunCopiesLastWins(fs, jobs, locked, false, i);
  }

  /** The archive's entries can be laid out as files: every entry path is
      non-empty, climbs no directory with "..", and lies inside no other entry. */
  predicate LaysOut(entries: map<Path, Content>) {
    && (forall k :: k in entries ==> |k| >= 1 && ".." !in k)
    && (forall k, k' :: k in entries && k' in entries ==> !(k < k'))
  }

  /** The directories extraction creates for the entries below `dest`. */
  function EntryDirs(dest: Path, entries: map<Path, Content>): set<Path> {
    set k, i | k in entries && 1 <= i < |k| :: dest + k[..i]
  }

  /** The entries placed below `dest`. */
  function Placed(dest: Path, entries: map<Path, Content>): (r: map<Path, Content>)
    requires forall k :: k in entries ==> |k| >= 1
    ensures forall k :: k in entries ==> dest + k in r && r[dest + k] == entries[k]
    ensures forall p :: p in r ==> IsUnder(p, dest) && Rel(dest, p) in entries && r[p] == entries[Rel(dest, p)]
  {
    var targets := set k | k in entries :: dest + k;
    var r := map p | p in targets && |dest| < |p| && p[..|dest|] == dest && p[|dest|..] in entries :: entries[p[|dest|..]];
    assert forall k :: k in entries ==> dest + k in r && r[dest + k] == entries[k] by {
      forall k | k in entries
        ensures dest + k in r && r[dest + k] == entries[k]
      {
        var p := dest + k;
        assert p in targets && p[..|dest|] == dest && p[|dest|..] == k;
      }
    }
    r
  }

  /** An entry cannot be written: its target is a directory or locked, or one
      of the directories it needs is a file. */
  predicate Blocked(fs: Fs, dest: Path, k: Path, locked: set<Path>) {
    || dest + k in fs.dirs
    || dest + k in locked
    || exists i :: 1 <= i < |k| && dest + k[..i] in fs.files
  }

  /** ZipFile.ExtractToDirectory(zip, dest, overwriteFiles: true), all or nothing. */
  function Extract(fs: Fs, zip: Path, dest: Path, locked: set<Path>): (r: Result<Fs, Fault>)
    ensures r.Ok? ==> zip in fs.files && fs.files[zip].Archive? && LaysOut(fs.files[zip].entries)
    ensures r.Ok? ==> var entries := fs.files[zip].entries;
      forall k :: k in entries ==> dest + k in r.value.files && r.value.files[dest + k] == entries[k]
    ensures r.Ok? ==> forall p :: p in r.value.files && !IsUnder(p, dest) ==> p in fs.files && r.value.files[p] == fs.files[p]
    ensures r.Ok? ==> forall p :: p in r.value.files && p !in fs.files ==> IsUnder(p, dest) && Rel(dest, p) in fs.files[zip].entries
    ensures r.Ok? ==> fs.dirs <= r.value.dirs && dest in r.value.dirs
  {
    if zip in locked then Err(IoError(zip))
    else if zip !in fs.files then Err(FileNotFound(zip))
    else match fs.files[zip]
      case Plain(_) => Err(InvalidArchive(zip))
      case Archive(entries) =>
        if !LaysOut(entries) then Err(IoError(zip))
        else if |dest| == 0 then Err(IoError(dest))
        else
          var fs0 :- MakeDirs(fs, dest);
          if exists k :: k in entries && Blocked(fs0, dest, k, locked) then Err(IoError(dest))
          else
            Ok(Fs(fs0.files + Placed(dest, entries), fs0.dirs + EntryDirs(dest, entries)))
  }

  /** Extraction keeps the filesystem valid: the entries' directories are
      created, and no entry collides with a directory. */
  lemma ExtractKeepsValid(fs: Fs, zip: Path, dest: Path, locked: set<Path>)
    requires Valid(fs) && Extract(fs, zip, dest, locked).Ok?
    ensures Valid(Extract(fs, zip, dest, locked).value)
  {
    var entries := fs.files[zip].entries;
    MakeDirsKeepsValid(fs, dest);
    var fs0 := MakeDirs(fs, dest).value;
    var r := Extract(fs, zip, dest, locked).value;
    assert r == Fs(fs0.files + Placed(dest, entries), fs0.dirs + EntryDirs(dest, entries));
    forall p | p in Placed(dest, entries)
      ensures |p| >= 2 && Parent(p) in r.dirs && p !in r.dirs
    {
      PlacedFileFits(fs0, dest, entries, locked, p);
    }
    forall d | d in EntryDirs(dest, entries)
      ensures |d| >= 1 && (|d| >= 2 ==> Parent(d) in r.dirs) && d !in r.files
    {
      EntryDirFits(fs0, dest, entries, locked, d);
    }
  }

  lemma PlacedFileFits(fs0: Fs, dest: Path, entries: map<Path, Content>, locked: set<Path>, p: Path)
    requires LaysOut(entries) && dest in fs0.dirs && |dest| >= 1
    requires forall k :: k in entries ==> !Blocked(fs0, dest, k, locked)
    requires p in Placed(dest, entries)
    ensures |p| >= 2
    ensures Parent(p) in fs0.dirs + EntryDirs(dest, entries)
    ensures p !in fs0.dirs + EntryDirs(dest, entries)
  {
    var k := Rel(dest, p);
    assert k in entries && p == dest + k;
    if |k| >= 2 {
      assert Parent(p) == dest + k[..|k| - 1];
    } else {
      assert Parent(p) == dest;
    }
    assert !Blocked(fs0, dest, k, locked);
  }

  lemma EntryDirFits(fs0: Fs, dest: Path, entries: map<Path, Content>, locked: set<Path>, d: Path)
    requires LaysOut(entries) && dest in fs0.dirs && |dest| >= 1
    requires forall k :: k in entries ==> !Blocked(fs0, dest, k, locked)
    requires d in EntryDirs(dest, entries)
    ensures |d| >= 1
    ensures |d| >= 2 ==> Parent(d) in fs0.dirs + EntryDirs(dest, entries)
    ensures d !in fs0.files + Placed(dest, entries)
  {
    var k, i :| k in entries && 1 <= i < |k| && d == dest + k[..i];
    if i >= 2 {
      assert Parent(d) == dest + k[..i - 1];
    } else {
      assert Parent(d) == dest;
    }
    assert d !in fs0.files by {
      assert !Blocked(fs0, dest, k, locked);
    }
    PrefixNotPlaced(dest, entries, k, i);
  }

  /** A proper prefix of an entry is not itself placed as a file. */
  lemma PrefixNotPlaced(dest: Path, entries: map<Path, Content>, k: Path, i: nat)
    requires LaysOut(entries) && k in entries && 1 <= i < |k|
    ensures dest + k[..i] !in Placed(dest, entries)
  {
    assert k[..i] < k;
    assert (dest + k[..i])[|dest|..] == k[..i];
  }

  /** A path that is not a .txt file directly in `dst` is left as it was by CopyTxtFiles. */
  lemma CopyTxtFrame(fs: Fs, src: Path, dst: Path, order: seq<Path>, locked: set<Path>, p: Path)
    requires src in fs.dirs && !(HasTxtName(p) && Parent(p) == Stem(dst))
    ensures var r := CopyTxtFiles(fs, src, dst, order, locked).value;
      && (p in r.fs.files <==> p in fs.files)
      && (p in fs.files ==> r.fs.files[p] == fs.files[p])
  {
    var listing := TxtListing(fs, src, order);
    var jobs := FlatJobs(dst, listing);
    forall j | 0 <= j < |jobs| && RunCopies(fs, jobs, locked, false).ok[j]
      ensures jobs[j].dst != p
    {
      assert jobs[j].dst == Stem(dst) + [Name(listing[j])];
    }
    RunCopiesFrame(fs, jobs, locked, false, p);
  }

  /** What InstallFromZip logs about each category: None when the category was
      not installed, because it is switched off or its target directory is null. */
  datatype ZipReport = ZipReport(cfg: Option<CopyReport>, video: Option<CopyReport>)

  /** The filesystem after InstallFromZip, and its report or the exception it let through. */
  datatype ZipRun = ZipRun(fs: Fs, result: Result<ZipReport, Fault>)

  /** The try block of InstallFromZip: extract into the temporary directory,
      then copy the .cfg files and the .txt files out of it. The temporary
      directory exists once extraction succeeds, so neither listing throws. */
  function ZipBody(fs: Fs, zip: Path, installCfg: bool, installVideo: bool, cs2: Option<Path>, video: Option<Path>,
                   tempDir: Path, order: seq<Path>, locked: set<Path>): (r: ZipRun)
    ensures r.result.Err? <==> Extract(fs, zip, tempDir, locked).Err?
    ensures r.result.Err? ==> r.fs == fs
    ensures r.result.Ok? ==> (r.result.value.cfg.Some? <==> installCfg && cs2.Some?)
    ensures r.result.Ok? ==> (r.result.value.video.Some? <==> installVideo && video.Some?)
    ensures fs.dirs <= r.fs.dirs
  {
    match Extract(fs, zip, tempDir, locked)
    case Err(e) => ZipRun(fs, Err(e))
    case Ok(fs2) =>
      var cfg := if installCfg && cs2.Some? then Some(CopyCfgFiles(fs2, tempDir, cs2.value, order, locked).value) else None;
      var fs3 := if cfg.Some? then cfg.value.fs else fs2;
      var txt := if installVideo && video.Some? then Some(CopyTxtFiles(fs3, tempDir, video.value, order, locked).value) else None;
      var fs4 := if txt.Some? then txt.value.fs else fs3;
      ZipRun(fs4, Ok(ZipReport(if cfg.Some? then Some(cfg.value.report) else None,
                               if txt.Some? then Some(txt.value.report) else None)))
  }

  /** The finally block: if Directory.Exists(tempDir), Directory.Delete(tempDir, true). */
  function RemoveTemp(fs: Fs, tempDir: Path): (r: Fs)
    ensures tempDir in fs.dirs ==> forall p :: p in r.files ==> !(tempDir <= p)
    ensures tempDir in fs.dirs ==> forall p :: p in r.dirs ==> !(tempDir <= p)
    ensures forall p :: p in fs.files && !(tempDir <= p) ==> p in r.files && r.files[p] == fs.files[p]
    ensures forall p :: p in r.files ==> p in fs.files
  {
    if tempDir in fs.dirs then DeleteTree(fs, tempDir) else fs
  }

  /** InstallFromZip: create a fresh temporary directory (outside the try),
      run the try block, and remove the temporary directory in the finally
      block whether or not the try block threw. */
  function InstallFromZip(fs: Fs, zip: Path, installCfg: bool, installVideo: bool, cs2: Option<Path>, video: Option<Path>,
                          tempDir: Path, order: seq<Path>, locked: set<Path>): (r: ZipRun)
    ensures MakeDirs(fs, tempDir).Err? ==> r.fs == fs && r.result.Err?
    ensures MakeDirs(fs, tempDir).Ok? && |tempDir| >= 1 ==>
      && (forall p :: p in r.fs.files ==> !(tempDir <= p))
      && (forall p :: p in r.fs.dirs ==> !(tempDir <= p))
    ensures r.result.Ok? ==> (r.result.value.cfg.Some? <==> installCfg && cs2.Some?)
    ensures r.result.Ok? ==> (r.result.value.video.Some? <==> installVideo && video.Some?)
  {
    match MakeDirs(fs, tempDir)
    case Err(e) => ZipRun(fs, Err(e))
    case Ok(fs1) =>
      var body := ZipBody(fs1, zip, installCfg, installVideo, cs2, video, tempDir, order, locked);
      ZipRun(RemoveTemp(body.fs, tempDir), body.result)
  }

  /** Creating a fresh directory and deleting it again restores the filesystem. */
  lemma TempRoundTrip(fs: Fs, tempDir: Path)
    requires Valid(fs) && Fresh(fs, tempDir)
    ensures MakeDirs(fs, tempDir).Ok?
    ensures tempDir in MakeDirs(fs, tempDir).value.dirs
    ensures RemoveTemp(MakeDirs(fs, tempDir).value, tempDir) == fs
  {
    forall i | 1 <= i < |tempDir|
      ensures tempDir[..i] in fs.dirs
    {
      AncestorsExist(fs, Parent(tempDir), i);
      assert Parent(tempDir)[..i] == tempDir[..i];
    }
    assert tempDir[..|tempDir|] == tempDir;
    var fs1 := MakeDirs(fs, tempDir).value;
    var r := DeleteTree(fs1, tempDir);
    assert r.files == fs.files;
    forall d
      ensures d in r.dirs <==> d in fs.dirs
    {
      if d in Ancestry(tempDir) && !(tempDir <= d) {
        assert d == tempDir[..|d|];
      }
    }
  }

  /** When the temporary directory is fresh, a failed installation leaves no
      trace: the only exception InstallFromZip lets through is the one of the
      extraction, and the finally block removes what was created before it. */
  lemma ZipFailureLeavesNoTrace(fs: Fs, zip: Path, installCfg: bool, installVideo: bool, cs2: Option<Path>,
                                video: Option<Path>, tempDir: Path, order: seq<Path>, locked: set<Path>)
    requires Valid(fs) && Fresh(fs, tempDir)
    ensures MakeDirs(fs, tempDir).Ok?
    ensures var r := InstallFromZip(fs, zip, installCfg, installVideo, cs2, video, tempDir, order, locked);
      r.result.Err? ==> r.fs == fs && Extract(MakeDirs(fs, tempDir).value, zip, tempDir, locked).Err?
  {
    TempRoundTrip(fs, tempDir);
  }

  /** After a fresh extraction, an order listing every entry covers the temporary directory. */
  lemma ExtractCovers(fs1: Fs, zip: Path, tempDir: Path, locked: set<Path>, order: seq<Path>)
    requires Extract(fs1, zip, tempDir, locked).Ok?
    requires forall p :: p in fs1.files ==> !IsUnder(p, tempDir)
    requires Distinct(order) && forall k :: k in fs1.files[zip].entries ==> tempDir + k in order
    ensures Covers(order, Extract(fs1, zip, tempDir, locked).value, tempDir)
  {
    var fs2 := Extract(fs1, zip, tempDir, locked).value;
    forall p | p in fs2.files && IsUnder(p, tempDir)
      ensures p in order
    {
      assert tempDir + Rel(tempDir, p) == p;
    }
  }

  /** CopyCfgInstalls for one file, named by its path relative to `src`. */
  lemma CopyCfgEntry(fs: Fs, src: Path, dst: Path, order: seq<Path>, locked: set<Path>, k: Path)
    requires src in fs.dirs && Covers(order, fs, src) && Apart(src, Stem(dst))
    requires |k| >= 1 && src + k in fs.files && IsCfgName(Name(k))
    ensures var r := CopyCfgFiles(fs, src, dst, order, locked).value;
      || k in r.report.failed
      || (Combine(dst, k) in r.fs.files && r.fs.files[Combine(dst, k)] == fs.files[src + k])
  {
    NameBelow(src, k);
    CopyCfgInstalls(fs, src, dst, order, locked);
  }

  /** The try block of InstallFromZip delivers every .cfg entry of the archive,
      or reports it as failed. */
  lemma ZipBodyInstallsCfg(fs1: Fs, zip: Path, installVideo: bool, cs2: Path, video: Option<Path>,
                           tempDir: Path, order: seq<Path>, locked: set<Path>, k: Path)
    requires Extract(fs1, zip, tempDir, locked).Ok?
    requires forall p :: p in fs1.files ==> !IsUnder(p, tempDir)
    requires Apart(tempDir, Stem(cs2))
    requires k in fs1.files[zip].entries && IsCfgName(Name(k))
    requires Distinct(order) && forall e :: e in fs1.files[zip].entries ==> tempDir + e in order
    ensures var b := ZipBody(fs1, zip, true, installVideo, Some(cs2), video, tempDir, order, locked);
      && b.result.Ok?
      && (|| k in b.result.value.cfg.value.failed
          || (Combine(cs2, k) in b.fs.files && b.fs.files[Combine(cs2, k)] == fs1.files[zip].entries[k]))
  {
    var fs2 := Extract(fs1, zip, tempDir, locked).value;
    var entries := fs1.files[zip].entries;
    var target := Combine(cs2, k);
    var cfg := CopyCfgFiles(fs2, tempDir, cs2, order, locked).value;
    assert k in cfg.report.failed || (target in cfg.fs.files && cfg.fs.files[target] == entries[k]) by {
      ExtractCovers(fs1, zip, tempDir, locked, order);
      CopyCfgEntry(fs2, tempDir, cs2, order, locked, k);
    }
    var fs3 := cfg.fs;
    if installVideo && video.Some? {
      CfgIsNotTxt(Name(k));
      assert Name(target) == Name(k);
      CopyTxtFrame(fs3, tempDir, video.value, order, locked, target);
    }
  }

  /** The package's .cfg files reach the cfg directory: after a successful
      installation from a fresh temporary directory, every .cfg entry of the
      archive is either reported as failed or present under the cfg directory
      at its path in the archive, with its contents. */
  lemma ZipInstallsCfg(fs: Fs, zip: Path, installVideo: bool, cs2: Path, video: Option<Path>,
                       tempDir: Path, order: seq<Path>, locked: set<Path>, k: Path)
    requires Valid(fs) && Fresh(fs, tempDir) && Apart(tempDir, Stem(cs2))
    requires zip in fs.files && fs.files[zip].Archive? && k in fs.files[zip].entries && IsCfgName(Name(k))
    requires Distinct(order) && forall e :: e in fs.files[zip].entries ==> tempDir + e in order
    requires InstallFromZip(fs, zip, true, installVideo, Some(cs2), video, tempDir, order, locked).result.Ok?
    ensures var r := InstallFromZip(fs, zip, true, installVideo, Some(cs2), video, tempDir, order, locked);
      || k in r.result.value.cfg.value.failed
      || (Combine(cs2, k) in r.fs.files && r.fs.files[Combine(cs2, k)] == fs.files[zip].entries[k])
  {
    TempRoundTrip(fs, tempDir);
    var fs1 := MakeDirs(fs, tempDir).value;
    assert fs1.files == fs.files;
    var b := ZipBody(fs1, zip, true, installVideo, Some(cs2), video, tempDir, order, locked);
    ZipBodyInstallsCfg(fs1, zip, installVideo, cs2, video, tempDir, order, locked, k);
    ApartKeepsOut(tempDir, Stem(cs2), k);
  }

  /** CopyTxtFiles for one file, named by its path relative to `src`, when no
      other .txt file under `src` has its name: it is reported as failed or
      present directly in `dst` with its contents. */
  lemma CopyTxtEntry(fs: Fs, src: Path, dst: Path, order: seq<Path>, locked: set<Path>, k: Path)
    requires src in fs.dirs && Covers(order, fs, src) && !(src <= Stem(dst))
    requires |k| >= 1 && src + k in fs.files && IsTxtName(Name(k))
    requires forall p :: p in fs.files && IsUnder(p, src) && HasTxtName(p) && Name(p) == Name(k) ==> p == src + k
    ensures var r := CopyTxtFiles(fs, src, dst, order, locked).value;
      || [Name(k)] in r.report.failed
      || (Combine(dst, [Name(k)]) in r.fs.files && r.fs.files[Combine(dst, [Name(k)])] == fs.files[src + k])
  {
    var listing := TxtListing(fs, src, order);
    var b := TxtBatch(fs, src, dst, order, locked);
    NameBelow(src, k);
    assert src + k in listing;
    var i :| 0 <= i < |listing| && listing[i] == src + k;
    CopyTxtReport(fs, src, dst, order, locked);
    if b.ok[i] {
      forall j | i < j < |listing|
        ensures Name(listing[j]) != Name(listing[i])
      {
        assert listing[j] != listing[i];
        assert listing[j] in fs.files && IsUnder(listing[j], src) && HasTxtName(listing[j]);
      }
      CopyTxtLastWins(fs, src, dst, order, locked, i);
    }
  }

  /** Files at or below `dir` are the same in both filesystems. */
  ghost predicate SameUnder(fs: Fs, fs': Fs, dir: Path) {
    && (forall p :: IsUnder(p, dir) ==> (p in fs.files <==> p in fs'.files))
    && (forall p :: IsUnder(p, dir) && p in fs.files ==> fs'.files[p] == fs.files[p])
  }

  /** Copying the .cfg files out of the temporary directory to a cfg directory
      apart from it leaves the temporary directory's files alone. */
  lemma CfgStageKeepsTemp(fs: Fs, tempDir: Path, cs2: Path, order: seq<Path>, locked: set<Path>)
    requires tempDir in fs.dirs && Apart(tempDir, Stem(cs2))
    ensures var fs' := CopyCfgFiles(fs, tempDir, cs2, order, locked).value.fs;
      tempDir in fs'.dirs && SameUnder(fs, fs', tempDir)
  {
    forall p | IsUnder(p, tempDir)
      ensures var fs' := CopyCfgFiles(fs, tempDir, cs2, order, locked).value.fs;
        && (p in fs.files <==> p in fs'.files)
        && (p in fs.files ==> fs'.files[p] == fs.files[p])
    {
      assert p == tempDir + p[|tempDir|..];
      ApartKeepsOut(Stem(cs2), tempDir, p[|tempDir|..]);
      CopyCfgFrame(fs, tempDir, cs2, order, locked, p);
    }
  }

  /** In the extracted temporary directory, a .txt entry whose name no other
      .txt entry has is the only .txt file of that name. */
  lemma ExtractedNameUnique(fs1: Fs, fs2: Fs, zip: Path, tempDir: Path, locked: set<Path>, k: Path)
    requires Extract(fs1, zip, tempDir, locked) == Ok(fs2)
    requires forall p :: p in fs1.files ==> !IsUnder(p, tempDir)
    requires var entries := fs1.files[zip].entries;
      forall e :: e in entries && IsTxtName(Name(e)) && Name(e) == Name(k) ==> e == k
    ensures forall p :: p in fs2.files && IsUnder(p, tempDir) && HasTxtName(p) && Name(p) == Name(k) ==> p == tempDir + k
  {
    forall p | p in fs2.files && IsUnder(p, tempDir) && HasTxtName(p) && Name(p) == Name(k)
      ensures p == tempDir + k
    {
      var e := Rel(tempDir, p);
      NameBelow(tempDir, e);
    }
  }

  /** The try block of InstallFromZip delivers a .txt entry whose name no
      other .txt entry of the archive has, or reports it as failed. */
  lemma ZipBodyInstallsTxt(fs1: Fs, zip: Path, installCfg: bool, cs2: Option<Path>, video: Path,
                           tempDir: Path, order: seq<Path>, locked: set<Path>, k: Path)
    requires Extract(fs1, zip, tempDir, locked).Ok?
    requires forall p :: p in fs1.files ==> !IsUnder(p, tempDir)
    requires Apart(tempDir, Stem(video)) && (installCfg && cs2.Some? ==> Apart(tempDir, Stem(cs2.value)))
    requires k in fs1.files[zip].entries && IsTxtName(Name(k))
    requires var entries := fs1.files[zip].entries;
      forall e :: e in entries && IsTxtName(Name(e)) && Name(e) == Name(k) ==> e == k
    requires Distinct(order) && forall e :: e in fs1.files[zip].entries ==> tempDir + e in order
    ensures var b := ZipBody(fs1, zip, installCfg, true, cs2, Some(video), tempDir, order, locked);
      && b.result.Ok?
      && (|| [Name(k)] in b.result.value.video.value.failed
          || (Combine(video, [Name(k)]) in b.fs.files && b.fs.files[Combine(video, [Name(k)])] == fs1.files[zip].entries[k]))
  {
    var fs2 := Extract(fs1, zip, tempDir, locked).value;
    var fs3 := if installCfg && cs2.Some? then CopyCfgFiles(fs2, tempDir, cs2.value, order, locked).value.fs else fs2;
    TxtStageReady(fs1, fs2, fs3, zip, installCfg, cs2, tempDir, order, locked, k);
    CopyTxtEntry(fs3, tempDir, video, order, locked, k);
    ZipBodyTxtStage(fs1, fs2, fs3, zip, installCfg, cs2, video, tempDir, order, locked);
  }

  /** With video installation on, the try block ends with CopyTxtFiles run on
      what the extraction and the .cfg stage left. */
  lemma ZipBodyTxtStage(fs1: Fs, fs2: Fs, fs3: Fs, zip: Path, installCfg: bool, cs2: Option<Path>, video: Path,
                        tempDir: Path, order: seq<Path>, locked: set<Path>)
    requires Extract(fs1, zip, tempDir, locked) == Ok(fs2)
    requires fs3 == if installCfg && cs2.Some? then CopyCfgFiles(fs2, tempDir, cs2.value, order, locked).value.fs else fs2
    requires tempDir in fs3.dirs
    ensures var b := ZipBody(fs1, zip, installCfg, true, cs2, Some(video), tempDir, order, locked);
      var txt := CopyTxtFiles(fs3, tempDir, video, order, locked).value;
      b.fs == txt.fs && b.result.Ok? && b.result.value.video == Some(txt.report)
  {
  }

  /** What the .txt stage of the try block finds: the temporary directory
      still holds the extracted entries, completely enumerated, with the entry
      the only .txt file of its name. */
  lemma TxtStageReady(fs1: Fs, fs2: Fs, fs3: Fs, zip: Path, installCfg: bool, cs2: Option<Path>,
                      tempDir: Path, order: seq<Path>, locked: set<Path>, k: Path)
    requires Extract(fs1, zip, tempDir, locked) == Ok(fs2)
    requires fs3 == if installCfg && cs2.Some? then CopyCfgFiles(fs2, tempDir, cs2.value, order, locked).value.fs else fs2
    requires forall p :: p in fs1.files ==> !IsUnder(p, tempDir)
    requires installCfg && cs2.Some? ==> Apart(tempDir, Stem(cs2.value))
    requires k in fs1.files[zip].entries
    requires var entries := fs1.files[zip].entries;
      forall e :: e in entries && IsTxtName(Name(e)) && Name(e) == Name(k) ==> e == k
    requires Distinct(order) && forall e :: e in fs1.files[zip].entries ==> tempDir + e in order
    ensures tempDir in fs3.dirs && Covers(order, fs3, tempDir) && |k| >= 1
    ensures tempDir + k in fs3.files && fs3.files[tempDir + k] == fs1.files[zip].entries[k]
    ensures forall p :: p in fs3.files && IsUnder(p, tempDir) && HasTxtName(p) && Name(p) == Name(k) ==> p == tempDir + k
  {
    ExtractCovers(fs1, zip, tempDir, locked, order);
    ExtractedNameUnique(fs1, fs2, zip, tempDir, locked, k);
    if installCfg && cs2.Some? {
      CfgStageKeepsTemp(fs2, tempDir, cs2.value, order, locked);
    }
    assert IsUnder(tempDir + k, tempDir);
  }

  /** The package's .txt files reach the video directory: after a successful
      installation from a fresh temporary directory, a .txt entry of the
      archive whose name no other .txt entry has is either reported as failed
      or present directly in the video directory with its contents. */
  lemma ZipInstallsTxt(fs: Fs, zip: Path, installCfg: bool, cs2: Option<Path>, video: Path,
                       tempDir: Path, order: seq<Path>, locked: set<Path>, k: Path)
    requires Valid(fs) && Fresh(fs, tempDir)
    requires Apart(tempDir, Stem(video)) && (installCfg && cs2.Some? ==> Apart(tempDir, Stem(cs2.value)))
    requires zip in fs.files && fs.files[zip].Archive? && k in fs.files[zip].entries && IsTxtName(Name(k))
    requires var entries := fs.files[zip].entries;
      forall e :: e in entries && IsTxtName(Name(e)) && Name(e) == Name(k) ==> e == k
    requires Distinct(order) && forall e :: e in fs.files[zip].entries ==> tempDir + e in order
    requires InstallFromZip(fs, zip, installCfg, true, cs2, Some(video), tempDir, order, locked).result.Ok?
    ensures var r := InstallFromZip(fs, zip, installCfg, true, cs2, Some(video), tempDir, order, locked);
      || [Name(k)] in r.result.value.video.value.failed
      || (Combine(video, [Name(k)]) in r.fs.files && r.fs.files[Combine(video, [Name(k)])] == fs.files[zip].entries[k])
  {
    TempRoundTrip(fs, tempDir);
    var fs1 := MakeDirs(fs, tempDir).value;
    assert fs1.files == fs.files;
    ZipBodyInstallsTxt(fs1, zip, installCfg, cs2, video, tempDir, order, locked, k);
    ApartKeepsOut(tempDir, Stem(video), [Name(k)]);
  }
}

=== FILE: session.dfy ===
/** The state the installer service keeps between calls — the detected paths
    and the selected Steam user — and the notifications each call raises:
    property-change notifications, detection events and log lines. */
module Session {
  import opened Base
  import opened FileSystem
  import opened Steam
  import opened Backup

  datatype State = State(
    steamPath: Option<Path>,
    steamUserId: Option<string>,
    cs2CfgPath: Option<Path>,
    videoCfgPath: Option<Path>)

  /** The properties whose changes are announced through PropertyChanged. */
  datatype Property = Cs2CfgPathProperty | CfgBackupPathProperty | VideoCfgPathProperty | VideoBackupPathProperty

  /** The prefix of a log line: "[OK]" or "[!]". */
  datatype Level = Success | Warning

  /** What a log line is about; its exact text is not modelled. */
  datatype Topic = SteamPathTopic | GlobalCfgTopic | VideoCfgTopic

  datatype Event =
    | PropertyChanged(property: Property)
    | SteamPathDetected(path: Path)
    | Cs2CfgPathDetected(path: Path)
    | SteamUserIdDetected(id: string)
    | VideoCfgPathDetected(video: Option<Path>)
    | Log(level: Level, topic: Topic)

  /** The state after a call, the notifications it raised in order, and its return value. */
  datatype Run<T> = Run(state: State, events: seq<Event>, value: T)

  /** The Cs2CfgPath setter: only a different value is stored and announced,
      together with the derived CfgBackupPath. */
  function SetCs2CfgPath(st: State, v: Option<Path>): (r: Run<()>)
    ensures r.state == st.(cs2CfgPath := v)
    ensures r.events == [] <==> st.cs2CfgPath == v
    ensures r.events != [] ==> r.events == [PropertyChanged(Cs2CfgPathProperty), PropertyChanged(CfgBackupPathProperty)]
  {
    if st.cs2CfgPath != v then
      Run(st.(cs2CfgPath := v), [PropertyChanged(Cs2CfgPathProperty), PropertyChanged(CfgBackupPathProperty)], ())
    else Run(st, [], ())
  }

  /** The VideoCfgPath setter, announcing the derived VideoBackupPath too. */
  function SetVideoCfgPath(st: State, v: Option<Path>): (r: Run<()>)
    ensures r.state == st.(videoCfgPath := v)
    ensures r.events == [] <==> st.videoCfgPath == v
    ensures r.events != [] ==> r.events == [PropertyChanged(VideoCfgPathProperty), PropertyChanged(VideoBackupPathProperty)]
  {
    if st.videoCfgPath != v then
      Run(st.(videoCfgPath := v), [PropertyChanged(VideoCfgPathProperty), PropertyChanged(VideoBackupPathProperty)], ())
    else Run(st, [], ())
  }

  /** Setting a path twice announces it at most once: the second assignment
      finds the value already there. */
  lemma SettersSuppressRepeats(st: State, cfg: Option<Path>, video: Option<Path>)
    ensures var once := SetCs2CfgPath(st, cfg).state;
      SetCs2CfgPath(once, cfg) == Run(once, [], ())
    ensures var once := SetVideoCfgPath(st, video).state;
      SetVideoCfgPath(once, video) == Run(once, [], ())
  {
  }

  /** The derived CfgBackupPath / VideoBackupPath: null while the directory is
      null; a directory without a parent (a drive root, with or without its
      separator) makes Directory.GetParent return null, and the getter throws. */
  function DerivedBackupPath(dir: Option<Path>, k: Kind): (r: Result<Option<Path>, Fault>)
    ensures dir.None? ==> r == Ok(None)
    ensures r.Err? <==> dir.Some? && |Stem(dir.value)| < 2
    ensures r.Ok? && r.value.Some? ==> dir.Some? && BackupPath(dir.value, k) == r.value
  {
    match dir
    case None => Ok(None)
    case Some(d) =>
      match BackupPath(d, k)
      case None => Err(NullParent(d))
      case Some(bp) => Ok(Some(bp))
  }

  function CfgBackupPath(st: State): Result<Option<Path>, Fault> {
    DerivedBackupPath(st.cs2CfgPath, GlobalCfg)
  }

  function VideoBackupPath(st: State): Result<Option<Path>, Fault> {
    DerivedBackupPath(st.videoCfgPath, UserCfg)
  }

  /** The backup path the window displays is where the backup is written. */
  lemma DisplayedBackupIsWritten(st: State, fs: Fs, locked: set<Path>)
    requires st.cs2CfgPath.Some? && CfgBackupPath(st).Ok?
    ensures var run := CreateBackup(fs, st.cs2CfgPath.value, GlobalCfg, locked);
      run.result.Ok? ==> CfgBackupPath(st) == Ok(Some(run.result.value))
    ensures st.videoCfgPath.Some? && VideoBackupPath(st).Ok? ==>
      var run := CreateBackup(fs, st.videoCfgPath.value, UserCfg, locked);
      run.result.Ok? ==> VideoBackupPath(st) == Ok(Some(run.result.value))
  {
  }

  /** DetectSteamPath: the first registry value naming a Steam installation is
      stored and announced; when none does, a warning is logged and the stored
      path is left as it was. */
  function DetectSteamPath(st: State, fs: Fs, registry: map<Probe, string>): (r: Run<Option<Path>>)
    ensures r.value == FindSteamRoot(fs, registry)
    ensures r.value.Some? ==>
      && r.state == st.(steamPath := r.value)
      && r.events == [SteamPathDetected(r.value.value), Log(Success, SteamPathTopic)]
    ensures r.value.None? ==> r.state == st && r.events == [Log(Warning, SteamPathTopic)]
  {
    match FindSteamRoot(fs, registry)
    case Some(p) => Run(st.(steamPath := Some(p)), [SteamPathDetected(p), Log(Success, SteamPathTopic)], Some(p))
    case None => Run(st, [Log(Warning, SteamPathTopic)], None)
  }

  /** A detected Steam root is a directory holding steam.exe. */
  lemma DetectedSteamRootHasExe(st: State, fs: Fs, registry: map<Probe, string>)
    ensures var r := DetectSteamPath(st, fs, registry);
      r.value.Some? ==> r.value.value in fs.dirs && Combine(r.value.value, [SteamExe]) in fs.files && r.state.steamPath == r.value
  {
  }

  /** DetectCS2CfgPath: silent when the root or the manifest is missing;
      otherwise the first library holding the cfg directory is stored through
      the setter and announced, or a warning is logged. A failed search does not
      clear a previously stored path. */
  function DetectCs2CfgPath(st: State, fs: Fs, steamRoot: Path): (r: Run<Option<Path>>)
    ensures r.value == FindGlobalCfg(fs, steamRoot)
    ensures r.value.Some? ==> r.state == st.(cs2CfgPath := r.value)
    ensures r.value.None? ==> r.state == st
    ensures r.events == [] <==> steamRoot !in fs.dirs || Combine(steamRoot, LibraryManifest) !in fs.files
    ensures r.value.None? && r.events != [] ==> r.events == [Log(Warning, GlobalCfgTopic)]
    ensures r.value.Some? ==>
      var announced := if st.cs2CfgPath == r.value then [] else [PropertyChanged(Cs2CfgPathProperty), PropertyChanged(CfgBackupPathProperty)];
      r.events == announced + [Cs2CfgPathDetected(r.value.value), Log(Success, GlobalCfgTopic)]
  {
    if steamRoot !in fs.dirs || Combine(steamRoot, LibraryManifest) !in fs.files then Run(st, [], None)
    else match FindGlobalCfg(fs, steamRoot)
      case Some(c) =>
        var setter := SetCs2CfgPath(st, Some(c));
        Run(setter.state, setter.events + [Cs2CfgPathDetected(c), Log(Success, GlobalCfgTopic)], Some(c))
      case None => Run(st, [Log(Warning, GlobalCfgTopic)], None)
  }

  /** Detecting again finds the same directory and, the setter seeing no
      change, raises no property-change notification. */
  lemma DetectCs2CfgTwice(st: State, fs: Fs, steamRoot: Path)
    ensures var once := DetectCs2CfgPath(st, fs, steamRoot);
      var twice := DetectCs2CfgPath(once.state, fs, steamRoot);
      && twice.state == once.state && twice.value == once.value
      && forall i :: 0 <= i < |twice.events| ==> !twice.events[i].PropertyChanged?
  {
  }

  /** DetectVideoCfgPath: the user's cfg directory if it exists, logging the
      outcome unless `silent`. */
  function DetectVideoCfgPath(fs: Fs, steamRoot: Path, userId: string, silent: bool): (r: (seq<Event>, Option<Path>))
    ensures r.1 == FindUserCfg(fs, steamRoot, userId)
    ensures silent <==> r.0 == []
    ensures !silent ==> r.0 == [Log(if r.1.Some? then Success else Warning, VideoCfgTopic)]
  {
    var found := FindUserCfg(fs, steamRoot, userId);
    if silent then ([], found)
    else ([Log(if found.Some? then Success else Warning, VideoCfgTopic)], found)
  }

  /** SetSteamUserId: the id is stored and announced unconditionally; with a
      known Steam root the user's cfg directory is looked up silently, and only
      a changed result is stored, announced and logged. */
  function SetSteamUserId(st: State, fs: Fs, userId: string): (r: Run<()>)
    ensures r.state.steamUserId == Some(userId)
    ensures r.state.steamPath == st.steamPath && r.state.cs2CfgPath == st.cs2CfgPath
    ensures st.steamPath.None? ==> r.state.videoCfgPath == st.videoCfgPath
    ensures st.steamPath.Some? ==> r.state.videoCfgPath == FindUserCfg(fs, st.steamPath.value, userId)
    ensures |r.events| >= 1 && r.events[0] == SteamUserIdDetected(userId)
    ensures |r.events| == 1 <==> r.state.videoCfgPath == st.videoCfgPath
    ensures st.steamPath.Some? && r.state.videoCfgPath != st.videoCfgPath ==>
      r.events == [SteamUserIdDetected(userId), PropertyChanged(VideoCfgPathProperty), PropertyChanged(VideoBackupPathProperty),
                   VideoCfgPathDetected(r.state.videoCfgPath)]
                  + (if r.state.videoCfgPath.Some? then [Log(Success, VideoCfgTopic)] else [])
  {
    var st1 := st.(steamUserId := Some(userId));
    var head := [SteamUserIdDetected(userId)];
    match st.steamPath
    case None => Run(st1, head, ())
    case Some(root) =>
      var video := DetectVideoCfgPath(fs, root, userId, true).1;
      if video != st.videoCfgPath then
        var setter := SetVideoCfgPath(st1, video);
        var log := if video.Some? then [Log(Success, VideoCfgTopic)] else [];
        Run(setter.state, head + setter.events + [VideoCfgPathDetected(video)] + log, ())
      else Run(st1, head, ())
  }

  /** Selecting the same user twice: the second call changes nothing and
      raises only the user-id event, which the service raises on every call. */
  lemma SelectUserTwice(st: State, fs: Fs, userId: string)
    ensures var once := SetSteamUserId(st, fs, userId).state;
      SetSteamUserId(once, fs, userId) == Run(once, [SteamUserIdDetected(userId)], ())
  {
  }
}

=== FILE: steam.dfy ===
/** Locating the game's directories: the Steam root from the registry, the
    library folders listed in steamapps/libraryfolders.vdf, the global cfg
    directory inside one of those libraries, the Steam user ids under
    userdata, and one user's local cfg directory. */
module Steam {
  import opened Base
  import opened Text
  import opened FileSystem

  datatype Hive = CurrentUser | LocalMachine

  /** A registry value: hive, sub-key and value name. */
  datatype Probe = Probe(hive: Hive, subKey: string, valueName: string)

  /** The registry values DetectSteamPath consults, in the order it consults them. */
  const SteamProbes: seq<Probe> := [
    Probe(CurrentUser, "Software\\Valve\\Steam", "SteamPath"),
    Probe(CurrentUser, "Software\\Valve\\Steam", "InstallPath"),
    Probe(LocalMachine, "SOFTWARE\\Valve\\Steam", "InstallPath"),
    Probe(LocalMachine, "SOFTWARE\\Wow6432Node\\Valve\\Steam", "InstallPath")
  ]

  const SteamExe := "steam.exe"
  const GameId := "730"
  const LibraryManifest: Path := ["steamapps", "libraryfolders.vdf"]
  const GameCfgSubpath: Path :=
    ["steamapps", "common", "Counter-Strike Global Offensive", "game", "csgo", "cfg"]

  /** The registry values that could be read, probe by probe; a missing key, a
      missing value and a read that throws all read as None. */
  function ProbeValues(registry: map<Probe, string>): (r: seq<Option<string>>)
    ensures |r| == |SteamProbes|
    ensures forall i :: 0 <= i < |r| ==> (r[i].Some? <==> SteamProbes[i] in registry)
    ensures forall i :: 0 <= i < |r| && r[i].Some? ==> r[i].value == registry[SteamProbes[i]]
  {
    seq(|SteamProbes|, i requires 0 <= i < |SteamProbes| =>
      if SteamProbes[i] in registry then Some(registry[SteamProbes[i]]) else None)
  }

  /** path.Replace('/', '\\').TrimEnd('\\'). */
  function NormalizeRoot(s: string): (r: string)
    ensures |r| <= |s|
    ensures forall i :: 0 <= i < |r| ==> r[i] == (if s[i] == '/' then '\\' else s[i])
    ensures forall i :: |r| <= i < |s| ==> s[i] == '/' || s[i] == '\\'
    ensures '/' !in r
    ensures r == [] || r[|r| - 1] != '\\'
    ensures ParsePath(r) <= ParsePath(s) || r == []
  {
    var t := ReplaceChar(s, '/', '\\');
    var r := TrimEnd(t, '\\');
    SplitIgnoresSeparatorChoice(s, '/', '\\', {'\\', '/'});
    TrimmedSplitIsPrefix(t, r);
    r
  }

  /** Cutting separators off the end of a string cuts segments off the end of its path. */
  lemma {:induction false} TrimmedSplitIsPrefix(t: string, r: string)
    requires r <= t
    requires forall i :: |r| <= i < |t| ==> t[i] == '\\'
    ensures ParsePath(r) <= ParsePath(t) || r == []
    decreases |t| - |r|
  {
    if |r| < |t| && r != [] {
      var t' := t[..|t| - 1];
      assert r <= t';
      TrimmedSplitIsPrefix(t', r);
      SplitDropLastSeparator(t');
      assert t == t' + "\\";
      assert ParsePath(r) <= ParsePath(t');
      assert ParsePath(t') <= ParsePath(t);
      assert ParsePath(r) <= ParsePath(t);
    } else if r != [] {
      assert r == t;
    }
  }

  /** One more trailing separator adds one empty segment. */
  lemma {:induction false} SplitDropLastSeparator(s: string)
    ensures ParsePath(s + "\\") == ParsePath(s) + [""]
    decreases |s|
  {
    if |s| == 0 {
      assert ParsePath("\\") == [""] + ParsePath("");
    } else {
      SplitDropLastSeparator(s[1..]);
      assert (s + "\\")[1..] == s[1..] + "\\";
    }
  }

  /** Directory.Exists(path) && File.Exists(Path.Combine(path, "steam.exe")) for a
      registry value after normalisation. */
  predicate IsSteamRoot(fs: Fs, candidate: Option<string>) {
    && candidate.Some?
    && var root := NormalizeRoot(candidate.value);
    && root != ""
    && ParsePath(root) in fs.dirs
    && Combine(ParsePath(root), [SteamExe]) in fs.files
  }

  /** The search of DetectSteamPath: the first registry value, in probe order,
      that names a Steam installation, normalised. */
  function FindSteamRoot(fs: Fs, registry: map<Probe, string>): (r: Option<Path>)
    ensures var vs := ProbeValues(registry);
      r.None? <==> forall i :: 0 <= i < |vs| ==> !IsSteamRoot(fs, vs[i])
    ensures var vs := ProbeValues(registry);
      r.Some? ==> exists i :: 0 <= i < |vs| && IsSteamRoot(fs, vs[i])
                       && (forall j :: 0 <= j < i ==> !IsSteamRoot(fs, vs[j]))
                       && r.value == ParsePath(NormalizeRoot(vs[i].value))
    ensures r.Some? ==> r.value in fs.dirs && Combine(r.value, [SteamExe]) in fs.files
  {
    var vs := ProbeValues(registry);
    match FirstWhere(vs, (c: Option<string>) => IsSteamRoot(fs, c))
      case None => None
      case Some(i) => Some(ParsePath(NormalizeRoot(vs[i].value)))
  }

  // ---------------------------------------------------------------------
  // The library manifest

  const PathKey := "\"path\""

  /** The number of leading characters of `s` satisfying `p`. */
  function LeadingRun(s: string, p: char -> bool): (n: nat)
    ensures n <= |s|
    ensures forall i :: 0 <= i < n ==> p(s[i])
    ensures n < |s| ==> !p(s[n])
    decreases |s|
  {
    if |s| > 0 && p(s[0]) then 1 + LeadingRun(s[1..], p) else 0
  }

  predicate IsNotQuote(c: char) {
    c != '"'
  }

  /** Text the pattern "path"\s*"([^"]+)" matches as a whole: the key, a run
      of white space, and a quoted value. */
  function PathEntry(space: string, value: string): string {
    PathKey + space + "\"" + value + "\""
  }

  /** The regular expression "path"\s*"([^"]+)" tried at the start of `s`: the
      captured value and the length of the whole match. A match is a prefix of
      `s` of the form PathEntry(w, v) with w all white space and v a non-empty
      run of characters other than '"'; MatchEntryExact is the converse. */
  function MatchPathEntry(s: string): (r: Option<(string, nat)>)
    ensures r.Some? ==>
      var v, n := r.value.0, r.value.1;
      && v != "" && NoneOf(v, {'"'})
      && |PathKey| + |v| + 2 <= n <= |s|
      && IsBlank(s[|PathKey|..n - |v| - 2])
      && s[..n] == PathEntry(s[|PathKey|..n - |v| - 2], v)
  {
    if !(PathKey <= s) then None
    else
      var open := |PathKey| + LeadingRun(s[|PathKey|..], IsWhiteSpace);
      if open < |s| && s[open] == '"' then
        var len := LeadingRun(s[open + 1..], IsNotQuote);
        var close := open + 1 + len;
        if len > 0 && close < |s| then
          var value := s[open + 1..close];
          var end: nat := close + 1;
          MatchShape(s, open, close);
          Some((value, end))
        else None
      else None
  }

  /** The pieces of a successful match put back together. */
  lemma MatchShape(s: string, open: nat, close: nat)
    requires PathKey <= s && |PathKey| <= open < close < |s|
    requires open == |PathKey| + LeadingRun(s[|PathKey|..], IsWhiteSpace) && s[open] == '"'
    requires close == open + 1 + LeadingRun(s[open + 1..], IsNotQuote) && s[close] == '"'
    ensures NoneOf(s[open + 1..close], {'"'})
    ensures IsBlank(s[|PathKey|..open])
    ensures s[..close + 1] == PathEntry(s[|PathKey|..open], s[open + 1..close])
  {
    var rest := s[open + 1..];
    var value := s[open + 1..close];
    forall i | 0 <= i < |value|
      ensures value[i] != '"'
    {
      assert value[i] == rest[i] && IsNotQuote(rest[i]);
    }
    var t := s[|PathKey|..];
    var w := s[|PathKey|..open];
    forall i | 0 <= i < |w|
      ensures IsWhiteSpace(w[i])
    {
      assert w[i] == t[i];
    }
    assert s[..|PathKey|] == PathKey;
    assert s[..close + 1] == s[..|PathKey|] + w + [s[open]] + value + [s[close]];
  }

  /** A run of characters satisfying `p` ends where one that does not begins. */
  lemma {:induction false} LeadingRunStops(a: string, b: string, p: char -> bool)
    requires (forall i :: 0 <= i < |a| ==> p(a[i])) && |b| > 0 && !p(b[0])
    ensures LeadingRun(a + b, p) == |a|
    decreases |a|
  {
    if |a| > 0 {
      assert (a + b)[1..] == a[1..] + b;
      LeadingRunStops(a[1..], b, p);
    } else {
      assert a + b == b;
    }
  }

  /** The pattern matches every entry of the form it describes and captures
      exactly its value. */
  lemma MatchEntryExact(space: string, value: string, rest: string)
    requires IsBlank(space) && value != "" && NoneOf(value, {'"'})
    ensures MatchPathEntry(PathEntry(space, value) + rest) == Some((value, |PathEntry(space, value)|))
  {
    var s := PathEntry(space, value) + rest;
    var open := |PathKey| + |space|;
    var close := open + 1 + |value|;
    EntryPieces(space, value, rest);
    LeadingRunStops(space, "\"" + value + "\"" + rest, IsWhiteSpace);
    LeadingRunStops(value, "\"" + rest, IsNotQuote);
    assert LeadingRun(s[|PathKey|..], IsWhiteSpace) == |space|;
    assert LeadingRun(s[open + 1..], IsNotQuote) == |value|;
  }

  /** Where the pieces of an entry sit in the text. */
  lemma EntryPieces(space: string, value: string, rest: string)
    ensures var s := PathEntry(space, value) + rest;
      var open := |PathKey| + |space|;
      var close := open + 1 + |value|;
      && close < |s| && PathKey <= s
      && s[|PathKey|..] == space + ("\"" + value + "\"" + rest)
      && s[open] == '"' && s[close] == '"'
      && s[open + 1..] == value + ("\"" + rest)
      && s[open + 1..close] == value
  {
    var s := PathEntry(space, value) + rest;
    assert s == PathKey + (space + ("\"" + value + "\"" + rest));
  }

  /** Regex.Matches over the whole text: matches are found left to right and do
      not overlap; the captured values, in file order. */
  function ScanLibraryPaths(text: string): (r: seq<string>)
    ensures forall i :: 0 <= i < |r| ==> r[i] != "" && NoneOf(r[i], {'"'})
    decreases |text|
  {
    if |text| == 0 then []
    else match MatchPathEntry(text)
      case Some((v, n)) => [v] + ScanLibraryPaths(text[n..])
      case None => ScanLibraryPaths(text[1..])
  }

  /** One "path" entry of libraryfolders.vdf: the white space between key and
      value, and the value as written (backslashes doubled). */
  datatype LibraryEntry = LibraryEntry(space: string, value: string)

  predicate WellFormedEntry(e: LibraryEntry) {
    IsBlank(e.space) && e.value != "" && NoneOf(e.value, {'"'})
  }

  /** Text in which no match can start, even when a "path" entry follows it:
      the rest of a manifest, such as "label", "contentid" and "apps" entries
      and the braces around them. */
  predicate Filler(f: string) {
    forall i :: 0 <= i < |f| ==> !(PathKey <= (f + PathKey)[i..])
  }

  /** Every quote in `f` is followed, inside `f`, by a character other than
      'p': true of the quoted keys "libraryfolders", "label", "contentid",
      "apps" and of the braces and quoted numbers between them. */
  predicate QuotesNotBeforeP(f: string) {
    forall i :: 0 <= i < |f| && f[i] == '"' ==> i + 1 < |f| && f[i + 1] != 'p'
  }

  /** Such text is filler. */
  lemma QuotesNotBeforePIsFiller(f: string)
    requires QuotesNotBeforeP(f)
    ensures Filler(f)
  {
    forall i | 0 <= i < |f|
      ensures !(PathKey <= (f + PathKey)[i..])
    {
      var t := (f + PathKey)[i..];
      if f[i] == '"' {
        assert t[1] == f[i + 1] != PathKey[1];
      } else {
        assert t[0] == f[i] != PathKey[0];
      }
    }
  }

  /** A manifest: fillers and "path" entries alternating, starting and ending
      with a filler. */
  function ManifestOf(fillers: seq<string>, entries: seq<LibraryEntry>): string
    requires |fillers| == |entries| + 1
    decreases |entries|
  {
    if |entries| == 0 then fillers[0]
    else fillers[0] + PathEntry(entries[0].space, entries[0].value) + ManifestOf(fillers[1..], entries[1..])
  }

  /** The scan passes over a filler without a match. */
  lemma {:induction false} FillerSkipped(f: string, rest: string)
    requires Filler(f) && (rest == "" || PathKey <= rest)
    ensures ScanLibraryPaths(f + rest) == ScanLibraryPaths(rest)
    decreases |f|
  {
    if |f| > 0 {
      var text := f + rest;
      NoKeyAtFiller(f, rest);
      assert text[1..] == f[1..] + rest;
      forall i | 0 <= i < |f| - 1
        ensures !(PathKey <= (f[1..] + PathKey)[i..])
      {
        assert (f[1..] + PathKey)[i..] == (f + PathKey)[i + 1..];
      }
      FillerSkipped(f[1..], rest);
    } else {
      assert f + rest == rest;
    }
  }

  /** No match starts at the beginning of a filler. */
  lemma NoKeyAtFiller(f: string, rest: string)
    requires Filler(f) && |f| > 0 && (rest == "" || PathKey <= rest)
    ensures !(PathKey <= f + rest)
  {
    assert !(PathKey <= (f + PathKey)[0..]);
    assert (f + PathKey)[0..] == f + PathKey;
    if |f| < |PathKey| && rest != "" {
      assert (f + rest)[..|PathKey|] == (f + PathKey)[..|PathKey|];
    } else if |f| >= |PathKey| {
      assert (f + rest)[..|PathKey|] == f[..|PathKey|] == (f + PathKey)[..|PathKey|];
    }
  }

  /** An entry contributes its value, and scanning resumes after it. */
  lemma ScanEntry(e: LibraryEntry, rest: string)
    requires WellFormedEntry(e)
    ensures ScanLibraryPaths(PathEntry(e.space, e.value) + rest) == [e.value] + ScanLibraryPaths(rest)
  {
    var s := PathEntry(e.space, e.value) + rest;
    MatchEntryExact(e.space, e.value, rest);
    assert s[|PathEntry(e.space, e.value)|..] == rest;
  }

  /** Scanning a manifest yields exactly the values of its "path" entries, in
      file order, whatever text lies between them. */
  lemma {:induction false} ScanManifest(fillers: seq<string>, entries: seq<LibraryEntry>)
    requires |fillers| == |entries| + 1
    requires forall i :: 0 <= i < |fillers| ==> Filler(fillers[i])
    requires forall i :: 0 <= i < |entries| ==> WellFormedEntry(entries[i])
    ensures var r := ScanLibraryPaths(ManifestOf(fillers, entries));
      |r| == |entries| && forall i :: 0 <= i < |r| ==> r[i] == entries[i].value
    decreases |entries|
  {
    if |entries| == 0 {
      FillerSkipped(fillers[0], "");
      assert fillers[0] + "" == fillers[0];
    } else {
      ScanManifestStep(fillers, entries);
      ScanManifest(fillers[1..], entries[1..]);
      ValuesCons(ScanLibraryPaths(ManifestOf(fillers[1..], entries[1..])), entries);
    }
  }

  /** Values read for all entries but the first, preceded by the first's value,
      are the values of all entries. */
  lemma ValuesCons(rest: seq<string>, entries: seq<LibraryEntry>)
    requires |entries| > 0 && |rest| == |entries| - 1
    requires forall i :: 0 <= i < |rest| ==> rest[i] == entries[1..][i].value
    ensures var r := [entries[0].value] + rest;
      |r| == |entries| && forall i :: 0 <= i < |r| ==> r[i] == entries[i].value
  {
  }

  /** The scan reads a manifest's first entry and goes on with the rest. */
  lemma ScanManifestStep(fillers: seq<string>, entries: seq<LibraryEntry>)
    requires |fillers| == |entries| + 1 && |entries| > 0
    requires Filler(fillers[0]) && WellFormedEntry(entries[0])
    ensures ScanLibraryPaths(ManifestOf(fillers, entries))
      == [entries[0].value] + ScanLibraryPaths(ManifestOf(fillers[1..], entries[1..]))
  {
    var e := entries[0];
    var tail := ManifestOf(fillers[1..], entries[1..]);
    var line := PathEntry(e.space, e.value) + tail;
    assert ManifestOf(fillers, entries) == fillers[0] + line;
    assert PathKey <= line;
    FillerSkipped(fillers[0], line);
    ScanEntry(e, tail);
  }

  // ---------------------------------------------------------------------
  // The global cfg directory

  /** What File.ReadAllText yields for the model's contents; an archive holds no text entries. */
  function TextOf(c: Content): string {
    match c
    case Plain(t) => t
    case Archive(_) => ""
  }

  /** The cfg directory a library would hold: the captured value with doubled
      backslashes collapsed, then the game's cfg subpath. */
  function LibraryCfgDir(library: string): Path {
    Combine(ParsePath(CollapseBackslashes(library)), GameCfgSubpath)
  }

  /** The candidate global cfg directories, in manifest order; none when the
      root or the manifest is missing. */
  function GlobalCfgCandidates(fs: Fs, root: Path): (r: seq<Path>)
    ensures root !in fs.dirs || Combine(root, LibraryManifest) !in fs.files ==> r == []
  {
    var vdf := Combine(root, LibraryManifest);
    if root !in fs.dirs || vdf !in fs.files then []
    else
      var libs := ScanLibraryPaths(TextOf(fs.files[vdf]));
      seq(|libs|, i requires 0 <= i < |libs| => LibraryCfgDir(libs[i]))
  }

  /** For a manifest whose "path" entries hold the library directories with
      their backslashes doubled, as Steam writes them, the candidates are those
      libraries' cfg directories, in manifest order. */
  lemma CandidatesFromManifest(fs: Fs, root: Path, fillers: seq<string>, entries: seq<LibraryEntry>,
                               libraries: seq<string>)
    requires root in fs.dirs && Combine(root, LibraryManifest) in fs.files
    requires |fillers| == |entries| + 1 && |libraries| == |entries|
    requires TextOf(fs.files[Combine(root, LibraryManifest)]) == ManifestOf(fillers, entries)
    requires forall i :: 0 <= i < |fillers| ==> Filler(fillers[i])
    requires forall i :: 0 <= i < |entries| ==>
      WellFormedEntry(entries[i]) && entries[i].value == DoubleBackslashes(libraries[i])
    ensures var cs := GlobalCfgCandidates(fs, root);
      |cs| == |libraries| && forall i :: 0 <= i < |cs| ==> cs[i] == Combine(ParsePath(libraries[i]), GameCfgSubpath)
  {
    ScanManifest(fillers, entries);
    forall i | 0 <= i < |libraries|
      ensures CollapseBackslashes(DoubleBackslashes(libraries[i])) == libraries[i]
    {
      CollapseUndoesDouble(libraries[i]);
    }
  }

  /** DetectCS2CfgPath / FindCS2CfgPath: the first candidate that exists as a
      directory; later libraries are never consulted. */
  function FindGlobalCfg(fs: Fs, root: Path): (r: Option<Path>)
    ensures var cs := GlobalCfgCandidates(fs, root);
      r.Some? <==> exists i :: 0 <= i < |cs| && cs[i] in fs.dirs
    ensures var cs := GlobalCfgCandidates(fs, root);
      r.Some? ==> exists i :: 0 <= i < |cs| && r.value == cs[i] && cs[i] in fs.dirs
                       && forall j :: 0 <= j < i ==> cs[j] !in fs.dirs
    ensures r.Some? ==> root in fs.dirs && Combine(root, LibraryManifest) in fs.files
  {
    FirstDir(fs.dirs, GlobalCfgCandidates(fs, root))
  }

  /** The first of the candidates that is an existing directory. */
  function FirstDir(dirs: set<Path>, cs: seq<Path>): (r: Option<Path>)
    ensures r.Some? <==> exists i :: 0 <= i < |cs| && cs[i] in dirs
    ensures r.Some? ==>
      exists i :: 0 <= i < |cs| && r.value == cs[i] && cs[i] in dirs && forall j :: 0 <= j < i ==> cs[j] !in dirs
  {
    match FirstDirFrom(dirs, cs, 0)
    case None => None
    case Some(i) => Some(cs[i])
  }

  /** The index of the first existing directory among the candidates from index `k` on. */
  function FirstDirFrom(dirs: set<Path>, cs: seq<Path>, k: nat): (r: Option<nat>)
    requires k <= |cs|
    ensures r.Some? ==> k <= r.value < |cs| && cs[r.value] in dirs && forall j :: k <= j < r.value ==> cs[j] !in dirs
    ensures r.None? ==> forall j :: k <= j < |cs| ==> cs[j] !in dirs
    decreases |cs| - k
  {
    if k == |cs| then None
    else if cs[k] in dirs then Some(k)
    else FirstDirFrom(dirs, cs, k + 1)
  }

  // ---------------------------------------------------------------------
  // Users and their cfg directories

  function UserDataDir(root: Path): Path {
    Combine(root, ["userdata"])
  }

  /** <root>/userdata/<id>/730/local/cfg. */
  function UserCfgDir(root: Path, id: string): Path {
    Combine(root, ["userdata", id, GameId, "local", "cfg"])
  }

  /** DetectVideoCfgPath's answer: the user's cfg directory when it exists. */
  function FindUserCfg(fs: Fs, root: Path, id: string): (r: Option<Path>)
    ensures r.Some? <==> UserCfgDir(root, id) in fs.dirs
    ensures r.Some? ==> r.value == UserCfgDir(root, id)
  {
    if UserCfgDir(root, id) in fs.dirs then Some(UserCfgDir(root, id)) else None
  }

  /** `order` lists every subdirectory of `dir`, each once. */
  predicate CoversSubdirs(order: seq<Path>, fs: Fs, dir: Path) {
    && Distinct(order)
    && forall d :: d in fs.dirs && |d| == |dir| + 1 && IsUnder(d, dir) ==> d in order
  }

  /** The last segment of each of a directory's immediate subdirectories. */
  function ChildNames(home: Path, ds: seq<Path>): (r: seq<string>)
    requires forall i :: 0 <= i < |ds| ==> |ds[i]| == |home| + 1 && IsUnder(ds[i], home)
    ensures |r| == |ds|
    ensures forall i :: 0 <= i < |ds| ==> ds[i] == home + [r[i]]
  {
    var r := seq(|ds|, i requires 0 <= i < |ds| => Name(ds[i]));
    assert forall i :: 0 <= i < |ds| ==> ds[i] == home + [r[i]] by {
      forall i | 0 <= i < |ds|
        ensures ds[i] == home + [r[i]]
      {
        assert IsUnder(ds[i], home);
        assert ds[i] == ds[i][..|home|] + [ds[i][|home|]];
      }
    }
    r
  }

  /** Every immediate subdirectory that `ds` lists has its name among the names. */
  lemma ChildNamesCover(fs: Fs, home: Path, ds: seq<Path>)
    requires forall i :: 0 <= i < |ds| ==> |ds[i]| == |home| + 1 && IsUnder(ds[i], home) && ds[i] in fs.dirs
    requires forall d :: d in fs.dirs && |d| == |home| + 1 && IsUnder(d, home) ==> d in ds
    ensures forall u :: u in ChildNames(home, ds) <==> home + [u] in fs.dirs
  {
    var r := ChildNames(home, ds);
    forall u | home + [u] in fs.dirs
      ensures u in r
    {
      var d := home + [u];
      assert IsUnder(d, home) && |d| == |home| + 1;
      var i :| 0 <= i < |ds| && ds[i] == d;
      assert (home + [r[i]])[|home|] == r[i];
    }
  }

  /** Distinct subdirectories have distinct names. */
  lemma ChildNamesDistinct(home: Path, ds: seq<Path>)
    requires forall i :: 0 <= i < |ds| ==> |ds[i]| == |home| + 1 && IsUnder(ds[i], home)
    requires Distinct(ds)
    ensures Distinct(ChildNames(home, ds))
  {
    var r := ChildNames(home, ds);
    forall i, j | 0 <= i < j < |r|
      ensures r[i] != r[j]
    {
      assert ds[i] != ds[j];
    }
  }

  /** GetAvailableSteamUsers: the names of the subdirectories of <root>/userdata,
      in enumeration order; none when that directory is missing. */
  function ListUsers(fs: Fs, root: Path, order: seq<Path>): (r: seq<string>)
    ensures UserDataDir(root) !in fs.dirs ==> r == []
    ensures UserDataDir(root) in fs.dirs && CoversSubdirs(order, fs, UserDataDir(root)) ==>
      forall u :: u in r <==> UserDataDir(root) + [u] in fs.dirs
    ensures forall u :: u in r ==> UserDataDir(root) + [u] in fs.dirs
    ensures Distinct(order) ==> Distinct(r)
  {
    var home := UserDataDir(root);
    if home !in fs.dirs then []
    else
      var ds := SubdirsOf(fs, home, order);
      var r := ChildNames(home, ds);
      assert CoversSubdirs(order, fs, home) ==> forall u :: u in r <==> home + [u] in fs.dirs by {
        if CoversSubdirs(order, fs, home) {
          ChildNamesCover(fs, home, ds);
        }
      }
      assert forall u :: u in r ==> home + [u] in fs.dirs by {
        forall u | u in r
          ensures home + [u] in fs.dirs
        {
          var i :| 0 <= i < |r| && r[i] == u;
          assert ds[i] == home + [u];
        }
      }
      assert Distinct(order) ==> Distinct(r) by {
        if Distinct(order) {
          ChildNamesDistinct(home, ds);
        }
      }
      r
  }
}

=== FILE: text.dfy ===
/** The string operations the installer relies on, with the meaning the .NET
    base library gives them: whitespace tests, ordinal case-insensitive suffix
    tests, character replacement, trimming, splitting and the manifest's
    backslash escaping. */
module Text {

  /** char.IsWhiteSpace; the regular-expression class \s matches the same set. */
  predicate IsWhiteSpace(c: char) {
    || c == ' ' || c == '\t' || c == '\n' || c == '\U{000B}' || c == '\U{000C}' || c == '\r'
    || c == '\U{0085}' || c == '\U{00A0}' || c == '\U{1680}'
    || ('\U{2000}' <= c <= '\U{200A}')
    || c == '\U{2028}' || c == '\U{2029}' || c == '\U{202F}' || c == '\U{205F}' || c == '\U{3000}'
  }

  /** string.IsNullOrWhiteSpace of a non-null string. */
  predicate IsBlank(s: string) {
    forall i :: 0 <= i < |s| ==> IsWhiteSpace(s[i])
  }

  /** Ordinal case folding restricted to ASCII letters. */
  function Upper(c: char): char {
    if 'a' <= c <= 'z' then (c as int - 32) as char else c
  }

  /** s.EndsWith(suffix, StringComparison.OrdinalIgnoreCase). */
  predicate EndsWithIgnoreCase(s: string, suffix: string) {
    && |suffix| <= |s|
    && forall i :: 0 <= i < |suffix| ==> Upper(s[|s| - |suffix| + i]) == Upper(suffix[i])
  }

  /** No character of `s` belongs to `cs`. */
  predicate NoneOf(s: string, cs: set<char>) {
    forall i :: 0 <= i < |s| ==> s[i] !in cs
  }

  /** s.Replace(from, to) for single characters. */
  function ReplaceChar(s: string, from: char, to: char): (r: string)
    ensures |r| == |s|
    ensures from != to ==> from !in r
    ensures forall i :: 0 <= i < |s| && s[i] != from ==> r[i] == s[i]
    ensures forall i :: 0 <= i < |s| && s[i] == from ==> r[i] == to
    decreases |s|
  {
    if |s| == 0 then ""
    else [if s[0] == from then to else s[0]] + ReplaceChar(s[1..], from, to)
  }

  /** s.TrimEnd(c): the longest prefix of `s` that does not end in `c`. */
  function TrimEnd(s: string, c: char): (r: string)
    ensures r <= s
    ensures r == [] || r[|r| - 1] != c
    ensures forall i :: |r| <= i < |s| ==> s[i] == c
    decreases |s|
  {
    if |s| > 0 && s[|s| - 1] == c then TrimEnd(s[..|s| - 1], c) else s
  }

  /** `s` with every character of `cs` removed. */
  function Strip(s: string, cs: set<char>): (r: string)
    ensures NoneOf(r, cs)
    ensures |r| <= |s|
    decreases |s|
  {
    if |s| == 0 then ""
    else if s[0] in cs then Strip(s[1..], cs)
    else [s[0]] + Strip(s[1..], cs)
  }

  /** The concatenation of all parts. */
  function Concat(parts: seq<string>): string
    decreases |parts|
  {
    if |parts| == 0 then "" else parts[0] + Concat(parts[1..])
  }

  /** string.Join(sep, parts). */
  function Join(parts: seq<string>, sep: char): string
    decreases |parts|
  {
    if |parts| == 0 then ""
    else if |parts| == 1 then parts[0]
    else parts[0] + [sep] + Join(parts[1..], sep)
  }

  /** s.Split(seps) with empty entries kept: the maximal runs of characters
      outside `seps`, one more than there are separators. */
  function SplitOn(s: string, seps: set<char>): (r: seq<string>)
    ensures |r| >= 1
    ensures forall i :: 0 <= i < |r| ==> NoneOf(r[i], seps)
    ensures Concat(r) == Strip(s, seps)
  {
    SplitPartsFacts(s, seps);
    SplitParts(s, seps)
  }

  /** The recursion behind SplitOn, scanning from the front. */
  function SplitParts(s: string, seps: set<char>): (r: seq<string>)
    ensures |r| >= 1
    decreases |s|
  {
    if |s| == 0 then [""]
    else
      var rest := SplitParts(s[1..], seps);
      if s[0] in seps then [""] + rest
      else [[s[0]] + rest[0]] + rest[1..]
  }

  /** The parts hold no separator and together hold every other character. */
  lemma {:induction false} SplitPartsFacts(s: string, seps: set<char>)
    ensures var r := SplitParts(s, seps);
      && (forall i :: 0 <= i < |r| ==> NoneOf(r[i], seps))
      && Concat(r) == Strip(s, seps)
    decreases |s|
  {
    if |s| > 0 {
      SplitPartsFacts(s[1..], seps);
      var rest := SplitParts(s[1..], seps);
      if s[0] in seps {
        assert ([""] + rest)[1..] == rest;
      } else {
        var r := [[s[0]] + rest[0]] + rest[1..];
        assert r[1..] == rest[1..];
        assert Concat(rest) == rest[0] + Concat(rest[1..]);
        assert Concat(r) == [s[0]] + Concat(rest);
        assert forall i :: 0 <= i < |r[0]| ==> r[0][i] == if i == 0 then s[0] else rest[0][i - 1];
      }
    }
  }

  /** The non-empty parts, in order (StringSplitOptions.RemoveEmptyEntries). */
  function NonEmpty(parts: seq<string>): (r: seq<string>)
    ensures forall i :: 0 <= i < |r| ==> r[i] != "" && r[i] in parts
    ensures Concat(r) == Concat(parts)
    ensures |parts| == 1 ==> r == (if parts[0] == "" then [] else parts)
    decreases |parts|
  {
    if |parts| == 0 then []
    else if parts[0] == "" then NonEmpty(parts[1..])
    else [parts[0]] + NonEmpty(parts[1..])
  }

  /** Splitting on one separator and joining with it again gives back the string. */
  lemma {:induction false} JoinSplit(s: string, sep: char)
    ensures Join(SplitOn(s, {sep}), sep) == s
    decreases |s|
  {
    if |s| > 0 {
      var rest := SplitOn(s[1..], {sep});
      JoinSplit(s[1..], sep);
      if s[0] == sep {
        assert SplitOn(s, {sep}) == [""] + rest;
        assert s == [sep] + s[1..];
      } else {
        var r := SplitOn(s, {sep});
        assert r == [[s[0]] + rest[0]] + rest[1..];
        if |rest| == 1 {
          assert s == [s[0]] + s[1..];
        } else {
          assert r[1..] == rest[1..];
          assert Join(rest, sep) == rest[0] + [sep] + Join(rest[1..], sep);
          assert s == [s[0]] + s[1..];
        }
      }
    }
  }

  /** Replacing one separator by another does not move the split points. */
  lemma {:induction false} SplitIgnoresSeparatorChoice(s: string, from: char, to: char, seps: set<char>)
    requires from in seps && to in seps
    ensures SplitOn(ReplaceChar(s, from, to), seps) == SplitOn(s, seps)
    decreases |s|
  {
    if |s| > 0 {
      SplitIgnoresSeparatorChoice(s[1..], from, to, seps);
      assert ReplaceChar(s, from, to)[1..] == ReplaceChar(s[1..], from, to);
    }
  }

  /** A string without separators splits into itself. */
  lemma {:induction false} SplitWhole(a: string, seps: set<char>)
    requires NoneOf(a, seps)
    ensures SplitOn(a, seps) == [a]
    decreases |a|
  {
    if |a| > 0 {
      SplitWhole(a[1..], seps);
      assert a == [a[0]] + a[1..];
    }
  }

  /** The parts of a string with one more character in front: a separator
      starts a new, empty first part; any other character joins the first part. */
  function PrependChar(c: char, parts: seq<string>, seps: set<char>): (r: seq<string>)
    requires |parts| >= 1
    ensures |r| >= 1
  {
    if c in seps then [""] + parts else [[c] + parts[0]] + parts[1..]
  }

  /** One step of SplitParts. */
  lemma SplitCons(c: char, t: string, seps: set<char>)
    ensures SplitParts([c] + t, seps) == PrependChar(c, SplitParts(t, seps), seps)
  {
    assert ([c] + t)[0] == c && ([c] + t)[1..] == t;
  }

  /** Prepending a character to a list of parts commutes with appending
      more parts. */
  lemma PrependCharAppend(c: char, x: seq<string>, y: seq<string>, seps: set<char>)
    requires |x| >= 1
    ensures PrependChar(c, x + y, seps) == PrependChar(c, x, seps) + y
  {
    assert (x + y)[0] == x[0] && (x + y)[1..] == x[1..] + y;
    if c in seps {
      assert [""] + (x + y) == ([""] + x) + y;
    }
  }

  /** The inductive step of SplitAtSeparator: putting a character in front
      keeps the split at the separator. */
  lemma SplitAtSeparatorStep(c: char, t: string, u: string, b: string, seps: set<char>)
    requires SplitParts(u, seps) == SplitParts(t, seps) + SplitParts(b, seps)
    ensures SplitParts([c] + u, seps) == SplitParts([c] + t, seps) + SplitParts(b, seps)
  {
    SplitCons(c, t, seps);
    SplitCons(c, u, seps);
    PrependCharAppend(c, SplitParts(t, seps), SplitParts(b, seps), seps);
  }

  /** A separator splits the string into the parts on either side of it. */
  lemma {:induction false} SplitAtSeparator(a: string, sep: char, b: string, seps: set<char>)
    requires sep in seps
    ensures SplitOn(a + [sep] + b, seps) == SplitOn(a, seps) + SplitOn(b, seps)
    decreases |a|
  {
    SplitPartsAtSeparator(a, sep, b, seps);
  }

  lemma {:induction false} SplitPartsAtSeparator(a: string, sep: char, b: string, seps: set<char>)
    requires sep in seps
    ensures SplitParts(a + [sep] + b, seps) == SplitParts(a, seps) + SplitParts(b, seps)
    decreases |a|
  {
    if |a| == 0 {
      assert a + [sep] + b == [sep] + b;
      SplitCons(sep, b, seps);
    } else {
      SplitPartsAtSeparator(a[1..], sep, b, seps);
      SplitAtSeparatorStep(a[0], a[1..], a[1..] + [sep] + b, b, seps);
      assert [a[0]] + a[1..] == a;
      assert a + [sep] + b == [a[0]] + (a[1..] + [sep] + b);
    }
  }

  /** Splitting undoes joining, for parts that hold no separator. */
  lemma {:induction false} SplitJoin(parts: seq<string>, sep: char, seps: set<char>)
    requires |parts| >= 1 && sep in seps
    requires forall i :: 0 <= i < |parts| ==> NoneOf(parts[i], seps)
    ensures SplitOn(Join(parts, sep), seps) == parts
    decreases |parts|
  {
    if |parts| == 1 {
      SplitWhole(parts[0], seps);
    } else {
      SplitJoin(parts[1..], sep, seps);
      SplitAtSeparator(parts[0], sep, Join(parts[1..], sep), seps);
      SplitWhole(parts[0], seps);
      assert parts == [parts[0]] + parts[1..];
    }
  }

  /** Dropping empty parts distributes over concatenation of lists, so the
      kept parts keep their order and multiplicity. */
  lemma {:induction false} NonEmptyAppend(a: seq<string>, b: seq<string>)
    ensures NonEmpty(a + b) == NonEmpty(a) + NonEmpty(b)
    decreases |a|
  {
    if |a| > 0 {
      NonEmptyAppend(a[1..], b);
      NonEmptyFirst(a, b);
      AppendAssoc(if a[0] == "" then [] else [a[0]], NonEmpty(a[1..]), NonEmpty(b));
    } else {
      assert a + b == b;
    }
  }

  /** One step of NonEmpty on a joined list: the first part is kept unless it
      is empty. */
  lemma NonEmptyFirst(a: seq<string>, b: seq<string>)
    requires |a| > 0
    ensures NonEmpty(a + b) == (if a[0] == "" then [] else [a[0]]) + NonEmpty(a[1..] + b)
  {
    assert (a + b)[1..] == a[1..] + b;
  }

  /** Joining three lists does not depend on the grouping. */
  lemma AppendAssoc(x: seq<string>, y: seq<string>, z: seq<string>)
    ensures (x + y) + z == x + (y + z)
  {
  }

  /** Dropping empty parts keeps a list that has none. */
  lemma {:induction false} NonEmptyKeeps(parts: seq<string>)
    requires forall i :: 0 <= i < |parts| ==> parts[i] != ""
    ensures NonEmpty(parts) == parts
    decreases |parts|
  {
    if |parts| > 0 {
      NonEmptyKeeps(parts[1..]);
      assert parts == [parts[0]] + parts[1..];
    }
  }

  /** Parts without characters have an empty concatenation, and only they do. */
  lemma NonEmptyConcat(parts: seq<string>)
    requires forall i :: 0 <= i < |parts| ==> parts[i] != ""
    ensures Concat(parts) == "" <==> parts == []
  {
    if |parts| > 0 {
      assert |Concat(parts)| >= |parts[0]|;
    }
  }

  /** The manifest format's escaping: every backslash doubled. */
  function DoubleBackslashes(s: string): (r: string)
    ensures |r| >= |s|
    decreases |s|
  {
    if |s| == 0 then ""
    else if s[0] == '\\' then "\\\\" + DoubleBackslashes(s[1..])
    else [s[0]] + DoubleBackslashes(s[1..])
  }

  /** s.Replace("\\\\", "\\"): each pair of backslashes, scanning left to right
      without overlap, becomes one backslash. */
  function CollapseBackslashes(s: string): (r: string)
    ensures |r| <= |s|
    ensures NoneOf(s, {'\\'}) ==> r == s
    decreases |s|
  {
    if |s| == 0 then ""
    else if |s| >= 2 && s[0] == '\\' && s[1] == '\\' then "\\" + CollapseBackslashes(s[2..])
    else [s[0]] + CollapseBackslashes(s[1..])
  }

  /** Unescaping undoes escaping. */
  lemma {:induction false} CollapseUndoesDouble(s: string)
    ensures CollapseBackslashes(DoubleBackslashes(s)) == s
    decreases |s|
  {
    if |s| > 0 {
      CollapseUndoesDouble(s[1..]);
      var d := DoubleBackslashes(s[1..]);
      if s[0] == '\\' {
        assert DoubleBackslashes(s) == "\\\\" + d;
        assert ("\\\\" + d)[2..] == d;
      } else {
        assert DoubleBackslashes(s) == [s[0]] + d;
        assert ([s[0]] + d)[1..] == d;
      }
      assert s == [s[0]] + s[1..];
    }
  }
}
